=== FILE: README.md ===
# Boggle solver: a verified model of the pure core

This project models the decision logic of a service that reads a photographed
Boggle board and lists the dictionary words on it. It does not model the image
processing or the OCR engine. It models the logic around them:

- the word search: the trie, the dictionary line filter, the depth-first
  search over the 8-neighbour grid, the canonical start cell per word, and the
  sorting and truncation of the result;
- the recognition rules: OCR text cleaning with its confusion table, the fold
  of OCR boxes into grid cells, the hole-checked template pick, the R/P
  dark-pixel test, and the passes of `recognize_cells`;
- the board-detection combinatorics: corner ordering, the acceptance rules of
  the contour, cell-grouping and Hough routes, the fallback chain with its
  method tag, and the mapping from a contour count to the grid size;
- the cell segmentation arithmetic of `split_cells`;
- the title and body of the push notification.

Everything is immutable datatypes and pure functions. `SplitCells` is a method
with loops. Confidences and scores are `real` and are only compared.
OpenCV's and EasyOCR's results enter as plain inputs:

- contour areas and polygons;
- bounding rectangles;
- Hough segments already labelled horizontal or vertical;
- OCR boxes;
- template scores;
- hole counts;
- cell pixels.

Modules, one per source component:

| module | file | models |
|---|---|---|
| `Trie` | trie.dfy | `TrieNode`, `Trie.insert`, the `load_trie` line filter |
| `Search` | search.dfy | `solve`: cells, adjacency, `dfs`, `word_starts`, sort and cut |
| `WordOrder` | word_order.dfy | the `(-len(w), w)` order, `sorted` of a set, `[:max_results]` |
| `SearchExamples` | search_examples.dfy | the solver's test boards |
| `Ascii` | ascii.dfy | `upper`, `strip`, `isalpha` on ASCII |
| `OcrText` | ocr_text.dfy | `CONFUSION_MAP`, `_clean_ocr_text` |
| `OcrCells` | ocr_cells.dfy | the box-to-cell fold of `_easyocr_full_board` |
| `Templates` | templates.dfy | `TEMPLATE_HOLES`, `_template_match`, `_template_match_verified` |
| `RpCheck` | rp_check.dfy | `_disambiguate_rp` |
| `Recognize` | recognize.dfy | the passes of `recognize_cells` |
| `BoardDetect` | board_detect.dfy | `_order_corners` |
| `BoardRoutes` | board_detect.dfy | the three routes, `detect_board_and_warp`'s chain, `infer_grid_size` |
| `CellExtract` | cell_extract.dfy | `split_cells` |
| `Notifier` | notifier.dfy | title and body of `send_notification` |
| `GridIndex`, `PyInt`, `Wrappers` | grid_index.dfy, py_int.dfy, wrappers.dfy | `divmod` on the grid, `int()` of a float, `Option` |

Where the code differs from what its comments or a first reading suggest, the model follows the code:

- **Corner order.** `np.diff` gives y − x. So the top-right corner minimises
  y − x, not x − y as the comment says.
- **Cross-check.** The confidence is raised to the larger of the two only when
  the letters agree or the OCR confidence is at least 0.9. A disagreement whose
  override is rejected leaves the cell as it is.
- **Grid-size filter.** The bounds are strict, on `(w/8)(h/8)` and
  `(w/3)(h/3)`, not closed intervals.
- **OCR cell index.** It is clamped from above only.
- **Cell-grouping padding.** The padding is truncated to an integer, then the
  box is clamped to the image.
- **Return value of `solve`.** It is the pair (word list, start map), not a
  bare list. The solver's tests (tests/test_solver.py:23-25, 30, 42, 54-55
  and 62) treat that pair as a list: `"CAT" in result` asks whether the pair
  has an element equal to "CAT", which is false, and `result == []` fails on
  a pair. The test lemmas of `SearchExamples` therefore state each test's
  intent on the pair's parts: membership in the word list `.words` at the
  default `max_results` of 50, and in the start map `.starts`.

## Model

| member | source | states |
|---|---|---|
| Trie.Insert | app/solver.py:16-22 | after `insert(w)` the trie holds `w`, and every other string is held exactly when it was held before |
| Trie.Build | tests/test_solver.py:5-9 | inserting a list of words one by one gives a trie whose words are exactly that list |
| Trie.WalkAppend | app/solver.py:70-75 | walking `a + b` is walking `a`, then `b` from where `a` ended; a missing edge on the way aborts the walk |
| Trie.LeafEndsWords | app/solver.py:86 | below a node without children there is no further word, so pruning on `current.children` loses nothing |
| Trie.EmptyHasNoWords | app/solver.py:12-14 | a fresh trie holds no word, not even the empty one |
| Trie.Normalize | app/solver.py:29 | `line.strip().upper()`; its meaning is given by Trie.LoadTrie and Trie.LoadedWordsAreUpperAlpha |
| Trie.Accepted | app/solver.py:30 | the line filter `len(word) >= min_length and word.isalpha()` on the normalised line; Trie.LoadTrie states that exactly the accepted lines end up in the trie |
| Trie.LoadTrie | app/solver.py:25-32 | the loaded trie holds exactly the stripped, upper-cased lines that are at least `min_length` long and all alphabetic |
| Trie.ListedSnoc | app/solver.py:28-31 | a word comes from the lines plus one more line iff it comes from the earlier lines or from that line |
| Trie.LoadedWordsAreUpperAlpha | app/solver.py:29-31 | every loaded word is non-empty, at least `min_length` long, and made of capitals A-Z only |
| Search.CellChars | app/solver.py:46-49 | the row-major list of upper-cased cell strings, `n * n` long; Search.CellCharsAt locates each cell |
| Search.NeighborsOf | app/solver.py:52-63 | the neighbour list of a cell lies on the grid; Search.NeighborsAdjacent gives its members exactly |
| Search.Offset | app/solver.py:56-62 | one step of the `(dr, dc)` loop keeps at most one cell, always a cell of the grid |
| Search.OffsetMember | app/solver.py:60-62 | the kept cell is exactly the one at row `r + dr`, column `c + dc`, and only when both lie on the grid |
| Search.NeighborsAdjacent | app/solver.py:52-63 | `j` is in the neighbour list of `idx` iff `j` is a cell of the grid 8-adjacent to `idx` and different from it |
| Search.CellCharsAt | app/solver.py:46-49 | the flat cell `r * n + c` is the upper-cased board string at row `r`, column `c` |
| Search.ConcatAppend | app/solver.py:77-79 | joining the strings of two consecutive path pieces is joining each piece and concatenating |
| Search.CellStrings | app/solver.py:77-79 | the strings of the cells along a path, one per cell, in path order, as `path` holds them |
| Search.Dfs | app/solver.py:65-91 | the recordings of `dfs` in search order, one per word reached; Search.DfsSound and Search.DfsComplete state that they are exactly the legal extensions spelling trie words |
| Search.DfsSound | app/solver.py:65-89 | every word the search records from a legal partial path starts at the search's start cell and is a trie word spelled by a legal path from it: in-grid, pairwise distinct, 8-adjacent, no `?` cell |
| Search.DfsComplete | app/solver.py:65-89 | every legal extension of the current path whose spelling is a trie word is recorded, with the search's start cell |
| Search.StartExact | app/solver.py:93-94 | the search from cell `t` records `(w, s)` iff `s == t` and `w` is a trie word spelled by a legal path starting at `s` |
| Search.SearchExact | app/solver.py:93-94 | over all start cells, `(w, s)` is recorded iff `w` is a trie word spelled by a legal path starting at `s` |
| Search.Record | app/solver.py:81-84 | one update of `word_starts`: a word's start is set when it is new or when the new `(row, col)` is smaller |
| Search.StartsFold | app/solver.py:80-84 | the start map after all recordings has exactly the recorded words as keys, each mapped to the `(row, col)` of one of its recordings, no recording having a smaller start |
| Search.Words | app/solver.py:80 | the words of the recordings, one per recording, in order; `found` is the set of them |
| Search.StartsLeast | app/solver.py:81-84 | after one more update of `word_starts`, no recording of a word has a start `(row, col)` smaller than the stored one |
| Search.StartsWitness | app/solver.py:81-84 | after one more update of `word_starts`, each stored start is the `(row, col)` of a recording of that word |
| Search.Solve | app/solver.py:35-99 | the pair `solve` returns; its meaning is given by Search.SolveFindsExactly, Search.SolveCanonicalStart, Search.SolveKeys, Search.SolveWordList and Search.SolveKeepsAll |
| Search.SolveFindsExactly | app/solver.py:35-99 | `w` is a key of the start map iff `w` is a trie word spelled by some legal path (soundness and completeness) |
| Search.SolveCanonicalStart | app/solver.py:81-84 | the start stored for `w` is the first cell of some legal path spelling `w`, and no such path starts at a smaller `(row, col)` |
| Search.SolveKeys | app/solver.py:80-84 | the keys of the start map are exactly the found words, even when the list is cut |
| Search.SolveWordList | app/solver.py:96-99 | the list is strictly ordered by (length descending, text ascending) and is a subset of the keys; it is uncut when `max_results <= 0`, else it has `min(max_results, #keys)` words; every dropped word comes after every kept one |
| Search.SolveStartsBound | app/solver.py:80-84 | the start map has no more words than the dictionary list the trie was built from |
| Search.SolveKeepsAll | app/solver.py:97-98 | when `max_results <= 0` or at least the number of words found, the list holds exactly the keys of the start map |
| Search.SolveListsPlayable | app/solver.py:35-99 | for a trie built from no more than `max_results` words (or `max_results <= 0`), `w` is in the returned list iff it is a trie word spelled by some legal path |
| WordOrder.LexLess | app/solver.py:97 | Python's string `<`; WordOrder.BeforeTotal, WordOrder.BeforeTransitive and WordOrder.BeforeIrreflexive make it, with length, a strict total order |
| WordOrder.Before | app/solver.py:97 | `(-len(a), a) < (-len(b), b)`: longer first, then alphabetical; the three lemmas that follow make it a strict total order |
| WordOrder.BeforeTotal | app/solver.py:97 | the sort key orders any two different words one way or the other |
| WordOrder.BeforeTransitive | app/solver.py:97 | the sort key order is transitive |
| WordOrder.BeforeIrreflexive | app/solver.py:97 | no word sorts before itself |
| WordOrder.InsertWord | app/solver.py:97 | inserting a word into a strictly ordered list keeps it strictly ordered and adds exactly that word |
| WordOrder.SortDistinct | app/solver.py:97 | `sorted(found, key)` is strictly ordered and has exactly the members of its input |
| WordOrder.SortedUnique | app/solver.py:97 | two strictly ordered lists with the same members are equal, so the set's iteration order cannot change the result |
| WordOrder.Truncate | app/solver.py:98 | the cut is a prefix; the whole list when `max_results <= 0`, else `min(max_results, len)` words |
| WordOrder.TruncateKeepsTop | app/solver.py:98 | the cut of a strictly ordered list is strictly ordered, and every dropped word comes after every kept word |
| SearchExamples.BasicSolve | tests/test_solver.py:12-30 | on the 4x4 test board CAT, CATS and BONE are in the word list returned at the default `max_results` of 50, and every returned word, at any `max_results`, is in the dictionary |
| SearchExamples.QuCellSpellsQuit | tests/test_solver.py:33-42 | a `QU` cell followed by I and T spells QUIT, which is a key of the start map at any `max_results` and is in the word list at the default 50 |
| SearchExamples.QuIsAtomic | app/solver.py:70-77 | a `QU` cell never ends a word after its Q: with Q and QI in the dictionary, neither is found |
| SearchExamples.NoRevisit | tests/test_solver.py:45-55 | on `[[A,B],[C,D]]` with ABA, AB, ABC, the word AB is in the start map and in the word list at the default 50, and ABA is in neither, at any `max_results` |
| SearchExamples.AllZUnplayable | tests/test_solver.py:58-62 | on four Z cells no legal path spells a dictionary word when the dictionary is CAT and DOG |
| SearchExamples.NoMatches | tests/test_solver.py:58-62 | on `[[Z,Z],[Z,Z]]` with CAT and DOG the word list is empty and the starts map is empty |
| Ascii.UpperStr | app/solver.py:29 | upper-casing keeps the length and maps each character on its own, turning a-z into A-Z |
| Ascii.Upper | app/solver.py:29 | a lower-case letter becomes its capital, 32 code points down; every other character is unchanged; no lower-case letter comes out |
| Ascii.StripLeft | app/recognition.py:204 | a suffix of the input that is empty or starts with a non-space, everything dropped being whitespace |
| Ascii.StripRight | app/recognition.py:204 | a prefix of the input that is empty or ends with a non-space, everything dropped being whitespace |
| Ascii.Strip | app/recognition.py:204 | a slice of the input that neither starts nor ends with whitespace, everything around it in the input being whitespace |
| OcrText.Confuse | app/recognition.py:12-20 | a mapped character is unchanged or a capital letter, and a letter is never remapped |
| OcrText.Clean | app/recognition.py:202-222 | the cleaned text is empty, `QU`, or one capital letter other than Q |
| OcrText.StripKeepsLetters | app/recognition.py:204-215 | stripping whitespace before the confusion map and the alpha filter does not change the letters kept |
| OcrText.CleanIsFirstLetter | app/recognition.py:202-222 | the cleaned text is decided by the first character that is a letter once upper-cased and mapped: none gives empty, Q gives `QU`, any other gives that letter |
| OcrText.CleanIdempotent | app/recognition.py:202-222 | cleaning a cleaned text changes nothing |
| OcrText.CleanOneChar | app/recognition.py:208-222 | a one-character text cleans to its upper-cased, mapped form if that is a letter (Q as `QU`), else to empty |
| OcrText.CleanBar | app/recognition.py:16 | the vertical bar cleans to I |
| OcrText.CleanBang | app/recognition.py:17 | `!` cleans to I |
| OcrText.CleanBrace | app/recognition.py:18 | `{` cleans to C |
| OcrText.CleanParen | app/recognition.py:19 | `(` cleans to C |
| OcrText.CleanUpperA | tests/test_recognition.py:8 | `A` cleans to A |
| OcrText.CleanLowerA | tests/test_recognition.py:9 | `a` cleans to A |
| OcrText.CleanUpperQ | tests/test_recognition.py:10 | `Q` cleans to QU |
| OcrText.CleanLowerQ | tests/test_recognition.py:11 | `q` cleans to QU |
| OcrText.CleanZero | tests/test_recognition.py:15 | `0` cleans to O |
| OcrText.CleanOne | tests/test_recognition.py:16 | `1` cleans to I |
| OcrText.CleanFive | tests/test_recognition.py:17 | `5` cleans to S |
| OcrText.CleanNothing | tests/test_recognition.py:21 | the empty text cleans to empty |
| OcrText.CleanBlank | tests/test_recognition.py:22 | a blank text cleans to empty |
| OcrText.CleanDigitRun | tests/test_recognition.py:23 | `123` cleans to I |
| OcrText.CleanTwoLetters | tests/test_recognition.py:28 | `AB` cleans to A |
| OcrText.CleanQu | tests/test_recognition.py:29 | `QU` cleans to QU |
| OcrCells.CellOf | app/recognition.py:182-189 | the cell of a box's centre is never beyond the last row or column; OcrCells.CellOnBoard gives the lower bound |
| OcrCells.Axis | app/recognition.py:186-189 | one coordinate's cell index is never beyond the last row or column; OcrCells.AxisOnBoard says when it is non-negative |
| OcrCells.AxisOnBoard | app/recognition.py:186-189 | the truncated cell index of one coordinate is non-negative iff the centre lies less than one cell before the image edge, since `int()` truncates `-0.5` to `0` |
| OcrCells.CellOnBoard | app/recognition.py:186-189 | a box lands on a cell of the board iff its centre lies less than one cell left of and above the image; no box lands beyond the last row or column |
| OcrCells.Read | app/recognition.py:185-192 | a box's reading holds its cell, its cleaned text and its confidence |
| OcrCells.Readings | app/recognition.py:185-191 | each box gives a reading: its clamped cell, its cleaned text, its confidence |
| OcrCells.Keep | app/recognition.py:191-197 | one step of the fold; OcrCells.FoldKeys and OcrCells.FoldValues state what it keeps |
| OcrCells.Fold | app/recognition.py:182-199 | a cell holds a detection iff some box with non-empty cleaned text lands there; it holds the text and confidence of the most confident one, the earliest on ties |
| OcrCells.FoldKeys | app/recognition.py:192-197 | one more box adds its cell to the detections iff its cleaned text is not empty |
| OcrCells.FoldValues | app/recognition.py:196-197 | after one more box, every stored detection is still the most confident one on its cell, the earliest on ties |
| OcrCells.StoredAreLetters | app/recognition.py:191-197 | every stored OCR text is `QU` or one capital letter other than Q |
| Templates.HoleExamples | app/recognition.py:74-79 | B expects two holes and QU one; a letter missing from the table, such as Q, expects none; the tolerance is one hole either way |
| Templates.SortDesc | app/recognition.py:121 | sorting by descending score gives a descending permutation of the scores |
| Templates.FirstWhere | app/recognition.py:129-132 | the first entry that fits is an entry of the list and fits; there is none iff no entry fits |
| Templates.SortedFirstIsBest | app/recognition.py:121-132 | the first fitting entry after the stable descending sort is the best fitting entry of the unsorted scores, the earliest on ties |
| Templates.BestWhere | app/recognition.py:121-132 | the best fitting entry fits, scores at least as much as every fitting entry and more than every earlier one; there is none iff no entry fits |
| Templates.PlainMatch | app/recognition.py:82-94 | `_template_match` over given scores; Templates.PlainMatchIsBest states that it picks the earliest best score above -1 |
| Templates.PlainMatchIsBest | app/recognition.py:82-94 | the plain matcher answers with the best-scoring template, the earliest on ties, unless no score beats -1 |
| Templates.VerifiedMatch | app/recognition.py:111-143 | no scores give `("?", 0)`; otherwise the answer is R, P or one of the scored letters |
| Templates.VerifiedMatchReference | app/recognition.py:111-143 | the answer is the best hole-compatible letter, the earliest on ties. An R/P pick that the R/P test contradicts becomes the test's letter, with that letter's best score if it was scored, else the pick's. With no compatible letter it is the top score; with no scores, `("?", 0)` |
| RpCheck.DarkIn | app/recognition.py:104-106 | the dark pixels (< 128) of one row from column `c0` on; RpCheck.DarkenCounts relates it to a changed pixel |
| RpCheck.DarkRows | app/recognition.py:104-106 | the dark pixels of a block of rows from column `c0` on |
| RpCheck.TotalDark | app/recognition.py:105 | `np.sum(cell < 128)`; RpCheck.LowerRightWithinTotal bounds the quadrant count by it |
| RpCheck.Max1 | app/recognition.py:105 | `max(total, 1)`: at least 1 and at least the count, and equal to one of them |
| RpCheck.LowerRightDark | app/recognition.py:104-106 | `np.sum(cell[h // 2:, w // 2:] < 128)`; RpCheck.VerdictInIntegers decides the verdict from it |
| RpCheck.Disambiguate | app/recognition.py:97-108 | the verdict is R or P |
| RpCheck.RatioAbove | app/recognition.py:107-108 | `lr / total > 0.08` iff `25 lr > 2 total`, for a positive total |
| RpCheck.VerdictInIntegers | app/recognition.py:103-108 | the verdict is R iff 25 times the dark pixels of the lower-right quadrant exceeds twice `max(total dark, 1)` |
| RpCheck.LowerRightWithinTotal | app/recognition.py:104-106 | the lower-right quadrant never has more dark pixels than the whole cell |
| RpCheck.AllLightIsP | app/recognition.py:105-108 | a cell with no dark pixel is judged P |
| RpCheck.DarkenCounts | app/recognition.py:104-106 | darkening one light pixel of the lower-right quadrant adds one to both counts |
| RpCheck.DarkeningLegKeepsR | app/recognition.py:97-108 | an R verdict stays R when one more pixel of the lower-right quadrant turns dark |
| Recognize.Synthetic | app/recognition.py:51-61 | the synthetic template set has the 26 letters A-Z, in order |
| Recognize.Effective | app/recognition.py:257 | the templates used are never empty, and they are the loaded ones when any are loaded |
| Recognize.Valid | app/recognition.py:241-252 | the inputs the passes work on: `n * n` cells, each scored against every template in use, with OCR a positive grid size and, when OCR reports any box, a positive image height and box centres less than one cell left of or above the image |
| Recognize.Detections | app/recognition.py:246-248 | every OCR detection is on a cell of the board; none without OCR |
| Recognize.Coord | app/recognition.py:250 | the cell of flat index `i` is on the board and `r * n + c` gives `i` back |
| Recognize.OcrLetter | app/recognition.py:249-252 | an OCR detection written to a cell is a template name and never a bare Q |
| Recognize.AfterOcr | app/recognition.py:242-252 | a cell after the OCR pass: the detection on its cell, else `("?", 0)`; Recognize.TemplatePassFillsUnknown relates the two |
| Recognize.AfterTemplates | app/recognition.py:256-265 | a cell after the template pass; Recognize.TemplatePassFillsUnknown states that exactly the `?` cells are rewritten |
| Recognize.TemplatePassFillsUnknown | app/recognition.py:245-265 | a cell is still `?` after OCR iff OCR missed it; the template pass writes exactly those cells, so none stays `?` |
| Recognize.CrossCheck | app/recognition.py:278-291 | the merge of one OCR-detected cell with its template result; Recognize.CrossCheckRule states the override and the confidence rule |
| Recognize.RMax | app/recognition.py:291 | `max` of two confidences: at least both, and equal to one of them |
| Recognize.AfterCrossCheck | app/recognition.py:272-291 | a cell after the cross-check; Recognize.CrossCheckCells states which cells it touches |
| Recognize.CrossCheckRule | app/recognition.py:278-291 | the template overrides iff the letters differ, OCR < 0.9 and (template > 0.85 or template > OCR with OCR < 0.7); then the cell becomes the template result. A rejected override leaves the cell unchanged. Agreement, or OCR >= 0.9, keeps the letter and raises the confidence to the larger of the two |
| Recognize.CrossCheckCells | app/recognition.py:273-277 | the cross-check touches a cell only when templates were loaded and OCR detected that cell |
| Recognize.RpFix | app/recognition.py:293-304 | an R or P cell takes the R/P verdict; Recognize.RpVerdictFinal states it |
| Recognize.QuFix | app/recognition.py:306-309 | a bare Q becomes QU; Recognize.FinalLetters states that no bare Q remains |
| Recognize.Final | app/recognition.py:241-309 | a cell after all passes; Recognize.FinalLetters and Recognize.RpVerdictFinal state what it can be |
| Recognize.RpVerdictFinal | app/recognition.py:293-304 | a cell that is R or P after the cross-check ends as the R/P verdict with its confidence unchanged; every final R or P is the verdict |
| Recognize.FinalLetters | app/recognition.py:241-310 | every final cell is a template name, never `?` and never a bare Q |
| Recognize.Reshape | app/recognition.py:312-313 | `n` rows of `n`, and row `r`, column `c` is flat entry `r * n + c` |
| Recognize.RecognizeCells | app/recognition.py:241-315 | the result is `n` rows of `n` letters and `n` rows of `n` confidences; each cell holds what the passes decided for flat index `r * n + c` |
| BoardDetect.ArgMin | app/board_detect.py:13-15 | the index of the first minimum |
| BoardDetect.ArgMax | app/board_detect.py:14-16 | the index of the first maximum |
| BoardDetect.OrderCorners | app/board_detect.py:8-17 | four corners come out, each one of the input points |
| BoardDetect.Sums | app/board_detect.py:11 | one entry per point, its x + y |
| BoardDetect.Diffs | app/board_detect.py:12 | one entry per point, its second coordinate minus its first, y − x |
| BoardDetect.OrderCornersExtremes | app/board_detect.py:11-16 | corners 0 and 2 minimise and maximise x + y; corners 1 and 3 minimise and maximise y - x |
| BoardDetect.OrderCornersUpright | app/board_detect.py:8-17 | the corners of an upright rectangle, given in any order, come out as top-left, top-right, bottom-right, bottom-left |
| BoardDetect.OrderCornersNotPermutation | app/board_detect.py:13-16 | with collinear points the output repeats a point, so it is not a permutation of the input |
| BoardDetect.OrderCornersTest | tests/test_board_detect.py:64-70 | the test's square comes out with (0,0) first and (300,300) third |
| BoardRoutes.Acceptable | app/board_detect.py:45-61 | the acceptance test of one contour candidate; BoardRoutes.VerdictAt and BoardRoutes.DegenerateSkipped state its parts |
| BoardRoutes.VerdictAt | app/board_detect.py:45-61 | a candidate is accepted iff its area is not below 5% of the image, it has four vertices, its left side is not degenerate, and its width-to-height ratio is strictly between 0.6 and 1.6 |
| BoardRoutes.Verdicts | app/board_detect.py:45-61 | one verdict per candidate, in order; BoardRoutes.VerdictAt says which |
| BoardRoutes.Areas | app/board_detect.py:46 | the contour area of each candidate, in order |
| BoardRoutes.DegenerateSkipped | app/board_detect.py:56-59 | a quadrilateral whose ordered left side has length zero is skipped |
| BoardRoutes.FirstLargest | app/board_detect.py:61-63 | the stored candidate is accepted, has positive area, is at least as large as every accepted one, and is strictly larger than every earlier one; none iff no accepted candidate has positive area |
| BoardRoutes.FindBoardContour | app/board_detect.py:20-65 | no contour iff no accepted candidate has positive area; otherwise the ordered corners of the first largest accepted candidate |
| BoardRoutes.CellLike | app/board_detect.py:127-131 | a contour is cell-like when its area is strictly between 0.8% and 6% of the image and its aspect strictly between 0.6 and 1.6; BoardRoutes.CellBoxesExactly collects exactly those |
| BoardRoutes.Aspect | app/board_detect.py:130 | for a positive height, the ratio times the height is the width; 0 for zero height; never negative |
| BoardRoutes.CellBoxes | app/board_detect.py:125-132 | at most one rectangle per contour, each with its near corner not beyond its far corner; BoardRoutes.CellBoxesExactly says which |
| BoardRoutes.CellBoxesExactly | app/board_detect.py:125-132 | the collected rectangles are exactly the bounding rectangles of the cell-like contours |
| BoardRoutes.PaddedBox | app/board_detect.py:138-156 | an axis-aligned box, clamped to the image, that covers every collected rectangle clamped to the image |
| BoardRoutes.LeastX0 | app/board_detect.py:139 | no rectangle starts left of it, and some rectangle starts there |
| BoardRoutes.LeastY0 | app/board_detect.py:140 | no rectangle starts above it, and some rectangle starts there |
| BoardRoutes.GreatestX1 | app/board_detect.py:141 | no rectangle ends right of it, and some rectangle ends there |
| BoardRoutes.GreatestY1 | app/board_detect.py:142 | no rectangle ends below it, and some rectangle ends there |
| BoardRoutes.Pad | app/board_detect.py:145 | `int(min(width, height) * 0.02)`; BoardRoutes.PaddedBoxPadding states the padded, clamped box |
| BoardRoutes.PaddedBoxPadding | app/board_detect.py:145-149 | the padding is `floor(0.02 * min(width, height))` of the raw box, and each edge moves out by it unless the clamp stops it |
| BoardRoutes.FindBoardFromCells | app/board_detect.py:108-160 | none iff fewer than 12 cell-like contours; otherwise a clamped axis-aligned box covering every cell-like contour |
| BoardRoutes.Rows | app/board_detect.py:79-83 | the row positions are exactly the midpoints of the horizontal segments |
| BoardRoutes.Columns | app/board_detect.py:79-85 | the column positions are exactly the midpoints of the vertical segments |
| BoardRoutes.Sort | app/board_detect.py:90-91 | sorting gives an ascending permutation |
| BoardRoutes.SortedEnds | app/board_detect.py:90-96 | the first and last sorted values are members and bound every value |
| BoardRoutes.Corners | app/board_detect.py:93-105 | an upright rectangle whose edges are the outermost rows and columns |
| BoardRoutes.FindBoardHough | app/board_detect.py:68-105 | none iff there are no lines, or fewer than two horizontal or two vertical ones; otherwise the upright rectangle through the outermost row and column positions |
| BoardRoutes.CenterCrop | app/board_detect.py:178-188 | the fallback box lies in the image and is centred on it |
| BoardRoutes.Name | app/board_detect.py:168-189 | the method tag of each route; BoardRoutes.NamesDistinct states the tags differ |
| BoardRoutes.Route | app/board_detect.py:167-176 | the corners each route yields; BoardRoutes.DetectBoardOrder states the chain's order |
| BoardRoutes.DetectBoard | app/board_detect.py:167-192 | four corners always come out, and they are what the named route returns |
| BoardRoutes.DetectBoardOrder | app/board_detect.py:167-189 | the tag is contour iff the contour route succeeds, and so on down the chain: the tag names the first route that yields corners, the centre crop when none does |
| BoardRoutes.NamesDistinct | app/board_detect.py:168-189 | the four tags are different strings |
| BoardRoutes.BlankImageFallsBack | tests/test_board_detect.py:73-77 | a blank 600x800 image falls back to the centre crop (60,160)-(540,640) |
| BoardRoutes.CellSized | app/board_detect.py:225-234 | the strict area and aspect filter of the count; BoardRoutes.CountCells counts exactly the contours that pass it |
| BoardRoutes.CountCells | app/board_detect.py:225-235 | the count is at most the number of contours, and zero iff no contour is cell-sized |
| BoardRoutes.CountCellsAppend | app/board_detect.py:228-235 | counting over two lists of contours adds the counts |
| BoardRoutes.NearestKey | app/board_detect.py:238-239 | the chosen square is one of 16, 25, 36, is nearest to the count, and is the first such in dictionary order |
| BoardRoutes.NoTie | app/board_detect.py:239 | for integer counts the nearest square is strictly nearer than the others |
| BoardRoutes.InferGridSize | app/board_detect.py:208-243 | the size is 4, 5 or 6, and its square is the nearest square to the count |
| BoardRoutes.GridSizeBands | app/board_detect.py:237-240 | the size is 4 iff the count is at most 20, 5 iff it is 21 to 30, and 6 iff it is at least 31 |
| PyInt.Trunc | app/cell_extract.py:10-11 | `int()` of a float truncates toward zero |
| CellExtract.Boundary | app/cell_extract.py:16-19 | the raw boundary `floor(k * size / n)`; CellExtract.BoundaryIsTrunc and CellExtract.BoundaryRange state its meaning |
| CellExtract.Inset | app/cell_extract.py:10-11 | `int(size / n * inset)`; CellExtract.InsetNonNegative and CellExtract.HalfInset bound it |
| CellExtract.CellSpan | app/cell_extract.py:16-19 | the rows and columns of cell `(r, c)`; CellExtract.NoOverlap, CellExtract.InsideBoard and CellExtract.InsetSymmetric state its meaning |
| CellExtract.BoundaryIsTrunc | app/cell_extract.py:16-19 | the exact integer boundary `floor(k * size / n)` equals `int(k * (size / n))` on exact reals |
| CellExtract.InsetNonNegative | app/cell_extract.py:10-11 | the inset is never negative for an inset fraction of at least 0 |
| CellExtract.SplitRow | app/cell_extract.py:15-21 | one row's cells, column by column |
| CellExtract.AppendRow | app/cell_extract.py:14-21 | appending row `r` to the first `r` rows gives the first `r + 1` rows in row-major order |
| CellExtract.SplitCells | app/cell_extract.py:5-23 | exactly `n * n` cells, cell `i` being the span of row `i / n`, column `i % n` |
| CellExtract.SplitCellsRowMajor | app/cell_extract.py:14-21 | cell `(r, c)` is at index `r * n + c` |
| CellExtract.BoundaryRange | app/cell_extract.py:16-19 | boundaries start at 0, end at the full size, and never decrease |
| CellExtract.NearlyEqual | app/cell_extract.py:8-19 | each band is `size / n` or one more pixel wide |
| CellExtract.NoOverlap | app/cell_extract.py:16-19 | with a non-negative inset, a cell ends no later than where any cell below or to its right begins |
| CellExtract.InsideBoard | app/cell_extract.py:16-19 | with a non-negative inset, every cell lies inside the board |
| CellExtract.RowsCover | app/cell_extract.py:16-17 | with no inset, every pixel row lies in some band |
| CellExtract.RowsDisjoint | app/cell_extract.py:16-17 | with no inset, no pixel row lies in two bands |
| CellExtract.InsetSymmetric | app/cell_extract.py:10-19 | for an inset fraction below one half, the same inset is cut from top and bottom, and from left and right, and the cell is not inverted |
| CellExtract.HalfInset | app/cell_extract.py:10-11 | for an inset fraction below one half, twice the inset fits in the narrowest band |
| Notifier.NatToStr | app/notifier.py:23 | decimal digits without a leading zero |
| Notifier.NatToStrRoundTrip | app/notifier.py:23 | reading the decimal text back gives the number |
| Notifier.IntToStr | app/notifier.py:23 | the text starts with a minus sign iff the number is negative |
| Notifier.IntToStrRoundTrip | app/notifier.py:23 | reading `str()` of an integer back gives the integer, and the text holds only digits and a minus sign |
| Notifier.Title | app/notifier.py:23 | the title; Notifier.TitleReadBack states what it announces |
| Notifier.TitleReadBack | app/notifier.py:23 | the title starts with `Boggle `, the number before the `x` reads back as the grid size, and the number before ` words` reads back as the number of words |
| Notifier.TitleExample | app/notifier.py:23 | twelve words on a 4x4 board give the title `Boggle 4x4 - 12 words` |
| Notifier.Group | app/notifier.py:19-21 | `by_length[L]`: words of length `L` from the input, in input order; Notifier.SelectedByLength and Notifier.TalliesSpec use it |
| Notifier.MinLen | app/notifier.py:25 | the shortest listed length is 3 or 4, and 4 exactly when the grid is larger than 5 |
| Notifier.InsertLength | app/notifier.py:28 | adding a length keeps the list strictly ascending and adds exactly that length |
| Notifier.Lengths | app/notifier.py:28 | the lengths are strictly ascending and are exactly the lengths of the words |
| Notifier.TakeTen | app/notifier.py:31 | the first ten of a group, or all of it when shorter |
| Notifier.SelectFrom | app/notifier.py:28-31 | the listed words for a list of lengths; Notifier.SelectFromGroup and Notifier.SelectFromAscending state what they are |
| Notifier.SelectFromGroup | app/notifier.py:28-31 | over strictly ascending lengths, the selected words of one length are its first ten in input order when the length is listed and at least the minimum, none otherwise |
| Notifier.SelectFromAscending | app/notifier.py:28-31 | every selected word has one of the lengths, at least the minimum, and the lengths never decrease |
| Notifier.Selected | app/notifier.py:25-31 | the listed words; Notifier.SelectedByLength and Notifier.SelectedAscending state what they are |
| Notifier.SelectedByLength | app/notifier.py:25-31 | the listed words of each length are the first ten of that length in input order when the length is at least the minimum, none otherwise |
| Notifier.SelectedAscending | app/notifier.py:27-31 | the listed words go by ascending length, each at least the minimum and taken from the input |
| Notifier.TalliesSpec | app/notifier.py:33 | the counts go by strictly ascending length; each is at least the minimum and counts all words of that length, not just the listed ten; every length present at or above the minimum has one |
| Notifier.Tallies | app/notifier.py:33 | the counts as length and count pairs; Notifier.TalliesSpec states them |
| Notifier.TalliesFromAscending | app/notifier.py:33 | over strictly ascending lengths, the tallies go by strictly ascending length, each listed, at least the minimum and counting all words of that length |
| Notifier.TalliesFromCover | app/notifier.py:33 | every listed length at or above the minimum has a tally |
| Notifier.Render | app/notifier.py:33 | one `{l}L:{len(g)}` entry; Notifier.RenderReadBack states how it reads back |
| Notifier.RenderReadBack | app/notifier.py:33 | the number before the `L` reads back as the length and the trailing digits as the count |
| Notifier.RenderAll | app/notifier.py:33 | one rendered entry per tally, in order |
| Notifier.Counts | app/notifier.py:33 | the counts segment; Notifier.TalliesSpec states what it counts |
| Notifier.JoinSplit | app/notifier.py:34 | splitting a join at the separator gives the parts back when no part holds it |
| Notifier.Join | app/notifier.py:33-34 | `sep.join(parts)`; Notifier.JoinSplit states that splitting it gives the parts back |
| Notifier.JoinChars | app/notifier.py:34 | a joined text holds a character only if the separator or a part does, and is non-empty when its first part is |
| Notifier.ListedWordsRecoverable | app/notifier.py:34 | the listed part of the body splits at its commas back into the selected words, when no word holds a comma |
| Notifier.Body | app/notifier.py:34 | the body; Notifier.BodyReadBack states how it reads back |
| Notifier.BodyReadBack | app/notifier.py:34 | for words without line breaks, the text before the first blank line is empty iff nothing is listed, and the text after it is the counts segment; with no commas either, the first part splits at the commas into the listed words |
| Notifier.Compose | app/notifier.py:19-34 | the title reads back as the grid size and the number of words; the body reads back, as Notifier.BodyReadBack states, into the listed words and the counts segment |
| Notifier.ExampleCounts | app/notifier.py:33 | CAT, AT, CATS, ACT at minimum 3 give the counts `3L:2` and `4L:1` joined by a spaced vertical bar |
| Notifier.BodyExample | app/notifier.py:19-34 | CAT, AT, CATS, ACT on a 4x4 board give the body `CAT,ACT,CATS`, a blank line, and the counts `3L:2` and `4L:1` joined by a spaced vertical bar |
| GridIndex.IndexOf | app/solver.py:54-62 | `r * n + c` is on the grid, and `divmod` by `n` gives back `(r, c)` |

## Left out

- Image operations are left out because they are foreign calls: thresholds, blur, dilation and erosion, contour finding and polygon approximation, Hough lines, matchTemplate, the hole count of `_count_holes`, `preprocess_cell`, resizing and the perspective warp. Their results are inputs.
- EasyOCR (`init_easyocr`, `reader.readtext`) is an external service; its boxes are an input.
- Template loading and rendering (`load_templates`, `_generate_synthetic_templates`) are file I/O and font rendering. Only the letter names of the synthetic set are kept.
- Reading the dictionary file in `load_trie` is I/O. Only the per-line filter over the file's lines is modelled.
- The HTTP post of the notifier, its exception handling, the HTTP server, the CLI scripts, metrics and settings are all left out as I/O, clocks and environment.
- Floating point is left out. Boundaries, cell sizes and paddings use exact rationals and integer floors. For example `int(r * cell_h)` becomes `floor(r * h / n)`, which float rounding can miss by one at exact multiples.
- Hough line classification by `arctan2` is left out as floating-point geometry. Each segment arrives labelled horizontal, vertical or neither.
- Contour aspect ratios compare squared Euclidean lengths instead of `np.linalg.norm`, because Dafny has no square root. The comparison is the same for non-negative lengths.
- Strings are ASCII only. Python's Unicode behaviour of `upper()`, `strip()` and `isalpha()` is left out.
- Recognize.RecognizeCells: requires `len(cells) == n * n`. A longer list is cut to `n * n` by the reshape at app/recognition.py:312-313. A shorter one gives short rows, and with OCR, `letters[idx] = letter` at app/recognition.py:251 raises IndexError for a detection at `r * n + c >= len(cells)`. Neither case is modelled.
- Recognize.RecognizeCells: requires `n > 0` when OCR is present. At grid size 0, `warped_gray.shape[0] / grid_size` at app/recognition.py:182 raises ZeroDivisionError. It also requires a positive image height when OCR reports a box, because `cy / cell_size` at app/recognition.py:188 then raises ZeroDivisionError. Neither error is modelled. A zero height with no boxes is modelled and gives no detections.
- Recognize.RecognizeCells: requires every OCR box centre to lie less than one cell left of and above the image. Centres within that band truncate to row or column 0 and are modelled. A centre a whole cell or more outside gives a negative index, which Python wraps around the list or rejects with IndexError. That wrap-around is not modelled.
- Recognize.RecognizeCells: takes the grid size `n` as given. The default `int(len(cells) ** 0.5)` of app/recognition.py:241 applies when no grid size is passed, and it is not modelled, because it needs a floating-point square root.
- Search.WellFormed: requires `n` rows of `n` cells each. On a shorter board, `board[r][c]` at app/solver.py:49 raises IndexError. That error is not modelled.
- CellExtract.SplitCells, CellExtract.Boundary, CellExtract.Inset: require `n > 0`. At grid size 0, `h / grid_size` at app/cell_extract.py:8 raises ZeroDivisionError. That error is not modelled.
- Recognize.RecognizeCells: cell pixels and hole counts are inputs per cell, and no synthetic template image exists. When no template is loaded, the template pass takes its scores as given for the 26 synthetic letters.
- CellExtract.SplitCells: returns the spans of the cells, not the pixel slices `board_gray[y1:y2, x1:x2]`.
- BoardDetect.OrderCorners: requires a non-empty point list, where numpy raises on an empty one.
- BoardRoutes.FindBoardContour: takes the candidates of both images as one list, thresholded image first, as the loop over `[thresh, edges]` visits them.
- BoardRoutes.DetectBoard: returns the corners and the method tag; the warped image and the rest of `debug_info` are left out.
- Notifier.Compose: models the message text only; the words are taken as given.
- Notifier.Compose: the body is read back only for words without line breaks, and split into the listed words only when no word holds a comma; for other words the separators would be ambiguous. The solver's words are capitals only.
- The 500 ms performance test is left out, as timing is not modelled.

=== FILE: ascii.dfy ===
/**
 Character classes and string normalisation used by the dictionary filter and
 the OCR text cleaner. Only ASCII behaviour is modelled: Python's `str.upper`,
 `str.strip` and `str.isalpha` are restricted to their effect on ASCII code points.
 */
module Ascii {

  /** `str.isspace` on ASCII: tab, line feed, vertical tab, form feed, carriage
      return, the four separator controls 0x1C..0x1F, and space. */
  predicate IsSpace(c: char) {
    var k := c as int;
    (9 <= k <= 13) || (28 <= k <= 31) || k == 32
  }

  predicate IsUpperLetter(c: char) {
    'A' <= c <= 'Z'
  }

  predicate IsLowerLetter(c: char) {
    'a' <= c <= 'z'
  }

  /** `str.isalpha` on one ASCII character. */
  predicate IsAlpha(c: char) {
    IsUpperLetter(c) || IsLowerLetter(c)
  }

  /** `str.upper` on one ASCII character. */
  function Upper(c: char): (u: char)
    ensures IsLowerLetter(c) ==> IsUpperLetter(u) && u as int == c as int - 32
    ensures !IsLowerLetter(c) ==> u == c
    ensures !IsLowerLetter(u)
  {
    if IsLowerLetter(c) then (c as int - 32) as char else c
  }

  function UpperStr(s: string): (u: string)
    ensures |u| == |s|
    ensures forall i :: 0 <= i < |s| ==> u[i] == Upper(s[i])
  {
    if |s| == 0 then "" else [Upper(s[0])] + UpperStr(s[1..])
  }

  /** `str.isalpha` on a whole string: non-empty and every character a letter. */
  predicate IsAlphaStr(s: string) {
    |s| > 0 && forall i :: 0 <= i < |s| ==> IsAlpha(s[i])
  }

  function StripLeft(s: string): (r: string)
    ensures |r| <= |s| && r == s[|s| - |r|..]
    ensures |r| == 0 || !IsSpace(r[0])
    ensures forall i :: 0 <= i < |s| - |r| ==> IsSpace(s[i])
  {
    if |s| > 0 && IsSpace(s[0]) then StripLeft(s[1..]) else s
  }

  function StripRight(s: string): (r: string)
    ensures |r| <= |s| && r == s[..|r|]
    ensures |r| == 0 || !IsSpace(r[|r| - 1])
    ensures forall i :: |r| <= i < |s| ==> IsSpace(s[i])
  {
    if |s| > 0 && IsSpace(s[|s| - 1]) then StripRight(s[..|s| - 1]) else s
  }

  /** `r` is the slice of `s` from index `i`, and everything of `s` around
      it is whitespace. */
  predicate Trimmed(s: string, i: int, r: string)
    requires 0 <= i <= |s| - |r|
  {
    && r == s[i..i + |r|]
    && (forall k :: 0 <= k < i ==> IsSpace(s[k]))
    && (forall k :: i + |r| <= k < |s| ==> IsSpace(s[k]))
  }

  /** `str.strip()` with no argument: drop leading and trailing whitespace. */
  function Strip(s: string): (r: string)
    ensures |r| == 0 || (!IsSpace(r[0]) && !IsSpace(r[|r| - 1]))
    ensures |r| <= |s|
    ensures exists i :: 0 <= i <= |s| - |r| && Trimmed(s, i, r)
  {
    var l := StripLeft(s);
    var r := StripRight(l);
    StripBoth(s, l, r);
    r
  }

  /** A suffix `l` of `s` after whitespace, cut to a prefix `r` before
      whitespace, is the slice of `s` from where `l` starts, with only
      whitespace around it. */
  lemma StripBoth(s: string, l: string, r: string)
    requires |l| <= |s| && l == s[|s| - |l|..] && forall k :: 0 <= k < |s| - |l| ==> IsSpace(s[k])
    requires |r| <= |l| && r == l[..|r|] && forall k :: |r| <= k < |l| ==> IsSpace(l[k])
    ensures 0 <= |s| - |l| <= |s| - |r| && Trimmed(s, |s| - |l|, r)
  {
    var i := |s| - |l|;
    assert forall k :: 0 <= k < |l| ==> l[k] == s[i + k];
    assert r == s[i..i + |r|];
  }
}

=== FILE: board_detect.dfy ===
/**
 The decision logic of board detection (`app/board_detect.py`): ordering four
 corners, choosing among candidate contours, the padded box around cell-like
 rectangles, the corners from classified Hough lines, the fallback chain and
 its method tag, and the grid size inferred from a count of cell contours.
 The image operations that produce contours, polygons, areas, bounding
 rectangles and line classes are inputs.
 */
module BoardDetect {
  import opened Wrappers

  datatype Point = Point(x: real, y: real)

  /* ---------------------------------------------------------------------- */
  /* Corner ordering                                                        */
  /* ---------------------------------------------------------------------- */

  /** `np.argmin`: the first index holding the smallest value. */
  function ArgMin(v: seq<real>): (k: nat)
    requires |v| > 0
    ensures k < |v|
    ensures forall j :: 0 <= j < |v| ==> v[k] <= v[j]
    ensures forall j :: 0 <= j < k ==> v[j] > v[k]
  {
    if |v| == 1 then 0
    else
      var k := ArgMin(v[..|v| - 1]);
      assert forall j :: 0 <= j < |v| - 1 ==> v[..|v| - 1][j] == v[j];
      if v[|v| - 1] < v[k] then |v| - 1 else k
  }

  /** `np.argmax`: the first index holding the largest value. */
  function ArgMax(v: seq<real>): (k: nat)
    requires |v| > 0
    ensures k < |v|
    ensures forall j :: 0 <= j < |v| ==> v[k] >= v[j]
    ensures forall j :: 0 <= j < k ==> v[j] < v[k]
  {
    if |v| == 1 then 0
    else
      var k := ArgMax(v[..|v| - 1]);
      assert forall j :: 0 <= j < |v| - 1 ==> v[..|v| - 1][j] == v[j];
      if v[|v| - 1] > v[k] then |v| - 1 else k
  }

  /** `pts.sum(axis=1)`: x + y of each point. */
  function Sums(pts: seq<Point>): (s: seq<real>)
    ensures |s| == |pts| && forall i :: 0 <= i < |pts| ==> s[i] == pts[i].x + pts[i].y
  {
    seq(|pts|, (i: int) requires 0 <= i < |pts| => pts[i].x + pts[i].y)
  }

  /** `np.diff(pts, axis=1)`: the second coordinate minus the first, y - x. */
  function Diffs(pts: seq<Point>): (d: seq<real>)
    ensures |d| == |pts| && forall i :: 0 <= i < |pts| ==> d[i] == pts[i].y - pts[i].x
  {
    seq(|pts|, (i: int) requires 0 <= i < |pts| => pts[i].y - pts[i].x)
  }

  /** `_order_corners`: top-left, top-right, bottom-right, bottom-left, taken
      as the first points minimising x + y, minimising y - x, maximising x + y
      and maximising y - x. */
  function OrderCorners(pts: seq<Point>): (rect: seq<Point>)
    requires |pts| > 0
    ensures |rect| == 4 && forall k :: 0 <= k < 4 ==> rect[k] in pts
  {
    var s := Sums(pts);
    var d := Diffs(pts);
    [pts[ArgMin(s)], pts[ArgMin(d)], pts[ArgMax(s)], pts[ArgMax(d)]]
  }

  /** Each corner is the first point that is extreme in its direction. */
  lemma OrderCornersExtremes(pts: seq<Point>)
    requires |pts| > 0
    ensures var rect := OrderCorners(pts);
      && (forall j :: 0 <= j < |pts| ==> rect[0].x + rect[0].y <= pts[j].x + pts[j].y)
      && (forall j :: 0 <= j < |pts| ==> rect[1].y - rect[1].x <= pts[j].y - pts[j].x)
      && (forall j :: 0 <= j < |pts| ==> rect[2].x + rect[2].y >= pts[j].x + pts[j].y)
      && (forall j :: 0 <= j < |pts| ==> rect[3].y - rect[3].x >= pts[j].y - pts[j].x)
  {
    var s, d := Sums(pts), Diffs(pts);
    var a, b, c, e := ArgMin(s), ArgMin(d), ArgMax(s), ArgMax(d);
    assert forall j :: 0 <= j < |pts| ==> s[a] <= s[j] && d[b] <= d[j] && s[c] >= s[j] && d[e] >= d[j];
  }

  /** The four corners of an upright rectangle, top-left first, clockwise. */
  function Upright(l: real, t: real, r: real, b: real): seq<Point>
  {
    [Point(l, t), Point(r, t), Point(r, b), Point(l, b)]
  }

  /** A permutation of four points holds exactly those points. */
  lemma SameMembers(pts: seq<Point>, q: seq<Point>)
    requires multiset(pts) == multiset(q)
    ensures forall p :: p in pts <==> p in q
  {
    forall p ensures p in pts <==> p in q {
      assert p in pts <==> p in multiset(pts);
      assert p in q <==> p in multiset(q);
    }
  }

  /** Among an upright rectangle's corners, each extreme is attained only by
      the matching corner. */
  lemma UprightExtremes(p: Point, l: real, t: real, r: real, b: real)
    requires l < r && t < b && p in Upright(l, t, r, b)
    ensures p.x + p.y <= l + t ==> p == Point(l, t)
    ensures p.y - p.x <= t - r ==> p == Point(r, t)
    ensures p.x + p.y >= r + b ==> p == Point(r, b)
    ensures p.y - p.x >= b - l ==> p == Point(l, b)
  {
  }

  /** An upright rectangle's corners, in any input order, come out as
      top-left, top-right, bottom-right, bottom-left (y grows downwards). */
  lemma OrderCornersUpright(pts: seq<Point>, l: real, t: real, r: real, b: real)
    requires l < r && t < b
    requires |pts| == 4 && multiset(pts) == multiset(Upright(l, t, r, b))
    ensures OrderCorners(pts) == Upright(l, t, r, b)
  {
    var q := Upright(l, t, r, b);
    SameMembers(pts, q);
    var rect := OrderCorners(pts);
    OrderCornersExtremes(pts);
    assert q[0] in pts && q[1] in pts && q[2] in pts && q[3] in pts;
    var i0 :| 0 <= i0 < |pts| && pts[i0] == q[0];
    var i1 :| 0 <= i1 < |pts| && pts[i1] == q[1];
    var i2 :| 0 <= i2 < |pts| && pts[i2] == q[2];
    var i3 :| 0 <= i3 < |pts| && pts[i3] == q[3];
    UprightExtremes(rect[0], l, t, r, b);
    UprightExtremes(rect[1], l, t, r, b);
    UprightExtremes(rect[2], l, t, r, b);
    UprightExtremes(rect[3], l, t, r, b);
  }

  /** `test_order_corners`. */
  lemma OrderCornersTest()
    ensures var rect := OrderCorners([Point(300.0, 0.0), Point(0.0, 0.0), Point(0.0, 300.0), Point(300.0, 300.0)]);
      rect[0] == Point(0.0, 0.0) && rect[2] == Point(300.0, 300.0)
  {
    var pts := [Point(300.0, 0.0), Point(0.0, 0.0), Point(0.0, 300.0), Point(300.0, 300.0)];
    assert pts == [Upright(0.0, 0.0, 300.0, 300.0)[1], Upright(0.0, 0.0, 300.0, 300.0)[0],
                   Upright(0.0, 0.0, 300.0, 300.0)[3], Upright(0.0, 0.0, 300.0, 300.0)[2]];
    assert multiset(pts) == multiset(Upright(0.0, 0.0, 300.0, 300.0));
    OrderCornersUpright(pts, 0.0, 0.0, 300.0, 300.0);
  }

  /** The corners need not be four distinct points: for points along one
      diagonal, y - x ties everywhere and the first point serves as top-left,
      top-right and bottom-left at once. */
  lemma OrderCornersNotPermutation(pts: seq<Point>)
    requires pts == [Point(0.0, 0.0), Point(1.0, 1.0), Point(2.0, 2.0), Point(3.0, 3.0)]
    ensures var rect := OrderCorners(pts);
      rect[0] == rect[1] == rect[3] == Point(0.0, 0.0) && rect[2] == Point(3.0, 3.0)
  {
    var d, s := Diffs(pts), Sums(pts);
    assert d[0] == 0.0 && d[1] == 0.0 && d[2] == 0.0 && d[3] == 0.0;
    assert s[0] == 0.0 && s[1] == 2.0 && s[2] == 4.0 && s[3] == 6.0;
    var a, b, c, e := ArgMin(s), ArgMin(d), ArgMax(s), ArgMax(d);
    assert b == 0 && e == 0;
    assert a == 0 by {
      assert s[a] <= s[0];
    }
    assert c == 3 by {
      assert s[c] >= s[3];
    }
  }
}

module BoardRoutes {
  import opened Wrappers
  import opened PyInt
  import opened BoardDetect

  /* ---------------------------------------------------------------------- */
  /* Contour route                                                          */
  /* ---------------------------------------------------------------------- */

  /** A contour found in the thresholded or edge image: its area and the
      polygon approximating it. Candidates from both images come in one list,
      thresholded image first. */
  datatype Candidate = Candidate(area: real, approx: seq<Point>)

  function SqDist(p: Point, q: Point): real
  {
    (p.x - q.x) * (p.x - q.x) + (p.y - q.y) * (p.y - q.y)
  }

  /** For non-negative lengths `w` and `h` with `h != 0`,
      `0.6 < w / h < 1.6` holds exactly when `0.36 h^2 < w^2 < 2.56 h^2`; the
      route compares Euclidean side lengths, so the squares are compared. */
  predicate SquareEnough(w2: real, h2: real)
  {
    0.36 * h2 < w2 < 2.56 * h2
  }

  /** A candidate the contour route may pick: not below 5% of the image, four
      vertices, a non-degenerate left side, and a width-to-height ratio strictly
      between 0.6 and 1.6. */
  predicate Acceptable(c: Candidate, imgArea: real)
  {
    && !(c.area < imgArea * 0.05)
    && |c.approx| == 4
    && var o := OrderCorners(c.approx);
       SqDist(o[3], o[0]) != 0.0 && SquareEnough(SqDist(o[1], o[0]), SqDist(o[3], o[0]))
  }

  /** The scan of `_find_board_contour` over the acceptance verdicts and
      areas of the candidates: the index of the stored contour, whose area is
      the running best (0 before any is stored); a candidate replaces it only
      with a strictly larger area. */
  function FirstLargest(ok: seq<bool>, area: seq<real>): (best: Option<nat>)
    requires |ok| == |area|
    ensures best.Some? ==> best.value < |ok|
    ensures best.None? <==> forall j :: 0 <= j < |ok| && ok[j] ==> area[j] <= 0.0
    ensures best.Some? ==>
      var i := best.value;
      && ok[i] && area[i] > 0.0
      && (forall j :: 0 <= j < |ok| && ok[j] ==> area[j] <= area[i])
      && (forall j :: 0 <= j < i && ok[j] ==> area[j] < area[i])
  {
    if |ok| == 0 then None
    else
      var n := |ok| - 1;
      assert forall j :: 0 <= j < n ==> ok[..n][j] == ok[j] && area[..n][j] == area[j];
      var prev := FirstLargest(ok[..n], area[..n]);
      var bestArea := if prev.Some? then area[prev.value] else 0.0;
      if ok[n] && area[n] > bestArea then Some(n) else prev
  }

  /** The acceptance verdict of each candidate, in order (`VerdictAt` says
      which verdict each entry is). */
  function Verdicts(cs: seq<Candidate>, imgArea: real): (ok: seq<bool>)
    ensures |ok| == |cs|
  {
    if |cs| == 0 then []
    else Verdicts(cs[..|cs| - 1], imgArea) + [Acceptable(cs[|cs| - 1], imgArea)]
  }

  lemma {:induction false} VerdictAt(cs: seq<Candidate>, imgArea: real, i: int)
    requires 0 <= i < |cs|
    ensures Verdicts(cs, imgArea)[i] == Acceptable(cs[i], imgArea)
  {
    if i < |cs| - 1 {
      VerdictAt(cs[..|cs| - 1], imgArea, i);
    }
  }

  function Areas(cs: seq<Candidate>): (area: seq<real>)
    ensures |area| == |cs| && forall j :: 0 <= j < |cs| ==> area[j] == cs[j].area
  {
    seq(|cs|, (j: int) requires 0 <= j < |cs| => cs[j].area)
  }

  /** `_find_board_contour`: the ordered corners of the largest acceptable
      candidate, the earliest one among equals; nothing when no acceptable
      candidate has a positive area. */
  function FindBoardContour(cs: seq<Candidate>, imgArea: real): (r: Option<seq<Point>>)
    ensures var ok := Verdicts(cs, imgArea);
      r.None? <==> forall j :: 0 <= j < |cs| && ok[j] ==> cs[j].area <= 0.0
    ensures var ok := Verdicts(cs, imgArea);
      r.Some? ==> exists i :: (
        && 0 <= i < |cs| && ok[i] && cs[i].area > 0.0 && |cs[i].approx| == 4
        && r.value == OrderCorners(cs[i].approx)
        && (forall j :: 0 <= j < |cs| && ok[j] ==> cs[j].area <= cs[i].area)
        && (forall j :: 0 <= j < i && ok[j] ==> cs[j].area < cs[i].area))
  {
    var best := FirstLargest(Verdicts(cs, imgArea), Areas(cs));
    if best.None? then None
    else
      var i := best.value;
      VerdictAt(cs, imgArea, i);
      Some(OrderCorners(cs[i].approx))
  }

  /** A polygon with a zero-length left side is never picked, whatever its
      area. */
  lemma DegenerateSkipped(c: Candidate, imgArea: real)
    requires |c.approx| == 4
    requires var o := OrderCorners(c.approx); o[3] == o[0]
    ensures !Acceptable(c, imgArea)
  {
  }

  /* ---------------------------------------------------------------------- */
  /* Cell-grouping route                                                    */
  /* ---------------------------------------------------------------------- */

  /** A contour with its area and bounding rectangle. */
  datatype Blob = Blob(area: real, x: int, y: int, w: nat, h: nat)

  /** Corners of a bounding rectangle, exclusive at the far edges. */
  datatype Box = Box(x0: int, y0: int, x1: int, y1: int)

  /** `w / h`, or 0 for a rectangle of zero height. */
  function Aspect(w: nat, h: nat): (a: real)
    ensures a >= 0.0
    ensures h > 0 ==> a * h as real == w as real
    ensures h == 0 ==> a == 0.0
  {
    if h > 0 then w as real / h as real else 0.0
  }

  /** A contour the size of one cell: strictly between 0.8% and 6% of the
      image and a width-to-height ratio strictly between 0.6 and 1.6. */
  predicate CellLike(b: Blob, imgArea: real)
  {
    imgArea * 0.008 < b.area < imgArea * 0.06 && 0.6 < Aspect(b.w, b.h) < 1.6
  }

  function BoxOf(b: Blob): Box
  {
    Box(b.x, b.y, b.x + b.w, b.y + b.h)
  }

  /** The bounding rectangles of the cell-like contours, in contour order
      (`CellBoxesExactly` says which). */
  function CellBoxes(bs: seq<Blob>, imgArea: real): (r: seq<Box>)
    ensures |r| <= |bs|
    ensures forall k :: 0 <= k < |r| ==> r[k].x0 <= r[k].x1 && r[k].y0 <= r[k].y1
  {
    if |bs| == 0 then []
    else
      var prev := CellBoxes(bs[..|bs| - 1], imgArea);
      var b := bs[|bs| - 1];
      if CellLike(b, imgArea) then prev + [BoxOf(b)] else prev
  }

  /** `b` is the bounding rectangle of some cell-like contour. */
  predicate OfCellLike(b: Box, bs: seq<Blob>, imgArea: real)
  {
    exists i :: 0 <= i < |bs| && CellLike(bs[i], imgArea) && b == BoxOf(bs[i])
  }

  /** The collected boxes are exactly those of the cell-like contours. */
  lemma {:induction false} CellBoxesExactly(bs: seq<Blob>, imgArea: real)
    ensures forall i :: 0 <= i < |bs| && CellLike(bs[i], imgArea) ==> BoxOf(bs[i]) in CellBoxes(bs, imgArea)
    ensures forall k :: 0 <= k < |CellBoxes(bs, imgArea)| ==> OfCellLike(CellBoxes(bs, imgArea)[k], bs, imgArea)
  {
    if |bs| > 0 {
      var init := bs[..|bs| - 1];
      CellBoxesExactly(init, imgArea);
      var prev := CellBoxes(init, imgArea);
      var r := CellBoxes(bs, imgArea);
      forall k | 0 <= k < |r| ensures OfCellLike(r[k], bs, imgArea) {
        if k < |prev| {
          assert OfCellLike(prev[k], init, imgArea);
          var i :| 0 <= i < |init| && CellLike(init[i], imgArea) && prev[k] == BoxOf(init[i]);
          assert r[k] == prev[k] && bs[i] == init[i];
        } else {
          assert CellLike(bs[|bs| - 1], imgArea) && r[k] == BoxOf(bs[|bs| - 1]);
        }
      }
      forall i | 0 <= i < |bs| && CellLike(bs[i], imgArea) ensures BoxOf(bs[i]) in r {
        if i < |init| {
          assert bs[i] == init[i];
          assert BoxOf(init[i]) in prev;
        }
      }
    }
  }

  function Lo(a: int, b: int): int { if a <= b then a else b }
  function Hi(a: int, b: int): int { if a >= b then a else b }

  /** The collective bounding box of the collected boxes before padding. */
  datatype Extent = Extent(minX: int, minY: int, maxX: int, maxY: int)

  /** `min(x0s)` over the boxes. */
  function LeastX0(boxes: seq<Box>): (m: int)
    requires |boxes| > 0
    ensures forall k :: 0 <= k < |boxes| ==> m <= boxes[k].x0
    ensures exists k :: 0 <= k < |boxes| && boxes[k].x0 == m
  {
    if |boxes| == 1 then boxes[0].x0
    else
      var init := boxes[..|boxes| - 1];
      assert forall k :: 0 <= k < |init| ==> init[k] == boxes[k];
      Lo(LeastX0(init), boxes[|boxes| - 1].x0)
  }

  /** `min(y0s)` over the boxes. */
  function LeastY0(boxes: seq<Box>): (m: int)
    requires |boxes| > 0
    ensures forall k :: 0 <= k < |boxes| ==> m <= boxes[k].y0
    ensures exists k :: 0 <= k < |boxes| && boxes[k].y0 == m
  {
    if |boxes| == 1 then boxes[0].y0
    else
      var init := boxes[..|boxes| - 1];
      assert forall k :: 0 <= k < |init| ==> init[k] == boxes[k];
      Lo(LeastY0(init), boxes[|boxes| - 1].y0)
  }

  /** `max(x1s)` over the boxes. */
  function GreatestX1(boxes: seq<Box>): (m: int)
    requires |boxes| > 0
    ensures forall k :: 0 <= k < |boxes| ==> boxes[k].x1 <= m
    ensures exists k :: 0 <= k < |boxes| && boxes[k].x1 == m
  {
    if |boxes| == 1 then boxes[0].x1
    else
      var init := boxes[..|boxes| - 1];
      assert forall k :: 0 <= k < |init| ==> init[k] == boxes[k];
      Hi(GreatestX1(init), boxes[|boxes| - 1].x1)
  }

  /** `max(y1s)` over the boxes. */
  function GreatestY1(boxes: seq<Box>): (m: int)
    requires |boxes| > 0
    ensures forall k :: 0 <= k < |boxes| ==> boxes[k].y1 <= m
    ensures exists k :: 0 <= k < |boxes| && boxes[k].y1 == m
  {
    if |boxes| == 1 then boxes[0].y1
    else
      var init := boxes[..|boxes| - 1];
      assert forall k :: 0 <= k < |init| ==> init[k] == boxes[k];
      Hi(GreatestY1(init), boxes[|boxes| - 1].y1)
  }

  /** The collective bounding box of the boxes before padding, each bound
      folded on its own. */
  function ExtentOf(boxes: seq<Box>): Extent
    requires |boxes| > 0
  {
    Extent(LeastX0(boxes), LeastY0(boxes), GreatestX1(boxes), GreatestY1(boxes))
  }

  /** The padding: 2% of the shorter side of the extent, truncated. */
  function Pad(e: Extent): int
  {
    Trunc(Lo(e.maxX - e.minX, e.maxY - e.minY) as real * 0.02)
  }

  /** The corners `c` enclose the part of box `b` that lies inside a w x h
      image. */
  predicate Covers(c: seq<Point>, b: Box, imgW: nat, imgH: nat)
    requires |c| == 4
  {
    && c[0].x <= Hi(0, b.x0) as real && c[0].y <= Hi(0, b.y0) as real
    && Lo(imgW, b.x1) as real <= c[2].x && Lo(imgH, b.y1) as real <= c[2].y
  }

  /** The extent of the boxes, padded and clamped to a w x h image, as
      corners top-left, top-right, bottom-right, bottom-left. */
  function PaddedBox(boxes: seq<Box>, imgW: nat, imgH: nat): (c: seq<Point>)
    requires |boxes| > 0
    requires forall k :: 0 <= k < |boxes| ==> boxes[k].x0 <= boxes[k].x1 && boxes[k].y0 <= boxes[k].y1
    ensures |c| == 4
    ensures c[0].x == c[3].x && c[1].x == c[2].x && c[0].y == c[1].y && c[2].y == c[3].y
    ensures 0.0 <= c[0].x && 0.0 <= c[0].y && c[2].x <= imgW as real && c[2].y <= imgH as real
    ensures forall k :: 0 <= k < |boxes| ==> Covers(c, boxes[k], imgW, imgH)
  {
    var e := ExtentOf(boxes);
    var pad := Pad(e);
    assert 0 <= pad by {
      assert e.minX <= boxes[0].x0 && e.minY <= boxes[0].y0 && boxes[0].x1 <= e.maxX && boxes[0].y1 <= e.maxY;
    }
    Upright(Hi(0, e.minX - pad) as real, Hi(0, e.minY - pad) as real,
            Lo(imgW, e.maxX + pad) as real, Lo(imgH, e.maxY + pad) as real)
  }

  /** Away from the image border the box is the extent widened by the same
      padding on every side, 2% of its shorter side, truncated. */
  lemma PaddedBoxPadding(boxes: seq<Box>, imgW: nat, imgH: nat)
    requires |boxes| > 0
    requires forall k :: 0 <= k < |boxes| ==> boxes[k].x0 <= boxes[k].x1 && boxes[k].y0 <= boxes[k].y1
    ensures var e, c := ExtentOf(boxes), PaddedBox(boxes, imgW, imgH);
      var pad := Pad(e);
      && 0 <= 50 * pad <= e.maxX - e.minX && 50 * pad <= e.maxY - e.minY
      && 50 * (pad + 1) > Lo(e.maxX - e.minX, e.maxY - e.minY)
      && (e.minX - pad >= 0 ==> c[0].x == (e.minX - pad) as real)
      && (e.minY - pad >= 0 ==> c[0].y == (e.minY - pad) as real)
      && (e.maxX + pad <= imgW ==> c[2].x == (e.maxX + pad) as real)
      && (e.maxY + pad <= imgH ==> c[2].y == (e.maxY + pad) as real)
  {
    var e := ExtentOf(boxes);
    assert e.minX <= boxes[0].x0 && e.minY <= boxes[0].y0 && boxes[0].x1 <= e.maxX && boxes[0].y1 <= e.maxY;
  }

  function ImageArea(w: nat, h: nat): real
  {
    (h * w) as real
  }

  /** `_find_board_from_cells`: with at least 12 cell-like contours, the
      corners of their collective bounding box, padded and clamped to the
      image (`PaddedBox`), which enclose every cell-like contour's bounding
      rectangle as far as it lies inside the image; with fewer, nothing. */
  function FindBoardFromCells(bs: seq<Blob>, imgW: nat, imgH: nat): (r: Option<seq<Point>>)
    ensures r.None? <==> |CellBoxes(bs, ImageArea(imgW, imgH))| < 12
    ensures r.Some? ==>
      var c := r.value;
      && |c| == 4
      && c[0].x == c[3].x && c[1].x == c[2].x && c[0].y == c[1].y && c[2].y == c[3].y
      && 0.0 <= c[0].x && 0.0 <= c[0].y && c[2].x <= imgW as real && c[2].y <= imgH as real
    ensures r.Some? ==> forall i :: 0 <= i < |bs| && CellLike(bs[i], ImageArea(imgW, imgH)) ==>
      Covers(r.value, BoxOf(bs[i]), imgW, imgH)
  {
    var boxes := CellBoxes(bs, ImageArea(imgW, imgH));
    if |boxes| < 12 then None
    else
      CellBoxesExactly(bs, ImageArea(imgW, imgH));
      Some(PaddedBox(boxes, imgW, imgH))
  }

  /* ---------------------------------------------------------------------- */
  /* Hough route                                                            */
  /* ---------------------------------------------------------------------- */

  /** How a detected segment was classified by its angle (below 0.3 rad from
      horizontal, above 1.27 rad, or neither). */
  datatype Orientation = Horizontal | Vertical | Slanted

  datatype Segment = Segment(x1: int, y1: int, x2: int, y2: int, kind: Orientation)

  /** The mean y of each horizontal segment, in segment order. */
  function Rows(ls: seq<Segment>): (ys: seq<real>)
    ensures forall y :: y in ys <==> exists i :: 0 <= i < |ls| && ls[i].kind == Horizontal && y == (ls[i].y1 + ls[i].y2) as real / 2.0
  {
    if |ls| == 0 then []
    else
      var init := ls[..|ls| - 1];
      assert forall j :: 0 <= j < |ls| - 1 ==> init[j] == ls[j];
      var l := ls[|ls| - 1];
      Rows(init) + (if l.kind == Horizontal then [(l.y1 + l.y2) as real / 2.0] else [])
  }

  /** The mean x of each vertical segment, in segment order. */
  function Columns(ls: seq<Segment>): (xs: seq<real>)
    ensures forall x :: x in xs <==> exists i :: 0 <= i < |ls| && ls[i].kind == Vertical && x == (ls[i].x1 + ls[i].x2) as real / 2.0
  {
    if |ls| == 0 then []
    else
      var init := ls[..|ls| - 1];
      assert forall j :: 0 <= j < |ls| - 1 ==> init[j] == ls[j];
      var l := ls[|ls| - 1];
      Columns(init) + (if l.kind == Vertical then [(l.x1 + l.x2) as real / 2.0] else [])
  }

  predicate Ascending(s: seq<real>)
  {
    forall i, j :: 0 <= i < j < |s| ==> s[i] <= s[j]
  }

  function Insert(v: real, s: seq<real>): (r: seq<real>)
    requires Ascending(s)
    ensures Ascending(r) && multiset(r) == multiset(s) + multiset{v}
  {
    if |s| == 0 then [v]
    else if v <= s[0] then [v] + s
    else
      var rest := Insert(v, s[1..]);
      assert s == [s[0]] + s[1..];
      HeadBelowRest(v, s, rest);
      [s[0]] + rest
  }

  /** Inserting `v` above the head of `s` into the tail of `s` keeps every
      element at or above that head. */
  lemma HeadBelowRest(v: real, s: seq<real>, rest: seq<real>)
    requires Ascending(s) && |s| > 0 && s[0] < v
    requires multiset(rest) == multiset(s[1..]) + multiset{v}
    ensures forall k :: 0 <= k < |rest| ==> s[0] <= rest[k]
  {
    forall k | 0 <= k < |rest| ensures s[0] <= rest[k] {
      assert rest[k] in multiset(rest);
      if rest[k] != v {
        assert rest[k] in multiset(s[1..]);
        var j :| 0 <= j < |s[1..]| && s[1..][j] == rest[k];
        assert s[j + 1] == rest[k];
      }
    }
  }

  /** `list.sort()` on the positions. */
  function Sort(s: seq<real>): (r: seq<real>)
    ensures Ascending(r) && multiset(r) == multiset(s)
  {
    if |s| == 0 then []
    else
      assert s == s[..|s| - 1] + [s[|s| - 1]];
      Insert(s[|s| - 1], Sort(s[..|s| - 1]))
  }

  /** After sorting, the first element is the smallest and the last the
      largest of the original positions. */
  lemma SortedEnds(s: seq<real>)
    requires |s| > 0
    ensures var r := Sort(s);
      |r| == |s| && r[0] in s && r[|r| - 1] in s
      && forall k :: 0 <= k < |s| ==> r[0] <= s[k] <= r[|r| - 1]
  {
    var r := Sort(s);
    assert |r| == |multiset(r)| == |multiset(s)| == |s|;
    assert r[0] in multiset(r) && r[|r| - 1] in multiset(r);
    forall k | 0 <= k < |s| ensures r[0] <= s[k] <= r[|r| - 1] {
      assert s[k] in multiset(s);
      var j :| 0 <= j < |r| && r[j] == s[k];
    }
  }

  /** `_find_board_hough` once segments are classified: no segments, or
      fewer than two of either kind, give nothing; otherwise the corners of
      the rectangle between the outermost rows and columns. */
  function FindBoardHough(lines: Option<seq<Segment>>): (r: Option<seq<Point>>)
    ensures r.None? <==> lines.None? || |Rows(lines.value)| < 2 || |Columns(lines.value)| < 2
    ensures r.Some? ==>
      var ys, xs, c := Rows(lines.value), Columns(lines.value), r.value;
      && |c| == 4 && c == Upright(c[0].x, c[0].y, c[2].x, c[2].y)
      && c[0].y in ys && c[2].y in ys && c[0].x in xs && c[2].x in xs
      && (forall k :: 0 <= k < |ys| ==> c[0].y <= ys[k] <= c[2].y)
      && (forall k :: 0 <= k < |xs| ==> c[0].x <= xs[k] <= c[2].x)
  {
    if lines.None? then None
    else
      var ys, xs := Rows(lines.value), Columns(lines.value);
      if |ys| < 2 || |xs| < 2 then None
      else
        Some(Corners(ys, xs))
  }

  /** The rectangle between the outermost rows `ys` and columns `xs`, read
      off the ends of the sorted lists. */
  function Corners(ys: seq<real>, xs: seq<real>): (c: seq<Point>)
    requires |ys| > 0 && |xs| > 0
    ensures |c| == 4 && c == Upright(c[0].x, c[0].y, c[2].x, c[2].y)
    ensures c[0].y in ys && c[2].y in ys && c[0].x in xs && c[2].x in xs
    ensures forall k :: 0 <= k < |ys| ==> c[0].y <= ys[k] <= c[2].y
    ensures forall k :: 0 <= k < |xs| ==> c[0].x <= xs[k] <= c[2].x
  {
    var sy, sx := Sort(ys), Sort(xs);
    SortedEnds(ys);
    SortedEnds(xs);
    Upright(sx[0], sy[0], sx[|sx| - 1], sy[|sy| - 1])
  }

  /* ---------------------------------------------------------------------- */
  /* The fallback chain                                                     */
  /* ---------------------------------------------------------------------- */

  /** What the image operations report about one photo. */
  datatype Scene = Scene(
    width: nat, height: nat,
    candidates: seq<Candidate>,
    blobs: seq<Blob>,
    lines: Option<seq<Segment>>)

  /** The centre crop: margins of 10% of the width and 20% of the height
      (truncated) on each side. */
  function CenterCrop(w: nat, h: nat): (c: seq<Point>)
    ensures |c| == 4
    ensures 0.0 <= c[0].x <= c[2].x <= w as real && 0.0 <= c[0].y <= c[2].y <= h as real
    ensures c[0].x == (w as real) - c[2].x && c[0].y == (h as real) - c[2].y
  {
    var mx, my := Trunc(w as real * 0.1), Trunc(h as real * 0.2);
    Upright(mx as real, my as real, (w - mx) as real, (h - my) as real)
  }

  /** The routes of the chain, in the order they are tried. */
  datatype Method = Contour | CellGrouping | Hough | CenterCropFallback

  /** The tag recorded for each route. */
  function Name(m: Method): (tag: string)
  {
    match m
    case Contour => "contour"
    case CellGrouping => "cell_grouping"
    case Hough => "hough"
    case CenterCropFallback => "center_crop_fallback"
  }

  /** What a route yields. */
  function Route(s: Scene, m: Method): Option<seq<Point>>
  {
    match m
    case Contour => FindBoardContour(s.candidates, ImageArea(s.width, s.height))
    case CellGrouping => FindBoardFromCells(s.blobs, s.width, s.height)
    case Hough => FindBoardHough(s.lines)
    case CenterCropFallback => Some(CenterCrop(s.width, s.height))
  }

  /** The corner-finding part of `detect_board_and_warp`: four corners
      always come out, and they are those of the route the method names
      (`DetectBoardOrder` says which route that is). */
  function DetectBoard(s: Scene): (r: (seq<Point>, Method))
    ensures |r.0| == 4
    ensures Route(s, r.1) == Some(r.0)
  {
    var contour := FindBoardContour(s.candidates, ImageArea(s.width, s.height));
    if contour.Some? then (contour.value, Contour)
    else
      var cells := FindBoardFromCells(s.blobs, s.width, s.height);
      if cells.Some? then (cells.value, CellGrouping)
      else
        var hough := FindBoardHough(s.lines);
        if hough.Some? then (hough.value, Hough)
        else (CenterCrop(s.width, s.height), CenterCropFallback)
  }

  /** Spelled out: contour first, then cell grouping, then Hough lines, then
      the centre crop. */
  lemma DetectBoardOrder(s: Scene)
    ensures var (corners, m) := DetectBoard(s);
      && (m == Contour <==> Route(s, Contour).Some?)
      && (m == CellGrouping <==> Route(s, Contour).None? && Route(s, CellGrouping).Some?)
      && (m == Hough <==> Route(s, Contour).None? && Route(s, CellGrouping).None? && Route(s, Hough).Some?)
      && (m == CenterCropFallback <==> Route(s, Contour).None? && Route(s, CellGrouping).None? && Route(s, Hough).None?)
  {
    var contour, cells, hough := Route(s, Contour), Route(s, CellGrouping), Route(s, Hough);
    var m := DetectBoard(s).1;
    if contour.Some? {
      assert m == Contour;
    } else if cells.Some? {
      assert m == CellGrouping;
    } else if hough.Some? {
      assert m == Hough;
    } else {
      assert m == CenterCropFallback;
    }
  }

  /** The tags are distinct, so the recorded tag identifies the route. */
  lemma NamesDistinct(m: Method, m': Method)
    ensures Name(m) == Name(m') <==> m == m'
  {
    if m != m' {
      assert Name(m)[0] != Name(m')[0] || Name(m)[1] != Name(m')[1] || |Name(m)| != |Name(m')|;
    }
  }

  /** A blank 600x800 photo (no contours, no segments) falls back to the
      centre crop. */
  lemma BlankImageFallsBack()
    ensures DetectBoard(Scene(600, 800, [], [], None))
      == ([Point(60.0, 160.0), Point(540.0, 160.0), Point(540.0, 640.0), Point(60.0, 640.0)], CenterCropFallback)
  {
  }

  /* ---------------------------------------------------------------------- */
  /* Grid size                                                              */
  /* ---------------------------------------------------------------------- */

  /** A cell-sized contour of a w x h board: area strictly between
      (w/8)(h/8) and (w/3)(h/3), width-to-height ratio strictly between 0.5
      and 2. */
  predicate CellSized(b: Blob, w: nat, h: nat)
  {
    && (w as real / 8.0) * (h as real / 8.0) < b.area < (w as real / 3.0) * (h as real / 3.0)
    && 0.5 < Aspect(b.w, b.h) < 2.0
  }

  function CountCells(bs: seq<Blob>, w: nat, h: nat): (k: nat)
    ensures k <= |bs|
    ensures k == 0 <==> forall i :: 0 <= i < |bs| ==> !CellSized(bs[i], w, h)
  {
    if |bs| == 0 then 0
    else
      var init := bs[..|bs| - 1];
      assert forall j :: 0 <= j < |bs| - 1 ==> init[j] == bs[j];
      CountCells(init, w, h) + (if CellSized(bs[|bs| - 1], w, h) then 1 else 0)
  }

  /** The count is additive over a split of the contour list. */
  lemma {:induction false} CountCellsAppend(a: seq<Blob>, b: seq<Blob>, w: nat, h: nat)
    ensures CountCells(a + b, w, h) == CountCells(a, w, h) + CountCells(b, w, h)
    decreases |b|
  {
    if |b| == 0 {
      assert a + b == a;
    } else {
      var b' := b[..|b| - 1];
      assert (a + b)[..|a + b| - 1] == a + b';
      assert (a + b)[|a + b| - 1] == b[|b| - 1];
      CountCellsAppend(a, b', w, h);
    }
  }

  function Dist(k: int, count: int): nat
  {
    if k >= count then k - count else count - k
  }

  const Keys: seq<int> := [16, 25, 36]

  /** `min(candidates.keys(), key=...)`: the first key nearest to the count,
      in the dictionary's order 16, 25, 36. */
  function NearestKey(count: int): (k: int)
    ensures k in Keys
    ensures forall j :: 0 <= j < |Keys| ==> Dist(k, count) <= Dist(Keys[j], count)
    ensures forall j :: 0 <= j < |Keys| && Keys[j] < k ==> Dist(Keys[j], count) > Dist(k, count)
  {
    var k1 := if Dist(25, count) < Dist(16, count) then 25 else 16;
    if Dist(36, count) < Dist(k1, count) then 36 else k1
  }

  /** The side length for a cell count: 16 -> 4, 25 -> 5, 36 -> 6. */
  function SideOf(key: int): int
  {
    if key == 16 then 4 else if key == 25 then 5 else 6
  }

  /** `infer_grid_size` on the contours of a w x h board. */
  function InferGridSize(bs: seq<Blob>, w: nat, h: nat): (n: int)
    ensures n == 4 || n == 5 || n == 6
    ensures n * n == NearestKey(CountCells(bs, w, h))
  {
    SideOf(NearestKey(CountCells(bs, w, h)))
  }

  /** The bands: up to 20 contours give 4, 21 to 30 give 5, 31 or more
      give 6. */
  lemma GridSizeBands(bs: seq<Blob>, w: nat, h: nat)
    ensures var count, n := CountCells(bs, w, h), InferGridSize(bs, w, h);
      && (n == 4 <==> count <= 20)
      && (n == 5 <==> 21 <= count <= 30)
      && (n == 6 <==> 31 <= count)
  {
  }

  /** An integer count is never equally near two keys, so the order in which
      the keys are tried does not matter. */
  lemma NoTie(count: int)
    ensures forall j :: 0 <= j < |Keys| && Keys[j] != NearestKey(count) ==>
      Dist(Keys[j], count) > Dist(NearestKey(count), count)
  {
  }
}

=== FILE: cell_extract.dfy ===
/**
 Cutting the warped board into cells (`split_cells`): the boundary and inset
 arithmetic. A cell is described by its pixel rectangle; copying the pixels
 is the image library's job.
 */
module CellExtract {
  import opened GridIndex
  import opened PyInt

  /** A cell's pixel rectangle: rows `[top, bottom)`, columns `[left, right)`. */
  datatype Span = Span(top: int, bottom: int, left: int, right: int)

  lemma DivMonotone(a: int, b: int, n: int)
    requires 0 <= a <= b && n > 0
    ensures a / n <= b / n
  {
    if a / n > b / n {
      assert (a / n) * n >= (b / n + 1) * n by {
        MulGrows(a / n - b / n, n);
      }
    }
  }

  /** The `k`-th raw boundary along a side of `size` pixels cut into `n`
      parts: `floor(k * size / n)`, which is what `int(k * cell)` with
      `cell = size / n` computes (`BoundaryIsTrunc`). */
  function Boundary(k: nat, size: nat, n: nat): int
    requires n > 0
  {
    (k * size) / n
  }

  /** Dividing by a positive real keeps the order of integers below and
      above it. */
  lemma Between(q: int, a: int, n: int)
    requires n > 0 && q * n <= a < (q + 1) * n
    ensures q as real <= a as real / n as real < (q + 1) as real
  {
    var x := a as real / n as real;
    assert x * n as real == a as real;
    assert (q * n) as real == q as real * n as real;
    assert ((q + 1) * n) as real == (q + 1) as real * n as real;
  }

  /** The boundary is Python's `int(k * (size / n))`, computed exactly. */
  lemma BoundaryIsTrunc(k: nat, size: nat, n: nat)
    requires n > 0
    ensures Boundary(k, size, n) == Trunc(k as real * (size as real / n as real))
  {
    var q := (k * size) / n;
    assert k as real * (size as real / n as real) == (k * size) as real / n as real;
    Between(q, k * size, n);
  }

  /** `int(cell * inset)`: the inset on each side of a cell. */
  function Inset(size: nat, n: nat, inset: real): int
    requires n > 0
  {
    Trunc((size as real / n as real) * inset)
  }

  /** A non-negative inset fraction gives a non-negative inset. */
  lemma InsetNonNegative(size: nat, n: nat, inset: real)
    requires n > 0 && inset >= 0.0
    ensures Inset(size, n, inset) >= 0
  {
    var cell := size as real / n as real;
    assert cell >= 0.0;
    assert cell * inset >= 0.0;
  }

  /** The rectangle of cell `(r, c)` of an `h` x `w` board cut into `n` x `n`
      cells. */
  function CellSpan(h: nat, w: nat, n: nat, inset: real, r: nat, c: nat): Span
    requires n > 0
  {
    var iy, ix := Inset(h, n, inset), Inset(w, n, inset);
    Span(Boundary(r, h, n) + iy, Boundary(r + 1, h, n) - iy,
         Boundary(c, w, n) + ix, Boundary(c + 1, w, n) - ix)
  }

  /** The cell at row-major index `i`: row `i / n`, column `i % n`. */
  function CellAtIndex(h: nat, w: nat, n: nat, inset: real, i: nat): Span
    requires n > 0
  {
    CellSpan(h, w, n, inset, i / n, i % n)
  }

  /** `split_cells`: the `n * n` cell rectangles, row by row. */
  method SplitCells(h: nat, w: nat, n: nat, inset: real) returns (cells: seq<Span>)
    requires n > 0
    ensures |cells| == n * n
    ensures forall i :: 0 <= i < n * n ==> cells[i] == CellAtIndex(h, w, n, inset, i)
  {
    cells := [];
    var r := 0;
    while r < n
      invariant 0 <= r <= n
      invariant |cells| == r * n
      invariant forall i :: 0 <= i < |cells| ==> cells[i] == CellAtIndex(h, w, n, inset, i)
    {
      var row := SplitRow(h, w, n, inset, r);
      AppendRow(cells, row, h, w, n, inset, r);
      cells := cells + row;
      r := r + 1;
    }
  }

  /** The inner loop of `split_cells`: the cells of row `r`, left to right. */
  method SplitRow(h: nat, w: nat, n: nat, inset: real, r: nat) returns (row: seq<Span>)
    requires n > 0
    ensures |row| == n
    ensures forall c :: 0 <= c < n ==> row[c] == CellSpan(h, w, n, inset, r, c)
  {
    row := [];
    var c := 0;
    while c < n
      invariant 0 <= c <= n
      invariant |row| == c
      invariant forall k :: 0 <= k < c ==> row[k] == CellSpan(h, w, n, inset, r, k)
    {
      row := row + [CellSpan(h, w, n, inset, r, c)];
      c := c + 1;
    }
  }

  /** Appending row `r` to the first `r` rows gives the first `r + 1`. */
  lemma AppendRow(cells: seq<Span>, row: seq<Span>, h: nat, w: nat, n: nat, inset: real, r: nat)
    requires n > 0 && r < n
    requires |cells| == r * n
    requires forall i :: 0 <= i < |cells| ==> cells[i] == CellAtIndex(h, w, n, inset, i)
    requires |row| == n && forall c :: 0 <= c < n ==> row[c] == CellSpan(h, w, n, inset, r, c)
    ensures |cells + row| == (r + 1) * n
    ensures forall i :: 0 <= i < |cells + row| ==> (cells + row)[i] == CellAtIndex(h, w, n, inset, i)
  {
    assert r * n + n == (r + 1) * n;
    forall i | r * n <= i < (r + 1) * n
      ensures (cells + row)[i] == CellAtIndex(h, w, n, inset, i)
    {
      IndexOf(r, i - r * n, n);
    }
  }

  /** Cell `(r, c)` sits at index `r * n + c`. */
  lemma SplitCellsRowMajor(cells: seq<Span>, h: nat, w: nat, n: nat, inset: real, r: nat, c: nat)
    requires n > 0 && r < n && c < n
    requires |cells| == n * n
    requires forall i :: 0 <= i < n * n ==> cells[i] == CellAtIndex(h, w, n, inset, i)
    ensures 0 <= Flat(r, c, n) < |cells| && cells[Flat(r, c, n)] == CellSpan(h, w, n, inset, r, c)
  {
    IndexOf(r, c, n);
  }

  /** The raw boundaries start at 0, end at the full side, and never go
      backwards. */
  lemma BoundaryRange(j: nat, k: nat, size: nat, n: nat)
    requires n > 0 && j <= k
    ensures Boundary(0, size, n) == 0 && Boundary(n, size, n) == size
    ensures Boundary(j, size, n) <= Boundary(k, size, n)
  {
    assert n * size == size * n;
    DivModUnique(n * size, n, size, 0);
    assert j * size <= k * size by {
      assert k * size - j * size == (k - j) * size;
    }
    DivMonotone(j * size, k * size, n);
  }

  /** With a non-negative inset, cells in different rows or different
      columns do not overlap: each row ends where the next one's raw boundary
      begins, and insets only shrink a cell. */
  lemma NoOverlap(h: nat, w: nat, n: nat, inset: real, r: nat, c: nat, r': nat, c': nat)
    requires n > 0 && inset >= 0.0
    ensures var a, b := CellSpan(h, w, n, inset, r, c), CellSpan(h, w, n, inset, r', c');
      && (r < r' ==> a.bottom <= b.top)
      && (c < c' ==> a.right <= b.left)
  {
    InsetNonNegative(h, n, inset);
    InsetNonNegative(w, n, inset);
    if r < r' {
      BoundaryRange(r + 1, r', h, n);
    }
    if c < c' {
      BoundaryRange(c + 1, c', w, n);
    }
  }

  /** With a non-negative inset every cell lies inside the board. */
  lemma InsideBoard(h: nat, w: nat, n: nat, inset: real, r: nat, c: nat)
    requires n > 0 && inset >= 0.0 && r < n && c < n
    ensures var s := CellSpan(h, w, n, inset, r, c);
      0 <= s.top && s.bottom <= h && 0 <= s.left && s.right <= w
  {
    InsetNonNegative(h, n, inset);
    InsetNonNegative(w, n, inset);
    BoundaryRange(0, r, h, n);
    BoundaryRange(r + 1, n, h, n);
    BoundaryRange(0, c, w, n);
    BoundaryRange(c + 1, n, w, n);
  }

  /** Consecutive raw boundaries are `floor(size / n)` or one more apart, so
      without inset all cells are within one pixel of the same size. */
  lemma NearlyEqual(k: nat, size: nat, n: nat)
    requires n > 0
    ensures size / n <= Boundary(k + 1, size, n) - Boundary(k, size, n) <= size / n + 1
  {
    var a := k * size;
    assert (k + 1) * size == a + size;
    var q, s := a / n, a % n;
    var p, t := size / n, size % n;
    assert a + size == (q + p) * n + (s + t);
    if s + t < n {
      DivModUnique(a + size, n, q + p, s + t);
    } else {
      assert a + size == (q + p + 1) * n + (s + t - n);
      DivModUnique(a + size, n, q + p + 1, s + t - n);
    }
  }

  /** Without inset the rows cover the board: every pixel row `y` lies in
      some cell row ... */
  lemma RowsCover(h: nat, n: nat, y: int)
    requires n > 0 && 0 <= y < h
    ensures exists r :: 0 <= r < n && Boundary(r, h, n) <= y < Boundary(r + 1, h, n)
  {
    BoundaryRange(0, 0, h, n);
    var r := RowOf(h, n, y, 0);
  }

  /** ... and in only one. */
  lemma RowsDisjoint(h: nat, n: nat, y: int, r1: nat, r2: nat)
    requires n > 0
    requires Boundary(r1, h, n) <= y < Boundary(r1 + 1, h, n)
    requires Boundary(r2, h, n) <= y < Boundary(r2 + 1, h, n)
    ensures r1 == r2
  {
    if r1 < r2 {
      BoundaryRange(r1 + 1, r2, h, n);
    } else if r2 < r1 {
      BoundaryRange(r2 + 1, r1, h, n);
    }
  }

  /** The cell row holding pixel row `y`, searching from row `k` on. */
  lemma {:induction false} RowOf(h: nat, n: nat, y: int, k: nat) returns (r: nat)
    requires n > 0 && 0 <= y < h && k < n && Boundary(k, h, n) <= y
    ensures k <= r < n && Boundary(r, h, n) <= y < Boundary(r + 1, h, n)
    decreases n - k
  {
    BoundaryRange(0, 0, h, n);
    if y < Boundary(k + 1, h, n) {
      r := k;
    } else {
      if k + 1 == n {
        assert false;
      }
      r := RowOf(h, n, y, k + 1);
    }
  }

  /** An inset below half a cell leaves every cell with a non-negative size;
      the inset is the same on both sides of the cell. */
  lemma InsetSymmetric(h: nat, w: nat, n: nat, inset: real, r: nat, c: nat)
    requires n > 0 && 0.0 <= inset < 0.5
    ensures var s := CellSpan(h, w, n, inset, r, c);
      && s.top - Boundary(r, h, n) == Boundary(r + 1, h, n) - s.bottom == Inset(h, n, inset)
      && s.left - Boundary(c, w, n) == Boundary(c + 1, w, n) - s.right == Inset(w, n, inset)
      && s.top <= s.bottom && s.left <= s.right
  {
    NearlyEqual(r, h, n);
    NearlyEqual(c, w, n);
    HalfInset(h, n, inset);
    HalfInset(w, n, inset);
  }

  /** Twice a whole number below `inset * cell`, for `inset < 0.5` and a
      cell shorter than `p + 1`, is at most `p`. */
  lemma TwiceBelow(cell: real, inset: real, i: int, p: int)
    requires 0.0 <= cell < (p + 1) as real && 0.0 <= inset < 0.5
    requires i as real <= cell * inset
    ensures 2 * i <= p
  {
    var d := 0.5 - inset;
    assert d > 0.0;
    assert cell * d >= 0.0;
    assert cell * d == cell * 0.5 - cell * inset;
    assert (2 * i) as real <= cell;
  }

  /** Twice an inset below half a cell fits in the smallest cell side. */
  lemma HalfInset(size: nat, n: nat, inset: real)
    requires n > 0 && 0.0 <= inset < 0.5
    ensures 0 <= 2 * Inset(size, n, inset) <= size / n
  {
    var cell := size as real / n as real;
    var p := size / n;
    Between(p, size, n);
    InsetNonNegative(size, n, inset);
    TwiceBelow(cell, inset, Inset(size, n, inset), p);
  }
}

=== FILE: grid_index.dfy ===
/**
 Row-major indexing of an `n`-by-`n` grid: cell `(r, c)` is index `r * n + c`,
 and `divmod(i, n)` gives the row and column back.
 */
module GridIndex {

  /** The row-major index of cell `(r, c)`. */
  function Flat(r: int, c: int, n: int): int {
    r * n + c
  }

  lemma MulGrows(a: int, n: int)
    requires a >= 1 && n > 0
    ensures a * n >= n
  {
  }

  /** `divmod` is determined by quotient and remainder. */
  lemma DivModUnique(x: int, n: int, q: int, m: int)
    requires n > 0 && 0 <= m < n && x == q * n + m
    ensures x / n == q && x % n == m
  {
    var q', m' := x / n, x % n;
    assert x == q' * n + m';
    if q > q' {
      MulGrows(q - q', n);
    } else if q < q' {
      MulGrows(q' - q, n);
    }
  }

  /** `r * n + c` is the row-major index of an in-grid cell, and `divmod`
      gives the row and column back. */
  lemma IndexOf(r: int, c: int, n: int)
    requires 0 <= r < n && 0 <= c < n
    ensures 0 <= r * n + c < n * n
    ensures (r * n + c) / n == r && (r * n + c) % n == c
  {
    DivModUnique(r * n + c, n, r, c);
    MulGrows(n - r, n);
    assert (n - r) * n == n * n - r * n;
  }

  /** An index below `n * n` has a row and a column below `n`. */
  lemma RowInGrid(i: int, n: nat)
    requires 0 <= i < n * n
    ensures n > 0 && 0 <= i / n < n && 0 <= i % n < n
    ensures i == (i / n) * n + i % n
  {
    if i / n >= n {
      MulGrows(i / n - n + 1, n);
    }
  }
}

=== FILE: notifier.dfy ===
/**
 The text of the push notification sent after a solve (`send_notification`):
 the title, the words listed in the body grouped by length, and the per-length
 counts. Posting it is left to the HTTP client.
 */
module Notifier {

  /* ---------------------------------------------------------------------- */
  /* Decimal text                                                           */
  /* ---------------------------------------------------------------------- */

  function Digit(d: nat): char
    requires d < 10
  {
    "0123456789"[d]
  }

  function DigitValue(c: char): nat
  {
    if '0' <= c <= '9' then (c as int - '0' as int) as nat else 0
  }

  predicate IsDigits(s: string)
  {
    forall i :: 0 <= i < |s| ==> '0' <= s[i] <= '9'
  }

  /** The decimal text of a natural number, without leading zeros. */
  function NatToStr(k: nat): (s: string)
    ensures |s| >= 1 && IsDigits(s)
    ensures |s| > 1 ==> s[0] != '0'
  {
    if k < 10 then [Digit(k)] else NatToStr(k / 10) + [Digit(k % 10)]
  }

  /** Reading a string of digits back as a number. */
  function ParseNat(s: string): nat
  {
    if |s| == 0 then 0 else 10 * ParseNat(s[..|s| - 1]) + DigitValue(s[|s| - 1])
  }

  /** Printing then reading gives the number back. */
  lemma {:induction false} NatToStrRoundTrip(k: nat)
    ensures ParseNat(NatToStr(k)) == k
  {
    var s := NatToStr(k);
    if k < 10 {
      DigitRoundTrip(k);
      assert s[..|s| - 1] == "";
    } else {
      assert s == NatToStr(k / 10) + [Digit(k % 10)];
      assert s[..|s| - 1] == NatToStr(k / 10);
      NatToStrRoundTrip(k / 10);
      DigitRoundTrip(k % 10);
      assert ParseNat(s) == 10 * (k / 10) + k % 10;
    }
  }

  lemma DigitRoundTrip(d: nat)
    requires d < 10
    ensures DigitValue(Digit(d)) == d
  {
    assert Digit(d) as int == '0' as int + d;
  }

  /** Python's `str()` of an integer: a minus sign before negative numbers. */
  function IntToStr(k: int): (s: string)
    ensures k < 0 <==> |s| > 0 && s[0] == '-'
  {
    if k < 0 then "-" + NatToStr(-k) else NatToStr(k)
  }

  /* ---------------------------------------------------------------------- */
  /* Title                                                                  */
  /* ---------------------------------------------------------------------- */

  /** `f"Boggle {grid_size}x{grid_size} - {len(words)} words"`. */
  function Title(gridSize: int, words: seq<string>): (t: string)
  {
    "Boggle " + IntToStr(gridSize) + "x" + IntToStr(gridSize) + " - " + IntToStr(|words|) + " words"
  }

  /** Reading `str()` of an integer back, minus sign included. */
  function ParseInt(s: string): int
  {
    if |s| > 0 && s[0] == '-' then 0 - ParseNat(s[1..]) else ParseNat(s)
  }

  lemma IntToStrRoundTrip(k: int)
    ensures ParseInt(IntToStr(k)) == k
    ensures forall i :: 0 <= i < |IntToStr(k)| ==> IntToStr(k)[i] == '-' || '0' <= IntToStr(k)[i] <= '9'
  {
    if k < 0 {
      NatToStrRoundTrip(-k);
      assert IntToStr(k)[1..] == NatToStr(-k);
    } else {
      NatToStrRoundTrip(k);
    }
  }

  /** The text before the first `c` (all of `s` when there is none). */
  function UpTo(s: string, c: char): (r: string)
    ensures r <= s
  {
    if |s| == 0 || s[0] == c then "" else [s[0]] + UpTo(s[1..], c)
  }

  lemma {:induction false} UpToAppend(a: string, c: char, b: string)
    requires c !in a
    ensures UpTo(a + [c] + b, c) == a
  {
    if |a| == 0 {
      assert a + [c] + b == [c] + b;
    } else {
      assert (a + [c] + b)[1..] == a[1..] + [c] + b;
      UpToAppend(a[1..], c, b);
    }
  }

  /** The run of digits that ends `s`. */
  function TrailingDigits(s: string): (d: string)
    ensures IsDigits(d) && |d| <= |s|
  {
    if |s| == 0 || !('0' <= s[|s| - 1] <= '9') then "" else TrailingDigits(s[..|s| - 1]) + [s[|s| - 1]]
  }

  lemma {:induction false} TrailingDigitsAppend(p: string, d: string)
    requires IsDigits(d)
    requires |p| > 0 && !('0' <= p[|p| - 1] <= '9')
    ensures TrailingDigits(p + d) == d
  {
    if |d| == 0 {
      assert p + d == p;
    } else {
      var d' := d[..|d| - 1];
      assert (p + d)[..|p + d| - 1] == p + d';
      TrailingDigitsAppend(p, d');
      assert d == d' + [d[|d| - 1]];
    }
  }

  const TitlePrefix := "Boggle "
  const TitleSuffix := " words"

  /** The grid size a title announces: the number after "Boggle " up to the
      `x`. */
  function TitleGrid(t: string): int
  {
    if TitlePrefix <= t then ParseInt(UpTo(t[|TitlePrefix|..], 'x')) else 0
  }

  /** The word count a title announces: the number just before " words". */
  function TitleCount(t: string): nat
  {
    if |t| >= |TitleSuffix| && t[|t| - |TitleSuffix|..] == TitleSuffix
    then ParseNat(TrailingDigits(t[..|t| - |TitleSuffix|]))
    else 0
  }

  /** The grid field: the number between the prefix and the first `x`. */
  lemma TitleGridOf(g: string, rest: string)
    requires 'x' !in g
    ensures TitleGrid(TitlePrefix + g + "x" + rest) == ParseInt(g)
  {
    var t := TitlePrefix + g + "x" + rest;
    assert t[|TitlePrefix|..] == g + ['x'] + rest;
    UpToAppend(g, 'x', rest);
  }

  /** The count field: the digits between a space and the suffix. */
  lemma TitleCountOf(head: string, c: string)
    requires IsDigits(c)
    requires |head| > 0 && head[|head| - 1] == ' '
    ensures TitleCount(head + c + TitleSuffix) == ParseNat(c)
  {
    var t := head + c + TitleSuffix;
    assert t[|t| - |TitleSuffix|..] == TitleSuffix;
    assert t[..|t| - |TitleSuffix|] == head + c;
    TrailingDigitsAppend(head, c);
  }

  /** The title can be read back: it names the grid size and the number of
      words found. */
  lemma TitleReadBack(gridSize: int, words: seq<string>)
    ensures TitlePrefix <= Title(gridSize, words)
    ensures TitleGrid(Title(gridSize, words)) == gridSize
    ensures TitleCount(Title(gridSize, words)) == |words|
  {
    var g := IntToStr(gridSize);
    var c := NatToStr(|words|);
    var t := Title(gridSize, words);
    assert t == TitlePrefix + g + "x" + (g + " - " + c + " words");
    assert t == (TitlePrefix + g + "x" + g + " - ") + c + TitleSuffix;
    IntToStrRoundTrip(gridSize);
    TitleGridOf(g, g + " - " + c + " words");
    NatToStrRoundTrip(|words|);
    TitleCountOf(TitlePrefix + g + "x" + g + " - ", c);
  }

  lemma TitleExample()
    ensures Title(4, ["CAT", "CATS", "ACT", "SAT", "TACO", "COAT", "COATS", "CAST", "SCAT", "TACOS", "ASCOT", "COSTA"])
      == "Boggle 4x4 - 12 words"
  {
    assert NatToStr(12) == NatToStr(1) + [Digit(2)];
  }

  /* ---------------------------------------------------------------------- */
  /* Grouping by length                                                     */
  /* ---------------------------------------------------------------------- */

  /** The shortest length listed: 3 on boards up to 5x5, 4 above. */
  function MinLen(gridSize: int): (m: nat)
    ensures 3 <= m <= 4
    ensures m == 4 <==> gridSize > 5
  {
    if gridSize <= 5 then 3 else 4
  }

  /** `by_length[L]`: the words of length `L`, in input order. */
  function Group(words: seq<string>, L: nat): (g: seq<string>)
    ensures |g| <= |words|
    ensures forall i :: 0 <= i < |g| ==> |g[i]| == L && g[i] in words
  {
    if |words| == 0 then []
    else Group(words[..|words| - 1], L) + (if |words[|words| - 1]| == L then [words[|words| - 1]] else [])
  }

  lemma {:induction false} GroupAppend(a: seq<string>, b: seq<string>, L: nat)
    ensures Group(a + b, L) == Group(a, L) + Group(b, L)
    decreases |b|
  {
    if |b| == 0 {
      assert a + b == a;
    } else {
      var b' := b[..|b| - 1];
      assert (a + b)[..|a + b| - 1] == a + b';
      assert (a + b)[|a + b| - 1] == b[|b| - 1];
      GroupAppend(a, b', L);
    }
  }

  /** A word of length `L` is in its group, and a group is empty only when no
      word has that length. */
  lemma {:induction false} GroupHas(words: seq<string>, L: nat)
    ensures forall w :: w in words && |w| == L ==> w in Group(words, L)
    ensures Group(words, L) == [] <==> forall w :: w in words ==> |w| != L
  {
    if |words| > 0 {
      var init := words[..|words| - 1];
      GroupHas(init, L);
      assert words == init + [words[|words| - 1]];
    }
  }

  /** Grouping words that all have length `L'` keeps them all, or none. */
  lemma {:induction false} GroupUniform(s: seq<string>, L: nat, L': nat)
    requires forall i :: 0 <= i < |s| ==> |s[i]| == L'
    ensures Group(s, L) == if L == L' then s else []
  {
    if |s| > 0 {
      GroupUniform(s[..|s| - 1], L, L');
      assert s == s[..|s| - 1] + [s[|s| - 1]];
    }
  }

  predicate StrictlyAscending(ls: seq<nat>)
  {
    forall i, j :: 0 <= i < j < |ls| ==> ls[i] < ls[j]
  }

  lemma HeadBelowTail(ls: seq<nat>)
    requires StrictlyAscending(ls) && |ls| > 0
    ensures StrictlyAscending(ls[1..])
    ensures forall x :: x in ls[1..] ==> ls[0] < x
    ensures forall x :: x in ls <==> x == ls[0] || x in ls[1..]
  {
    assert ls == [ls[0]] + ls[1..];
    forall x | x in ls[1..] ensures ls[0] < x {
      var k :| 0 <= k < |ls[1..]| && ls[1..][k] == x;
      assert ls[k + 1] == x;
    }
  }

  function InsertLength(L: nat, ls: seq<nat>): (r: seq<nat>)
    requires StrictlyAscending(ls)
    ensures StrictlyAscending(r)
    ensures forall x :: x in r <==> x == L || x in ls
  {
    if |ls| == 0 then [L]
    else if L < ls[0] then [L] + ls
    else if L == ls[0] then ls
    else
      HeadBelowTail(ls);
      var rest := InsertLength(L, ls[1..]);
      assert forall k :: 0 <= k < |rest| ==> rest[k] in rest;
      [ls[0]] + rest
  }

  /** `sorted(by_length.keys())`: each word length once, ascending. */
  function Lengths(words: seq<string>): (ls: seq<nat>)
    ensures StrictlyAscending(ls)
    ensures forall L :: L in ls <==> exists w :: w in words && |w| == L
  {
    if |words| == 0 then []
    else
      var init := words[..|words| - 1];
      var w := words[|words| - 1];
      assert words == init + [w];
      assert forall v :: v in words <==> v in init || v == w;
      InsertLength(|w|, Lengths(init))
  }

  /** `group[:10]`. */
  function TakeTen(g: seq<string>): (t: seq<string>)
    ensures |t| <= 10 && |t| <= |g| && t == g[..|t|]
    ensures |g| >= 10 ==> |t| == 10
    ensures |g| < 10 ==> t == g
  {
    if |g| <= 10 then g else g[..10]
  }

  /** The listed words for the lengths `ls`, in that order. */
  function SelectFrom(words: seq<string>, ls: seq<nat>, minLen: nat): seq<string>
  {
    if |ls| == 0 then []
    else (if ls[0] < minLen then [] else TakeTen(Group(words, ls[0]))) + SelectFrom(words, ls[1..], minLen)
  }

  /** The listed words: for each length from the shortest up, skipping
      lengths below the minimum, the first ten words of that length. */
  function Selected(words: seq<string>, minLen: nat): seq<string>
  {
    SelectFrom(words, Lengths(words), minLen)
  }

  /** The part listed for length `M`, regrouped by length `L`. */
  lemma SelectedOfLength(words: seq<string>, M: nat, minLen: nat, L: nat)
    ensures Group(if M < minLen then [] else TakeTen(Group(words, M)), L)
      == if L == M && M >= minLen then TakeTen(Group(words, L)) else []
  {
    var head := if M < minLen then [] else TakeTen(Group(words, M));
    assert forall i :: 0 <= i < |head| ==> |head[i]| == M;
    GroupUniform(head, L, M);
  }

  /** The words of length `L` among those selected over the lengths `ls`. */
  lemma {:induction false} SelectFromGroup(words: seq<string>, ls: seq<nat>, minLen: nat, L: nat)
    requires StrictlyAscending(ls)
    ensures Group(SelectFrom(words, ls, minLen), L)
      == if L in ls && L >= minLen then TakeTen(Group(words, L)) else []
  {
    if |ls| > 0 {
      var M := ls[0];
      var head := if M < minLen then [] else TakeTen(Group(words, M));
      var tail := SelectFrom(words, ls[1..], minLen);
      HeadBelowTail(ls);
      SelectFromGroup(words, ls[1..], minLen, L);
      SelectedOfLength(words, M, minLen, L);
      assert Group(SelectFrom(words, ls, minLen), L) == Group(head, L) + Group(tail, L) by {
        assert SelectFrom(words, ls, minLen) == head + tail;
        GroupAppend(head, tail, L);
      }
      if L == M {
        assert L !in ls[1..];
        assert Group(tail, L) == [];
        assert Group(head, L) + [] == Group(head, L);
      } else {
        assert Group(head, L) == [];
        assert [] + Group(tail, L) == Group(tail, L);
      }
    }
  }

  /** For every length the selected words are the first ten of that length
      in input order when the length is listed, and none otherwise. */
  lemma SelectedByLength(words: seq<string>, minLen: nat, L: nat)
    ensures Group(Selected(words, minLen), L) == if L >= minLen then TakeTen(Group(words, L)) else []
  {
    SelectFromGroup(words, Lengths(words), minLen, L);
    GroupHas(words, L);
  }

  /** Every word of `s` has one of the lengths `ls`, no shorter than
      `minLen`. */
  predicate LengthsAmong(s: seq<string>, ls: seq<nat>, minLen: nat)
  {
    forall i :: 0 <= i < |s| ==> |s[i]| in ls && |s[i]| >= minLen
  }

  predicate ByLength(s: seq<string>)
  {
    forall i, j :: 0 <= i < j < |s| ==> |s[i]| <= |s[j]|
  }

  /** Words all of length `M`, followed by words of lengths above `M`. */
  lemma ConcatByLength(head: seq<string>, tail: seq<string>, M: nat, rest: seq<nat>, minLen: nat)
    requires forall i :: 0 <= i < |head| ==> |head[i]| == M
    requires |head| > 0 ==> M >= minLen
    requires LengthsAmong(tail, rest, minLen) && ByLength(tail)
    requires forall x :: x in rest ==> M < x
    ensures LengthsAmong(head + tail, [M] + rest, minLen)
    ensures ByLength(head + tail)
  {
    var s := head + tail;
    forall i | 0 <= i < |s| ensures |s[i]| in [M] + rest && |s[i]| >= minLen {
      if i >= |head| {
        assert s[i] == tail[i - |head|];
      }
    }
    forall i, j | 0 <= i < j < |s| ensures |s[i]| <= |s[j]| {
      if j >= |head| && i < |head| {
        assert s[j] == tail[j - |head|];
        assert |s[j]| in rest;
      } else if i >= |head| {
        assert s[i] == tail[i - |head|] && s[j] == tail[j - |head|];
      }
    }
  }

  /** Every word selected over the lengths `ls` has one of those lengths, no
      shorter than the minimum, and the lengths never decrease. */
  lemma {:induction false} SelectFromAscending(words: seq<string>, ls: seq<nat>, minLen: nat)
    requires StrictlyAscending(ls)
    ensures LengthsAmong(SelectFrom(words, ls, minLen), ls, minLen)
    ensures ByLength(SelectFrom(words, ls, minLen))
  {
    if |ls| > 0 {
      var head := if ls[0] < minLen then [] else TakeTen(Group(words, ls[0]));
      var tail := SelectFrom(words, ls[1..], minLen);
      assert StrictlyAscending(ls[1..]) && (forall x :: x in ls[1..] ==> ls[0] < x) by {
        HeadBelowTail(ls);
      }
      SelectFromAscending(words, ls[1..], minLen);
      assert SelectFrom(words, ls, minLen) == head + tail;
      assert ls == [ls[0]] + ls[1..];
      ConcatByLength(head, tail, ls[0], ls[1..], minLen);
    }
  }

  /** The listed words are ordered by length, each at least the minimum. */
  lemma SelectedAscending(words: seq<string>, minLen: nat)
    ensures ByLength(Selected(words, minLen))
    ensures forall i :: 0 <= i < |Selected(words, minLen)| ==>
      |Selected(words, minLen)[i]| >= minLen && Selected(words, minLen)[i] in words
  {
    var s := Selected(words, minLen);
    SelectFromAscending(words, Lengths(words), minLen);
    forall i | 0 <= i < |s| ensures s[i] in words {
      SelectedByLength(words, minLen, |s[i]|);
      GroupHas(s, |s[i]|);
      var g := Group(words, |s[i]|);
      assert s[i] in TakeTen(g);
    }
  }

  /* ---------------------------------------------------------------------- */
  /* Counts and body                                                        */
  /* ---------------------------------------------------------------------- */

  /** `sep.join(parts)`. */
  function Join(sep: string, parts: seq<string>): string
  {
    if |parts| == 0 then ""
    else if |parts| == 1 then parts[0]
    else parts[0] + sep + Join(sep, parts[1..])
  }

  /** `s.split(sep)` for a one-character separator. */
  function Split(s: string, sep: char): (parts: seq<string>)
    ensures |parts| >= 1
  {
    if |s| == 0 then [""]
    else
      var rest := Split(s[1..], sep);
      if s[0] == sep then [""] + rest else [[s[0]] + rest[0]] + rest[1..]
  }

  lemma {:induction false} SplitAppend(a: string, b: string, sep: char)
    requires sep !in a
    ensures Split(a + [sep] + b, sep) == [a] + Split(b, sep)
    ensures Split(a, sep) == [a]
  {
    if |a| == 0 {
      assert a + [sep] + b == [sep] + b;
      assert ([sep] + b)[1..] == b;
    } else {
      assert (a + [sep] + b)[1..] == a[1..] + [sep] + b;
      assert a == [a[0]] + a[1..];
      SplitAppend(a[1..], b, sep);
    }
  }

  /** Joining parts free of the separator and splitting again gives the
      parts back (an empty list joins to "", which splits to one empty
      part). */
  lemma {:induction false} JoinSplit(parts: seq<string>, sep: char)
    requires |parts| >= 1
    requires forall i :: 0 <= i < |parts| ==> sep !in parts[i]
    ensures Split(Join([sep], parts), sep) == parts
  {
    if |parts| == 1 {
      SplitAppend(parts[0], "", sep);
    } else {
      JoinSplit(parts[1..], sep);
      SplitAppend(parts[0], Join([sep], parts[1..]), sep);
      assert parts[0] + [sep] + Join([sep], parts[1..]) == Join([sep], parts);
    }
  }

  /** One entry of the counts segment: a length and how many words have it. */
  datatype Tally = Tally(len: nat, count: nat)

  function TalliesFrom(words: seq<string>, ls: seq<nat>, minLen: nat): seq<Tally>
  {
    if |ls| == 0 then []
    else (if ls[0] < minLen then [] else [Tally(ls[0], |Group(words, ls[0])|)]) + TalliesFrom(words, ls[1..], minLen)
  }

  /** The counts, lengths ascending, skipping lengths below the minimum. */
  function Tallies(words: seq<string>, minLen: nat): seq<Tally>
  {
    TalliesFrom(words, Lengths(words), minLen)
  }

  predicate TallyLengthsAscending(ts: seq<Tally>)
  {
    forall i, j :: 0 <= i < j < |ts| ==> ts[i].len < ts[j].len
  }

  /** Every tally is for one of the lengths `ls`, at least `minLen`, and
      counts all words of that length. */
  predicate TalliesCount(ts: seq<Tally>, words: seq<string>, ls: seq<nat>, minLen: nat)
  {
    forall i :: 0 <= i < |ts| ==> ts[i].len in ls && ts[i].len >= minLen && ts[i].count == |Group(words, ts[i].len)|
  }

  predicate TalliesCover(ts: seq<Tally>, ls: seq<nat>, minLen: nat)
  {
    forall L :: L in ls && L >= minLen ==> exists i :: 0 <= i < |ts| && ts[i].len == L
  }

  lemma {:induction false} TalliesFromAscending(words: seq<string>, ls: seq<nat>, minLen: nat)
    requires StrictlyAscending(ls)
    ensures TallyLengthsAscending(TalliesFrom(words, ls, minLen))
    ensures TalliesCount(TalliesFrom(words, ls, minLen), words, ls, minLen)
  {
    if |ls| > 0 {
      assert StrictlyAscending(ls[1..]) && forall x :: x in ls[1..] ==> ls[0] < x by { HeadBelowTail(ls); }
      TalliesFromAscending(words, ls[1..], minLen);
      var head := if ls[0] < minLen then [] else [Tally(ls[0], |Group(words, ls[0])|)];
      assert ls == [ls[0]] + ls[1..];
      ConcatTallies(head, TalliesFrom(words, ls[1..], minLen), ls[0], ls[1..], words, minLen);
    }
  }

  /** A tally for length `M` (or none) before the tallies of longer lengths
      keeps the lengths ascending and the counts right. */
  lemma ConcatTallies(head: seq<Tally>, tail: seq<Tally>, M: nat, rest: seq<nat>, words: seq<string>, minLen: nat)
    requires |head| <= 1 && forall i :: 0 <= i < |head| ==> head[i] == Tally(M, |Group(words, M)|) && M >= minLen
    requires TallyLengthsAscending(tail) && TalliesCount(tail, words, rest, minLen)
    requires forall x :: x in rest ==> M < x
    ensures TallyLengthsAscending(head + tail) && TalliesCount(head + tail, words, [M] + rest, minLen)
  {
    var ts := head + tail;
    assert forall i :: |head| <= i < |ts| ==> ts[i] == tail[i - |head|];
    forall i, j | 0 <= i < j < |ts| ensures ts[i].len < ts[j].len {
      if i < |head| {
        assert tail[j - |head|].len in rest;
      }
    }
  }

  lemma {:induction false} TalliesFromCover(words: seq<string>, ls: seq<nat>, minLen: nat)
    requires StrictlyAscending(ls)
    ensures TalliesCover(TalliesFrom(words, ls, minLen), ls, minLen)
  {
    if |ls| > 0 {
      HeadBelowTail(ls);
      TalliesFromCover(words, ls[1..], minLen);
      var head := if ls[0] < minLen then [] else [Tally(ls[0], |Group(words, ls[0])|)];
      var tail := TalliesFrom(words, ls[1..], minLen);
      var ts := head + tail;
      assert TalliesFrom(words, ls, minLen) == ts;
      forall L | L in ls && L >= minLen ensures exists i :: 0 <= i < |ts| && ts[i].len == L {
        if L == ls[0] {
          assert ts[0].len == L;
        } else {
          var i :| 0 <= i < |tail| && tail[i].len == L;
          assert ts[|head| + i] == tail[i];
        }
      }
    }
  }

  /** The counts list every word length at or above the minimum exactly
      once, ascending, each with the number of all words of that length (not
      only the ten listed). */
  lemma TalliesSpec(words: seq<string>, minLen: nat)
    ensures TallyLengthsAscending(Tallies(words, minLen))
    ensures forall i :: 0 <= i < |Tallies(words, minLen)| ==>
      var t := Tallies(words, minLen)[i];
      t.len >= minLen && t.count == |Group(words, t.len)| && t.count > 0
    ensures forall w :: w in words && |w| >= minLen ==>
      exists i :: 0 <= i < |Tallies(words, minLen)| && Tallies(words, minLen)[i].len == |w|
  {
    var ts := Tallies(words, minLen);
    var ls := Lengths(words);
    TalliesFromAscending(words, ls, minLen);
    TalliesFromCover(words, ls, minLen);
    forall i | 0 <= i < |ts| ensures ts[i].count > 0 {
      GroupHas(words, ts[i].len);
    }
    forall w | w in words && |w| >= minLen
      ensures exists i :: 0 <= i < |ts| && ts[i].len == |w|
    {
      assert |w| in ls;
    }
  }

  /** `f"{l}L:{len(g)}"`. */
  function Render(t: Tally): string
  {
    NatToStr(t.len) + "L:" + NatToStr(t.count)
  }

  /** A rendered tally reads back: the number before the `L` is the length,
      the digits at the end are the count. */
  lemma RenderReadBack(t: Tally)
    ensures ParseNat(UpTo(Render(t), 'L')) == t.len
    ensures ParseNat(TrailingDigits(Render(t))) == t.count
  {
    var l, c := NatToStr(t.len), NatToStr(t.count);
    assert Render(t) == l + ['L'] + (":" + c);
    assert 'L' !in l;
    UpToAppend(l, 'L', ":" + c);
    NatToStrRoundTrip(t.len);
    assert Render(t) == (l + "L:") + c;
    TrailingDigitsAppend(l + "L:", c);
    NatToStrRoundTrip(t.count);
  }

  function RenderAll(ts: seq<Tally>): (r: seq<string>)
    ensures |r| == |ts| && forall i :: 0 <= i < |ts| ==> r[i] == Render(ts[i])
  {
    if |ts| == 0 then [] else [Render(ts[0])] + RenderAll(ts[1..])
  }

  /** The counts segment: the tallies joined by " | ". */
  function Counts(words: seq<string>, minLen: nat): string
  {
    Join(" | ", RenderAll(Tallies(words, minLen)))
  }

  /** `",".join(selected) + "\n\n" + counts`. */
  function Body(words: seq<string>, gridSize: int): string
  {
    var minLen := MinLen(gridSize);
    Join(",", Selected(words, minLen)) + "\n\n" + Counts(words, minLen)
  }

  /** The title and body of the notification. */
  datatype Message = Message(title: string, body: string)

  /** `s.partition("\n\n")` without the separator: the text before the
      first blank line and the text after it. */
  function SplitAtBlank(s: string): (r: (string, string))
  {
    if |s| < 2 then (s, "")
    else if s[0] == '\n' && s[1] == '\n' then ("", s[2..])
    else var r := SplitAtBlank(s[1..]); ([s[0]] + r.0, r.1)
  }

  lemma {:induction false} SplitAtBlankAppend(a: string, b: string)
    requires '\n' !in a
    ensures SplitAtBlank(a + "\n\n" + b) == (a, b)
  {
    if |a| == 0 {
      assert a + "\n\n" + b == "\n\n" + b;
      assert ("\n\n" + b)[2..] == b;
    } else {
      assert (a + "\n\n" + b)[1..] == a[1..] + "\n\n" + b;
      SplitAtBlankAppend(a[1..], b);
      assert a == [a[0]] + a[1..];
    }
  }

  /** A joined text holds a character only if the separator or a part does;
      it is empty only when there are no parts or the parts are empty. */
  lemma {:induction false} JoinChars(sep: string, parts: seq<string>, c: char)
    requires c !in sep && forall i :: 0 <= i < |parts| ==> c !in parts[i]
    ensures c !in Join(sep, parts)
    ensures |parts| > 0 && |parts[0]| > 0 ==> |Join(sep, parts)| > 0
  {
    if |parts| > 1 {
      JoinChars(sep, parts[1..], c);
    }
  }

  /** The body read back, for words without line breaks: the part before the
      blank line is empty exactly when nothing is listed, and the part after
      it is the counts segment. With no commas in the words either, the first
      part splits at the commas into the listed words. */
  lemma BodyReadBack(words: seq<string>, gridSize: int)
    ensures (forall i :: 0 <= i < |words| ==> '\n' !in words[i]) ==>
      && SplitAtBlank(Body(words, gridSize)).1 == Counts(words, MinLen(gridSize))
      && (SplitAtBlank(Body(words, gridSize)).0 == "" <==> Selected(words, MinLen(gridSize)) == [])
    ensures (forall i :: 0 <= i < |words| ==> '\n' !in words[i] && ',' !in words[i]) && Selected(words, MinLen(gridSize)) != [] ==>
      Split(SplitAtBlank(Body(words, gridSize)).0, ',') == Selected(words, MinLen(gridSize))
  {
    if forall i :: 0 <= i < |words| ==> '\n' !in words[i] {
      BodyReadBackLines(words, gridSize);
    }
  }

  lemma BodyReadBackLines(words: seq<string>, gridSize: int)
    requires forall i :: 0 <= i < |words| ==> '\n' !in words[i]
    ensures SplitAtBlank(Body(words, gridSize)).1 == Counts(words, MinLen(gridSize))
    ensures SplitAtBlank(Body(words, gridSize)).0 == "" <==> Selected(words, MinLen(gridSize)) == []
    ensures (forall i :: 0 <= i < |words| ==> ',' !in words[i]) && Selected(words, MinLen(gridSize)) != [] ==>
      Split(SplitAtBlank(Body(words, gridSize)).0, ',') == Selected(words, MinLen(gridSize))
  {
    var sel := Selected(words, MinLen(gridSize));
    var listed := Join(",", sel);
    SelectedAscending(words, MinLen(gridSize));
    forall i | 0 <= i < |sel| ensures '\n' !in sel[i] {
      var j :| 0 <= j < |words| && words[j] == sel[i];
    }
    JoinChars(",", sel, '\n');
    SplitAtBlankAppend(listed, Counts(words, MinLen(gridSize)));
    if (forall i :: 0 <= i < |words| ==> ',' !in words[i]) && sel != [] {
      ListedWordsRecoverable(words, gridSize);
    }
  }

  /** The notification: the title announces the grid size and the number of
      words; the body lists the selected words, a blank line, then the
      counts. */
  function Compose(words: seq<string>, gridSize: int): (m: Message)
    ensures TitleGrid(m.title) == gridSize && TitleCount(m.title) == |words|
    ensures (forall i :: 0 <= i < |words| ==> '\n' !in words[i]) ==>
      && (SplitAtBlank(m.body).0 == "" <==> Selected(words, MinLen(gridSize)) == [])
      && SplitAtBlank(m.body).1 == Counts(words, MinLen(gridSize))
    ensures (forall i :: 0 <= i < |words| ==> '\n' !in words[i] && ',' !in words[i]) && Selected(words, MinLen(gridSize)) != [] ==>
      Split(SplitAtBlank(m.body).0, ',') == Selected(words, MinLen(gridSize))
  {
    TitleReadBack(gridSize, words);
    BodyReadBack(words, gridSize);
    Message(Title(gridSize, words), Body(words, gridSize))
  }

  /** The listed part of the body splits at the commas back into the
      selected words, when the words themselves hold no comma. */
  lemma ListedWordsRecoverable(words: seq<string>, gridSize: int)
    requires forall i :: 0 <= i < |words| ==> ',' !in words[i]
    requires |Selected(words, MinLen(gridSize))| > 0
    ensures Split(Join(",", Selected(words, MinLen(gridSize))), ',') == Selected(words, MinLen(gridSize))
  {
    var s := Selected(words, MinLen(gridSize));
    SelectedAscending(words, MinLen(gridSize));
    forall i | 0 <= i < |s| ensures ',' !in s[i] {
      var j :| 0 <= j < |words| && words[j] == s[i];
    }
    JoinSplit(s, ',');
  }

  lemma ExampleGroups(words: seq<string>)
    requires words == ["CAT", "AT", "CATS", "ACT"]
    ensures Group(words, 3) == ["CAT", "ACT"] && Group(words, 4) == ["CATS"]
  {
    var w1, w2, w3 := words[..1], words[..2], words[..3];
    assert w1 == ["CAT"] && w1[..0] == [] && w2[..1] == w1 && w3[..2] == w2 && words[..3] == w3;
    assert Group(w1, 3) == ["CAT"] && Group(w1, 4) == [];
    assert Group(w2, 3) == ["CAT"] && Group(w2, 4) == [];
    assert Group(w3, 3) == ["CAT"] && Group(w3, 4) == ["CATS"];
  }

  lemma ExampleLengths(words: seq<string>)
    requires words == ["CAT", "AT", "CATS", "ACT"]
    ensures Lengths(words) == [2, 3, 4]
  {
    var w1, w2, w3 := words[..1], words[..2], words[..3];
    assert w1 == ["CAT"] && w1[..0] == [] && w2[..1] == w1 && w3[..2] == w2 && words[..3] == w3;
    assert Lengths(w1) == [3];
    assert Lengths(w2) == [2, 3] by {
      assert [3][1..] == [];
    }
    assert Lengths(w3) == [2, 3, 4] by {
      assert [2, 3][1..] == [3] && [3][1..] == [];
    }
    assert [2, 3, 4][1..] == [3, 4];
  }

  lemma ExampleSelected(words: seq<string>)
    requires words == ["CAT", "AT", "CATS", "ACT"]
    ensures Selected(words, 3) == ["CAT", "ACT", "CATS"]
  {
    ExampleGroups(words);
    ExampleLengths(words);
    var ls: seq<nat> := [2, 3, 4];
    assert ls[1..] == [3, 4] && ls[1..][1..] == [4] && ls[1..][1..][1..] == [];
    assert SelectFrom(words, [4], 3) == ["CATS"];
    assert SelectFrom(words, [3, 4], 3) == ["CAT", "ACT", "CATS"];
  }

  lemma ExampleTallies(words: seq<string>)
    requires words == ["CAT", "AT", "CATS", "ACT"]
    ensures Tallies(words, 3) == [Tally(3, 2), Tally(4, 1)]
  {
    ExampleGroups(words);
    ExampleLengths(words);
    var ls: seq<nat> := [2, 3, 4];
    assert ls[1..] == [3, 4] && ls[1..][1..] == [4] && ls[1..][1..][1..] == [];
    assert TalliesFrom(words, [4], 3) == [Tally(4, 1)];
    assert TalliesFrom(words, [3, 4], 3) == [Tally(3, 2), Tally(4, 1)];
  }

  lemma ExampleCounts(words: seq<string>)
    requires words == ["CAT", "AT", "CATS", "ACT"]
    ensures Counts(words, 3) == "3L:2 | 4L:1"
  {
    ExampleTallies(words);
    assert [Tally(3, 2), Tally(4, 1)][1..] == [Tally(4, 1)];
    assert NatToStr(3) == "3" && NatToStr(2) == "2" && NatToStr(4) == "4" && NatToStr(1) == "1";
    assert Render(Tally(3, 2)) == "3L:2" && Render(Tally(4, 1)) == "4L:1";
    assert RenderAll([Tally(3, 2), Tally(4, 1)]) == ["3L:2", "4L:1"];
    assert ["3L:2", "4L:1"][1..] == ["4L:1"];
  }

  /** On a 4x4 board two-letter words are neither listed nor counted. */
  lemma BodyExample(words: seq<string>)
    requires words == ["CAT", "AT", "CATS", "ACT"]
    ensures Body(words, 4) == "CAT,ACT,CATS\n\n3L:2 | 4L:1"
  {
    ExampleSelected(words);
    ExampleCounts(words);
    assert ["CAT", "ACT", "CATS"][1..] == ["ACT", "CATS"] && ["ACT", "CATS"][1..] == ["CATS"];
    assert Join(",", ["CAT", "ACT", "CATS"]) == "CAT,ACT,CATS";
  }
}

=== FILE: ocr_cells.dfy ===
/**
 Folding full-board OCR detections into grid cells (`_easyocr_full_board`
 after `reader.readtext`). Each detection is a box given by two opposite
 corners, the text read inside it and a confidence.
 */
module OcrCells {
  import OcrText
  import opened PyInt

  datatype Box = Box(x0: real, y0: real, x2: real, y2: real, text: string, conf: real)

  function Min(a: int, b: int): int {
    if a < b then a else b
  }

  /** The cell `(row, col)` of a box's centre on an `n`-by-`n` board whose
      image is `height` pixels tall: `min(int(c / cell_size), n - 1)` on each
      axis. */
  function CellOf(b: Box, n: nat, height: real): (rc: (int, int))
    requires n > 0 && height > 0.0
    ensures rc.0 <= n - 1 && rc.1 <= n - 1
  {
    (Axis(b.y0, b.y2, n, height), Axis(b.x0, b.x2, n, height))
  }

  /** One coordinate of the cell: the centre `(a0 + a2) / 2` divided by the
      cell size `height / n`, truncated, and clamped to `n - 1`. */
  function Axis(a0: real, a2: real, n: nat, height: real): (k: int)
    requires n > 0 && height > 0.0
    ensures k <= n - 1
  {
    Min(Trunc((a0 + a2) / 2.0 / (height / n as real)), n - 1)
  }

  /** The box centre lies less than one cell (`height / n`) above the top
      edge and left of the left edge of the image, written without division:
      `(y0 + y2) / 2 > -height / n` and the same for x. */
  predicate WithinReach(b: Box, n: nat, height: real) {
    AxisWithinReach(b.y0, b.y2, n, height) && AxisWithinReach(b.x0, b.x2, n, height)
  }

  /** One axis of `WithinReach`: `(a0 + a2) / 2 > -height / n`. */
  predicate AxisWithinReach(a0: real, a2: real, n: nat, height: real) {
    (a0 + a2) * n as real > -2.0 * height
  }

  /** `int(x)` is non-negative exactly when `x > -1`. */
  lemma TruncNonNegative(x: real)
    ensures Trunc(x) >= 0 <==> x > -1.0
  {
  }

  /** For a positive cell size, `c / size > -1` iff `c > -size`. */
  lemma QuotientAboveMinusOne(c: real, size: real)
    requires size > 0.0
    ensures c / size > -1.0 <==> c > -size
  {
    assert c / size * size == c;
    if c / size > -1.0 {
      assert (c / size + 1.0) * size > 0.0;
    } else {
      assert (c / size + 1.0) * size <= 0.0;
    }
  }

  /** The centre coordinate `(a0 + a2) / 2` against minus one cell of a
      `height`-pixel image with `n` cells, in integer-free form. */
  lemma CentreWithinCell(a0: real, a2: real, n: nat, height: real)
    requires n > 0 && height > 0.0
    ensures (a0 + a2) / 2.0 / (height / n as real) > -1.0 <==> (a0 + a2) * n as real > -2.0 * height
  {
    var size := height / n as real;
    QuotientAboveMinusOne((a0 + a2) / 2.0, size);
    assert size * n as real == height;
    if (a0 + a2) / 2.0 > -size {
      assert (a0 + a2) * n as real > -2.0 * size * n as real;
    } else {
      assert (a0 + a2) * n as real <= -2.0 * size * n as real;
    }
  }

  /** One coordinate of `CellOf` is non-negative exactly when the centre is
      less than one cell outside the image on that axis. */
  lemma AxisOnBoard(a0: real, a2: real, n: nat, height: real)
    requires n > 0 && height > 0.0
    ensures 0 <= Axis(a0, a2, n, height) <==> AxisWithinReach(a0, a2, n, height)
  {
    TruncNonNegative((a0 + a2) / 2.0 / (height / n as real));
    CentreWithinCell(a0, a2, n, height);
  }

  /** A box lands on a cell of the board exactly when its centre is within
      reach: `int()` truncates toward zero, so a centre less than one cell
      above or left of the image still gives row or column 0, and only one a
      whole cell or more outside gives a negative index. */
  lemma CellOnBoard(b: Box, n: nat, height: real)
    requires n > 0 && height > 0.0
    ensures CellOf(b, n, height).0 < n && CellOf(b, n, height).1 < n
    ensures 0 <= CellOf(b, n, height).0 && 0 <= CellOf(b, n, height).1 <==> WithinReach(b, n, height)
  {
    AxisOnBoard(b.y0, b.y2, n, height);
    AxisOnBoard(b.x0, b.x2, n, height);
  }

  /** A detection as the loop sees it: its cell and its cleaned text. */
  datatype Reading = Reading(rc: (int, int), text: string, conf: real)

  function Read(b: Box, n: nat, height: real): (r: Reading)
    requires n > 0 && height > 0.0
    ensures r.rc == CellOf(b, n, height) && r.text == OcrText.Clean(b.text) && r.conf == b.conf
  {
    Reading(CellOf(b, n, height), OcrText.Clean(b.text), b.conf)
  }

  function Readings(boxes: seq<Box>, n: nat, height: real): (rs: seq<Reading>)
    requires n > 0 && height > 0.0
    ensures |rs| == |boxes| && forall i :: 0 <= i < |boxes| ==> rs[i] == Read(boxes[i], n, height)
  {
    seq(|boxes|, (i: int) requires 0 <= i < |boxes| => Read(boxes[i], n, height))
  }

  /** Reading `i` is a candidate for cell `rc`: it lies there and its cleaned
      text is not empty. */
  predicate Lands(rs: seq<Reading>, i: int, rc: (int, int)) {
    0 <= i < |rs| && rs[i].rc == rc && rs[i].text != ""
  }

  /** Reading `i` lands on `rc`, is at least as confident as every reading
      landing there, and more confident than every earlier one. */
  ghost predicate Winner(rs: seq<Reading>, i: int, rc: (int, int)) {
    && Lands(rs, i, rc)
    && (forall j :: Lands(rs, j, rc) ==> rs[j].conf <= rs[i].conf)
    && (forall j :: 0 <= j < i && Lands(rs, j, rc) ==> rs[j].conf < rs[i].conf)
  }

  /** The fold's outcome: a cell holds a detection iff some reading lands
      there, and it holds the text and confidence of the most confident one,
      the earliest on ties. */
  ghost predicate FoldSpec(rs: seq<Reading>, m: map<(int, int), (string, real)>) {
    && (forall rc :: rc in m <==> exists i :: Lands(rs, i, rc))
    && (forall rc :: rc in m ==> exists i :: (Winner(rs, i, rc) && m[rc] == (rs[i].text, rs[i].conf)))
  }

  /** One step of the loop: skip an empty reading, otherwise store it unless
      the cell already holds a detection at least as confident. */
  function Keep(m: map<(int, int), (string, real)>, r: Reading): map<(int, int), (string, real)> {
    if r.text == "" then m
    else if r.rc !in m || r.conf > m[r.rc].1 then m[r.rc := (r.text, r.conf)]
    else m
  }

  function FoldReadings(rs: seq<Reading>): (m: map<(int, int), (string, real)>)
    ensures FoldSpec(rs, m)
  {
    if |rs| == 0 then map[]
    else
      var m0 := FoldReadings(rs[..|rs| - 1]);
      var m := Keep(m0, rs[|rs| - 1]);
      FoldKeys(rs, m0, m);
      FoldValues(rs, m0, m);
      m
  }

  /** The `detections` dictionary after reading `boxes` in order. */
  function Fold(boxes: seq<Box>, n: nat, height: real): (m: map<(int, int), (string, real)>)
    requires n > 0 && height > 0.0
    ensures FoldSpec(Readings(boxes, n, height), m)
  {
    FoldReadings(Readings(boxes, n, height))
  }

  lemma FoldKeys(rs: seq<Reading>, m0: map<(int, int), (string, real)>, m: map<(int, int), (string, real)>)
    requires |rs| > 0 && FoldSpec(rs[..|rs| - 1], m0) && m == Keep(m0, rs[|rs| - 1])
    ensures forall rc :: rc in m <==> exists i :: Lands(rs, i, rc)
  {
    var prefix := rs[..|rs| - 1];
    var last := |rs| - 1;
    forall rc ensures rc in m <==> exists i :: Lands(rs, i, rc) {
      if i :| Lands(rs, i, rc) {
        if i < last {
          assert Lands(prefix, i, rc);
        }
      }
      if i :| Lands(prefix, i, rc) {
        assert Lands(rs, i, rc);
      }
      if Lands(rs, last, rc) {
        assert rc in m;
      }
    }
  }

  lemma FoldValues(rs: seq<Reading>, m0: map<(int, int), (string, real)>, m: map<(int, int), (string, real)>)
    requires |rs| > 0 && FoldSpec(rs[..|rs| - 1], m0) && m == Keep(m0, rs[|rs| - 1])
    ensures forall rc :: rc in m ==> exists i :: (Winner(rs, i, rc) && m[rc] == (rs[i].text, rs[i].conf))
  {
    var last := |rs| - 1;
    var r := rs[last];
    forall rc | rc in m
      ensures exists i :: (Winner(rs, i, rc) && m[rc] == (rs[i].text, rs[i].conf))
    {
      if Lands(rs, last, rc) && (rc !in m0 || r.conf > m0[rc].1) {
        LastWins(rs, m0, rc);
        assert m[rc] == (r.text, r.conf);
      } else {
        var k := EarlierWins(rs, m0, rc);
        assert m[rc] == m0[rc];
      }
    }
  }

  /** The last reading is stored on its cell when it beats what is there. */
  lemma LastWins(rs: seq<Reading>, m0: map<(int, int), (string, real)>, rc: (int, int))
    requires |rs| > 0 && FoldSpec(rs[..|rs| - 1], m0)
    requires Lands(rs, |rs| - 1, rc) && (rc !in m0 || rs[|rs| - 1].conf > m0[rc].1)
    ensures Winner(rs, |rs| - 1, rc)
  {
    var prefix := rs[..|rs| - 1];
    var last := |rs| - 1;
    var r := rs[last];
    if rc in m0 {
      var k :| Winner(prefix, k, rc) && m0[rc] == (prefix[k].text, prefix[k].conf);
      forall j | 0 <= j < last && Lands(rs, j, rc) ensures rs[j].conf < r.conf {
        assert Lands(prefix, j, rc);
      }
    } else {
      forall j | 0 <= j < last ensures !Lands(rs, j, rc) {
        assert !Lands(prefix, j, rc);
      }
    }
  }

  /** Otherwise the earlier winner on the cell stays the winner. */
  lemma EarlierWins(rs: seq<Reading>, m0: map<(int, int), (string, real)>, rc: (int, int)) returns (k: int)
    requires |rs| > 0 && FoldSpec(rs[..|rs| - 1], m0) && rc in Keep(m0, rs[|rs| - 1])
    requires !(Lands(rs, |rs| - 1, rc) && (rc !in m0 || rs[|rs| - 1].conf > m0[rc].1))
    ensures rc in m0 && Winner(rs, k, rc) && m0[rc] == (rs[k].text, rs[k].conf)
  {
    var prefix := rs[..|rs| - 1];
    var last := |rs| - 1;
    assert rc in m0;
    k :| Winner(prefix, k, rc) && m0[rc] == (prefix[k].text, prefix[k].conf);
    forall j | Lands(rs, j, rc) ensures rs[j].conf <= rs[k].conf {
      if j < last {
        assert Lands(prefix, j, rc);
      }
    }
    forall j | 0 <= j < k && Lands(rs, j, rc) ensures rs[j].conf < rs[k].conf {
      assert Lands(prefix, j, rc);
    }
  }

  /** What cleaning can leave: nothing, QU, or one letter other than Q. */
  predicate CleanShape(t: string) {
    t == "" || t == "QU" || (|t| == 1 && 'A' <= t[0] <= 'Z' && t[0] != 'Q')
  }

  lemma ReadingsShaped(boxes: seq<Box>, n: nat, height: real)
    requires n > 0 && height > 0.0
    ensures forall i :: 0 <= i < |boxes| ==> CleanShape(Readings(boxes, n, height)[i].text)
  {
    forall i | 0 <= i < |boxes| ensures CleanShape(Readings(boxes, n, height)[i].text) {
      assert Readings(boxes, n, height)[i].text == OcrText.Clean(boxes[i].text);
    }
  }

  /** The fold stores only texts of readings it was given, and never an
      empty one. */
  lemma StoredFromReadings(rs: seq<Reading>, m: map<(int, int), (string, real)>, rc: (int, int))
    requires FoldSpec(rs, m) && rc in m
    requires forall i :: 0 <= i < |rs| ==> CleanShape(rs[i].text)
    ensures m[rc].0 != "" && CleanShape(m[rc].0)
  {
    var i :| Winner(rs, i, rc) && m[rc] == (rs[i].text, rs[i].conf);
  }

  /** Every stored reading is a cleaned one: QU, or a single letter other
      than Q. */
  lemma StoredAreLetters(boxes: seq<Box>, n: nat, height: real, rc: (int, int))
    requires n > 0 && height > 0.0
    requires rc in Fold(boxes, n, height)
    ensures var t := Fold(boxes, n, height)[rc].0;
      t == "QU" || (|t| == 1 && 'A' <= t[0] <= 'Z' && t[0] != 'Q')
  {
    var rs := Readings(boxes, n, height);
    assert forall i :: 0 <= i < |rs| ==> CleanShape(rs[i].text) by { ReadingsShaped(boxes, n, height); }
    StoredFromReadings(rs, Fold(boxes, n, height), rc);
  }
}

=== FILE: ocr_text.dfy ===
/**
 Cleaning of one OCR reading (`_clean_ocr_text`): upper-case, strip, map the
 usual OCR confusions onto letters, keep letters only, and answer with the
 first one, where a Q stands for the "QU" die face.
 */
module OcrText {
  import opened Wrappers
  import opened Ascii

  /** `CONFUSION_MAP.get(ch, ch)`: digits and punctuation OCR tends to read in
      place of O, I, S and C; every other character maps to itself. */
  function Confuse(c: char): (r: char)
    ensures r == c || IsUpperLetter(r)
    ensures IsAlpha(c) ==> r == c
  {
    match c
    case '0' => 'O'
    case '1' => 'I'
    case '5' => 'S'
    case '|' => 'I'
    case '!' => 'I'
    case '{' => 'C'
    case '(' => 'C'
    case _ => c
  }

  function ConfuseStr(s: string): (r: string)
    ensures |r| == |s|
    ensures forall i :: 0 <= i < |s| ==> r[i] == Confuse(s[i])
    ensures (forall i :: 0 <= i < |s| ==> !IsLowerLetter(s[i])) ==> forall i :: 0 <= i < |r| ==> !IsLowerLetter(r[i])
  {
    if |s| == 0 then "" else [Confuse(s[0])] + ConfuseStr(s[1..])
  }

  /** `"".join(c for c in s if c.isalpha())`. */
  function Letters(s: string): (r: string)
    ensures |r| <= |s|
    ensures forall i :: 0 <= i < |r| ==> IsAlpha(r[i])
  {
    if |s| == 0 then ""
    else (if IsAlpha(s[0]) then [s[0]] else "") + Letters(s[1..])
  }

  /** `_clean_ocr_text`. */
  function Clean(text: string): (r: string)
    ensures r == "" || r == "QU" || (|r| == 1 && IsUpperLetter(r[0]) && r[0] != 'Q')
  {
    var t := Strip(UpperStr(text));
    if |t| == 0 then ""
    else
      var alpha := Letters(ConfuseStr(t));
      if |alpha| == 0 then ""
      else
        StripNoLower(UpperStr(text));
        LettersOfUpper(ConfuseStr(t));
        if alpha[0] == 'Q' then "QU" else [alpha[0]]
  }

  /** Confusion never produces a lower-case letter from an upper-cased string,
      so every letter that survives the filter is upper case. */
  lemma {:induction false} LettersOfUpper(s: string)
    requires forall i :: 0 <= i < |s| ==> !IsLowerLetter(s[i])
    ensures forall i :: 0 <= i < |Letters(s)| ==> IsUpperLetter(Letters(s)[i])
    decreases |s|
  {
    if |s| > 0 {
      LettersOfUpper(s[1..]);
    }
  }

  lemma StripNoLower(s: string)
    requires forall i :: 0 <= i < |s| ==> !IsLowerLetter(s[i])
    ensures forall i :: 0 <= i < |Strip(s)| ==> !IsLowerLetter(Strip(s)[i])
  {
    var l := StripLeft(s);
    assert forall i :: 0 <= i < |l| ==> l[i] == s[|s| - |l| + i];
  }

  lemma {:induction false} LettersAppend(a: string, b: string)
    ensures Letters(a + b) == Letters(a) + Letters(b)
    decreases |a|
  {
    if |a| == 0 {
      assert a + b == b;
    } else {
      assert (a + b)[0] == a[0];
      assert (a + b)[1..] == a[1..] + b;
      LettersAppend(a[1..], b);
    }
  }

  lemma ConfuseAppend(a: string, b: string)
    ensures ConfuseStr(a + b) == ConfuseStr(a) + ConfuseStr(b)
  {
  }

  /** Whitespace is neither confused nor a letter, so it contributes nothing. */
  lemma {:induction false} SpacesHaveNoLetters(s: string)
    requires forall i :: 0 <= i < |s| ==> IsSpace(s[i])
    ensures Letters(ConfuseStr(s)) == ""
    decreases |s|
  {
    if |s| > 0 {
      SpacesHaveNoLetters(s[1..]);
    }
  }

  /** Leading whitespace contributes no letters. */
  lemma SpacesBefore(lead: string, rest: string)
    requires forall i :: 0 <= i < |lead| ==> IsSpace(lead[i])
    ensures Letters(ConfuseStr(lead + rest)) == Letters(ConfuseStr(rest))
  {
    SpacesHaveNoLetters(lead);
    ConfuseAppend(lead, rest);
    LettersAppend(ConfuseStr(lead), ConfuseStr(rest));
    assert Letters(ConfuseStr(lead)) + Letters(ConfuseStr(rest)) == Letters(ConfuseStr(rest));
  }

  /** Trailing whitespace contributes no letters. */
  lemma SpacesAfter(rest: string, trail: string)
    requires forall i :: 0 <= i < |trail| ==> IsSpace(trail[i])
    ensures Letters(ConfuseStr(rest + trail)) == Letters(ConfuseStr(rest))
  {
    SpacesHaveNoLetters(trail);
    ConfuseAppend(rest, trail);
    LettersAppend(ConfuseStr(rest), ConfuseStr(trail));
    assert Letters(ConfuseStr(rest)) + Letters(ConfuseStr(trail)) == Letters(ConfuseStr(rest));
  }

  /** A string is its left-stripped form after some whitespace. */
  lemma {:induction false} LeftParts(u: string) returns (lead: string)
    ensures u == lead + StripLeft(u)
    ensures forall i :: 0 <= i < |lead| ==> IsSpace(lead[i])
    decreases |u|
  {
    if |u| > 0 && IsSpace(u[0]) {
      var rest := LeftParts(u[1..]);
      lead := SpaceBefore(u[0], u[1..], rest, StripLeft(u[1..]));
      assert u == [u[0]] + u[1..];
    } else {
      assert StripLeft(u) == u;
      lead := "";
      assert u == lead + u;
    }
  }

  /** One more whitespace character in front of a split string. */
  lemma SpaceBefore(c: char, v: string, rest: string, tail: string) returns (lead: string)
    requires IsSpace(c) && v == rest + tail
    requires forall i :: 0 <= i < |rest| ==> IsSpace(rest[i])
    ensures lead == [c] + rest && [c] + v == lead + tail
    ensures forall i :: 0 <= i < |lead| ==> IsSpace(lead[i])
  {
    lead := [c] + rest;
    forall i | 0 <= i < |lead| ensures IsSpace(lead[i]) {
      if i > 0 { assert lead[i] == rest[i - 1]; }
    }
  }

  /** A string is its right-stripped form followed by some whitespace. */
  lemma {:induction false} RightParts(l: string) returns (trail: string)
    ensures l == StripRight(l) + trail
    ensures forall i :: 0 <= i < |trail| ==> IsSpace(trail[i])
    decreases |l|
  {
    if |l| > 0 && IsSpace(l[|l| - 1]) {
      var init := l[..|l| - 1];
      var rest := RightParts(init);
      assert StripRight(l) == StripRight(init);
      trail := rest + [l[|l| - 1]];
      forall i | 0 <= i < |trail| ensures IsSpace(trail[i]) {
        if i < |rest| { assert trail[i] == rest[i]; }
      }
      var head := StripRight(init);
      assert l == init + [l[|l| - 1]];
      assert init == head + rest;
      assert (head + rest) + [l[|l| - 1]] == head + trail;
    } else {
      assert StripRight(l) == l;
      trail := "";
      assert l == l + trail;
    }
  }

  /** Stripping the reading first does not change which letters it holds. */
  lemma StripKeepsLetters(u: string)
    ensures Letters(ConfuseStr(Strip(u))) == Letters(ConfuseStr(u))
  {
    var l := StripLeft(u);
    var lead := LeftParts(u);
    var trail := RightParts(l);
    SpacesBefore(lead, l);
    SpacesAfter(StripRight(l), trail);
  }

  /** Reference reading, independent of the pipeline above: scan the raw text
      from the left for the first character that, upper-cased and confused,
      is a letter. */
  function FirstLetter(s: string): Option<char> {
    if |s| == 0 then None
    else
      var c := Confuse(Upper(s[0]));
      if IsAlpha(c) then Some(c) else FirstLetter(s[1..])
  }

  lemma {:induction false} FirstLetterIsHead(s: string)
    ensures Letters(ConfuseStr(UpperStr(s))) == "" <==> FirstLetter(s) == None
    ensures FirstLetter(s).Some? ==> Letters(ConfuseStr(UpperStr(s)))[0] == FirstLetter(s).value
    decreases |s|
  {
    if |s| > 0 {
      var u := UpperStr(s);
      assert u == [Upper(s[0])] + UpperStr(s[1..]);
      assert ConfuseStr(u) == [Confuse(Upper(s[0]))] + ConfuseStr(UpperStr(s[1..]));
      FirstLetterIsHead(s[1..]);
    }
  }

  /** `Clean` answers with the first character of the raw reading that is a
      letter once upper-cased and confused (QU when that letter is Q), and
      with "" when there is none: leading whitespace, non-letters and
      everything after the first letter are ignored. */
  lemma CleanIsFirstLetter(text: string)
    ensures Clean(text) == match FirstLetter(text)
      case None => ""
      case Some(c) => if c == 'Q' then "QU" else [c]
  {
    var u := UpperStr(text);
    StripKeepsLetters(u);
    FirstLetterIsHead(text);
    if |Strip(u)| == 0 {
      assert ConfuseStr(Strip(u)) == "";
    }
  }

  /** Cleaning is idempotent. */
  lemma CleanIdempotent(text: string)
    ensures Clean(Clean(text)) == Clean(text)
  {
    var r := Clean(text);
    CleanIsFirstLetter(r);
    if |r| == 1 {
      assert FirstLetter(r) == Some(r[0]);
    } else if r == "QU" {
      assert FirstLetter(r) == Some('Q');
    }
  }

  /** A one-character reading cleans to its confused upper-case form when
      that is a letter (QU for Q), and to "" otherwise. */
  lemma CleanOneChar(c: char)
    ensures Clean([c]) == (var d := Confuse(Upper(c));
      if !IsAlpha(d) then "" else if d == 'Q' then "QU" else [d])
  {
    CleanIsFirstLetter([c]);
    assert [c][1..] == "";
  }

  /** `test_clean_ocr_basic`: a letter is kept. */
  lemma CleanUpperA()
    ensures Clean("A") == "A"
  {
    CleanOneChar('A');
    assert !IsLowerLetter('A') && Upper('A') == 'A';
    assert Confuse('A') == 'A';
  }

  /** `test_clean_ocr_basic`: a lower-case letter is upper-cased. */
  lemma CleanLowerA()
    ensures Clean("a") == "A"
  {
    CleanOneChar('a');
    assert Upper('a') == 'A';
    assert Confuse('A') == 'A';
  }

  /** `test_clean_ocr_basic`: Q stands for the QU face. */
  lemma CleanUpperQ()
    ensures Clean("Q") == "QU"
  {
    CleanOneChar('Q');
    assert !IsLowerLetter('Q') && Upper('Q') == 'Q';
    assert Confuse('Q') == 'Q';
  }

  /** `test_clean_ocr_basic`: so does q. */
  lemma CleanLowerQ()
    ensures Clean("q") == "QU"
  {
    CleanOneChar('q');
    assert Upper('q') == 'Q';
    assert Confuse('Q') == 'Q';
  }

  /** `test_clean_ocr_confusion`: zero reads as O. */
  lemma CleanZero()
    ensures Clean("0") == "O"
  {
    CleanOneChar('0');
    assert !IsLowerLetter('0') && Upper('0') == '0';
    assert Confuse('0') == 'O';
  }

  /** `test_clean_ocr_confusion`: one reads as I. */
  lemma CleanOne()
    ensures Clean("1") == "I"
  {
    CleanOneChar('1');
    assert !IsLowerLetter('1') && Upper('1') == '1';
    assert Confuse('1') == 'I';
  }

  /** `test_clean_ocr_confusion`: five reads as S. */
  lemma CleanFive()
    ensures Clean("5") == "S"
  {
    CleanOneChar('5');
    assert !IsLowerLetter('5') && Upper('5') == '5';
    assert Confuse('5') == 'S';
  }

  /** A vertical bar reads as I. */
  lemma CleanBar()
    ensures Clean("|") == "I"
  {
    CleanOneChar('|');
    assert !IsLowerLetter('|') && Upper('|') == '|';
    assert Confuse('|') == 'I';
  }

  /** An exclamation mark reads as I. */
  lemma CleanBang()
    ensures Clean("!") == "I"
  {
    CleanOneChar('!');
    assert !IsLowerLetter('!') && Upper('!') == '!';
    assert Confuse('!') == 'I';
  }

  /** An opening brace reads as C. */
  lemma CleanBrace()
    ensures Clean("{") == "C"
  {
    CleanOneChar('{');
    assert !IsLowerLetter('{') && Upper('{') == '{';
    assert Confuse('{') == 'C';
  }

  /** An opening parenthesis reads as C. */
  lemma CleanParen()
    ensures Clean("(") == "C"
  {
    CleanOneChar('(');
    assert !IsLowerLetter('(') && Upper('(') == '(';
    assert Confuse('(') == 'C';
  }

  /** `test_clean_ocr_empty`: nothing read. */
  lemma CleanNothing()
    ensures Clean("") == ""
  {
    CleanIsFirstLetter("");
  }

  /** `test_clean_ocr_empty`: only whitespace read. */
  lemma CleanBlank()
    ensures Clean("  ") == ""
  {
    CleanIsFirstLetter("  ");
  }

  /** `test_clean_ocr_empty`: the first confused digit wins. */
  lemma CleanDigitRun()
    ensures Clean("123") == "I"
  {
    CleanIsFirstLetter("123");
  }

  /** `test_clean_ocr_multi_char`: only the first letter is kept. */
  lemma CleanTwoLetters()
    ensures Clean("AB") == "A"
  {
    CleanIsFirstLetter("AB");
  }

  /** `test_clean_ocr_multi_char`: a QU reading stays QU. */
  lemma CleanQu()
    ensures Clean("QU") == "QU"
  {
    CleanIsFirstLetter("QU");
  }
}

=== FILE: py_int.dfy ===
/** Python's conversion of a float to an integer. */
module PyInt {

  /** `int(x)`: truncation toward zero. */
  function Trunc(x: real): (k: int)
    ensures x >= 0.0 ==> k as real <= x < k as real + 1.0
    ensures x < 0.0 ==> k as real - 1.0 < x <= k as real
  {
    if x >= 0.0 then x.Floor else -((-x).Floor)
  }
}

=== FILE: recognize.dfy ===
/**
 The passes of `recognize_cells` that fuse full-board OCR with template
 matching into one letter and one confidence per cell:
   1. OCR detections fill their cells;
   2. template matching fills every cell OCR left as "?";
   3. with loaded templates, template matching cross-checks each OCR cell;
   4. every R or P is replaced by the structural R/P verdict;
   5. a bare Q becomes QU;
 and the flat, row-major result is cut into `n` rows of `n`.
 */
module Recognize {
  import opened Wrappers
  import Ascii
  import RpCheck
  import Templates
  import OcrCells
  import opened GridIndex

  /** What is known of one cell image: its template scores, in the order of
      the template set in use, its hole count, and its preprocessed pixels. */
  datatype Cell = Cell(scores: seq<Templates.Score>, holes: int, img: seq<seq<int>>, w: nat)

  /** Full-board OCR output and the height of the warped board image. */
  datatype Ocr = Ocr(boxes: seq<OcrCells.Box>, height: real)

  datatype Job = Job(cells: seq<Cell>, n: nat, loaded: seq<string>, ocr: Option<Ocr>)

  /** A template name: `load_templates` keeps upper-cased alphabetic stems. */
  predicate TemplateName(l: string) {
    |l| > 0 && forall k :: 0 <= k < |l| ==> Ascii.IsUpperLetter(l[k])
  }

  /** `_generate_synthetic_templates`: one template per letter A..Z. */
  function Synthetic(): (ls: seq<string>)
    ensures |ls| == 26 && forall k :: 0 <= k < 26 ==> ls[k] == [('A' as int + k) as char]
  {
    seq(26, (k: int) requires 0 <= k < 26 => [('A' as int + k) as char])
  }

  /** `templates if templates else _generate_synthetic_templates()`. */
  function Effective(loaded: seq<string>): (ls: seq<string>)
    ensures |ls| > 0
    ensures |loaded| > 0 ==> ls == loaded
  {
    if |loaded| > 0 then loaded else Synthetic()
  }

  /** The inputs `recognize_cells` works on without failing: `n * n` cells
      (the grid size matches the cell list), each scored against every
      template in use in order; OCR only with a positive grid size, and,
      when OCR reports any box, a positive image height and box centres less
      than one cell left of or above the image. */
  predicate Valid(job: Job) {
    && |job.cells| == job.n * job.n
    && (forall k :: 0 <= k < |job.loaded| ==> TemplateName(job.loaded[k]))
    && (forall i :: 0 <= i < |job.cells| ==> ValidCell(job.cells[i], Effective(job.loaded)))
    && (job.ocr.Some? ==>
          && job.n > 0
          && (|job.ocr.value.boxes| > 0 ==> job.ocr.value.height > 0.0)
          && forall k :: 0 <= k < |job.ocr.value.boxes| ==> OcrCells.WithinReach(job.ocr.value.boxes[k], job.n, job.ocr.value.height))
  }

  predicate ValidCell(c: Cell, names: seq<string>) {
    && RpCheck.Rect(c.img, c.w)
    && |c.scores| == |names|
    && (forall k :: 0 <= k < |names| ==> c.scores[k].letter == names[k])
  }

  /** The OCR detections per cell (empty without OCR or without boxes). */
  function Detections(job: Job): (det: map<(int, int), (string, real)>)
    requires Valid(job)
    ensures forall rc :: rc in det ==> 0 <= rc.0 < job.n && 0 <= rc.1 < job.n
  {
    match job.ocr
    case None => map[]
    case Some(o) =>
      if |o.boxes| == 0 then map[] else
      var det := OcrCells.Fold(o.boxes, job.n, o.height);
      var rs := OcrCells.Readings(o.boxes, job.n, o.height);
      assert forall rc :: rc in det ==> 0 <= rc.0 < job.n && 0 <= rc.1 < job.n by {
        forall rc | rc in det ensures 0 <= rc.0 < job.n && 0 <= rc.1 < job.n {
          var i :| OcrCells.Lands(rs, i, rc);
          OcrCells.CellOnBoard(o.boxes[i], job.n, o.height);
        }
      }
      det
  }

  /** The `(row, col)` of flat index `i`. */
  function Coord(job: Job, i: nat): (rc: (int, int))
    requires Valid(job) && i < |job.cells|
    ensures 0 <= rc.0 < job.n && 0 <= rc.1 < job.n
    ensures Flat(rc.0, rc.1, job.n) == i
  {
    RowInGrid(i, job.n);
    (i / job.n, i % job.n)
  }

  /** Template matching for cell `i` against the template set in use. */
  function TemplateAt(job: Job, i: nat): (string, real)
    requires Valid(job) && i < |job.cells|
  {
    var c := job.cells[i];
    Templates.VerifiedMatch(c.scores, c.holes, c.img, c.w)
  }

  /** Pass 1. Distinct detections sit on distinct cells, so each cell holds
      what the detection at its `(row, col)` says, or "?" with confidence 0. */
  function AfterOcr(job: Job, i: nat): (string, real)
    requires Valid(job) && i < |job.cells|
  {
    var det := Detections(job);
    var rc := Coord(job, i);
    if rc in det then det[rc] else ("?", 0.0)
  }

  /** Pass 2: template matching for cells still "?". */
  function AfterTemplates(job: Job, i: nat): (string, real)
    requires Valid(job) && i < |job.cells|
  {
    var a := AfterOcr(job, i);
    if a.0 == "?" then TemplateAt(job, i) else a
  }

  function RMax(a: real, b: real): (m: real)
    ensures m >= a && m >= b && (m == a || m == b)
  {
    if a >= b then a else b
  }

  /** Whether the template reading replaces the OCR one in pass 3. */
  predicate Overrides(ocrLetter: string, ocrConf: real, tplLetter: string, tplConf: real) {
    tplLetter != ocrLetter && ocrConf < 0.9 && (tplConf > 0.85 || (tplConf > ocrConf && ocrConf < 0.7))
  }

  /** The cross-check of one cell: `a` is its reading so far, `ocr` the OCR
      detection on it and `tpl` its template reading. */
  function CrossCheck(a: (string, real), ocr: (string, real), tpl: (string, real)): (string, real) {
    var (ocrLetter, ocrConf) := ocr;
    var (tplLetter, tplConf) := tpl;
    if tplLetter != ocrLetter && ocrConf < 0.9 then
      if tplConf > 0.85 || (tplConf > ocrConf && ocrConf < 0.7) then tpl else a
    else (a.0, RMax(a.1, tplConf))
  }

  /** Pass 3, with loaded templates, on OCR-detected cells. */
  function AfterCrossCheck(job: Job, i: nat): (string, real)
    requires Valid(job) && i < |job.cells|
  {
    var a := AfterTemplates(job, i);
    var det := Detections(job);
    var rc := Coord(job, i);
    if |job.loaded| > 0 && rc in det then CrossCheck(a, det[rc], TemplateAt(job, i)) else a
  }

  /** Pass 4 on one reading, given the cell's structural verdict. */
  function RpFix(a: (string, real), verdict: string): (string, real) {
    if a.0 == "R" || a.0 == "P" then (verdict, a.1) else a
  }

  function AfterRp(job: Job, i: nat): (string, real)
    requires Valid(job) && i < |job.cells|
  {
    var c := job.cells[i];
    RpFix(AfterCrossCheck(job, i), RpCheck.Disambiguate(c.img, c.w))
  }

  /** Pass 5 on one reading. */
  function QuFix(a: (string, real)): (string, real) {
    if a.0 == "Q" then ("QU", a.1) else a
  }

  function Final(job: Job, i: nat): (string, real)
    requires Valid(job) && i < |job.cells|
  {
    QuFix(AfterRp(job, i))
  }

  /** `recognize_cells`: the letters and confidences as `n` rows of `n`. */
  function RecognizeCells(job: Job): (r: (seq<seq<string>>, seq<seq<real>>))
    requires Valid(job)
    ensures |r.0| == job.n && |r.1| == job.n
    ensures forall row :: 0 <= row < job.n ==> |r.0[row]| == job.n && |r.1[row]| == job.n
    ensures forall row, col :: 0 <= row < job.n && 0 <= col < job.n ==>
      Flat(row, col, job.n) < |job.cells| &&
      r.0[row][col] == Final(job, Flat(row, col, job.n)).0 &&
      r.1[row][col] == Final(job, Flat(row, col, job.n)).1
  {
    var flat := FinalLists(job);
    var r := (Reshape(flat.0, job.n), Reshape(flat.1, job.n));
    forall row, col | 0 <= row < job.n && 0 <= col < job.n
      ensures Flat(row, col, job.n) < |job.cells|
      ensures r.0[row][col] == Final(job, Flat(row, col, job.n)).0 && r.1[row][col] == Final(job, Flat(row, col, job.n)).1
    {
      var i := Flat(row, col, job.n);
      assert i < |job.cells| && r.0[row][col] == flat.0[i] && r.1[row][col] == flat.1[i];
    }
    r
  }

  /** The flat `letters` and `confidences` lists once every pass has run. */
  function FinalLists(job: Job): (f: (seq<string>, seq<real>))
    requires Valid(job)
    ensures |f.0| == |job.cells| && |f.1| == |job.cells|
    ensures forall i :: 0 <= i < |job.cells| ==> f.0[i] == Final(job, i).0 && f.1[i] == Final(job, i).1
  {
    (seq(|job.cells|, (i: int) requires 0 <= i < |job.cells| => Final(job, i).0),
     seq(|job.cells|, (i: int) requires 0 <= i < |job.cells| => Final(job, i).1))
  }

  /** `[xs[r * n:(r + 1) * n] for r in range(n)]` of a flat list of `n * n`. */
  function Reshape<T>(xs: seq<T>, n: nat): (g: seq<seq<T>>)
    requires |xs| == n * n
    ensures |g| == n && forall row :: 0 <= row < n ==> |g[row]| == n
    ensures forall row, col :: 0 <= row < n && 0 <= col < n ==> Flat(row, col, n) < |xs| && g[row][col] == xs[Flat(row, col, n)]
  {
    var g := seq(n, (row: int) requires 0 <= row < n => RowSlice(xs, row, n));
    forall row, col | 0 <= row < n && 0 <= col < n
      ensures Flat(row, col, n) < |xs| && g[row][col] == xs[Flat(row, col, n)]
    {
      assert g[row] == RowSlice(xs, row, n);
    }
    g
  }

  /** `xs[r * n:(r + 1) * n]`. */
  function RowSlice<T>(xs: seq<T>, row: int, n: nat): (s: seq<T>)
    requires |xs| == n * n && 0 <= row < n
    ensures |s| == n && forall col :: 0 <= col < n ==> Flat(row, col, n) < |xs| && s[col] == xs[Flat(row, col, n)]
  {
    IndexOf(row, n - 1, n);
    assert (row + 1) * n == row * n + n;
    forall col | 0 <= col < n ensures Flat(row, col, n) < |xs| {
      IndexOf(row, col, n);
    }
    xs[row * n..(row + 1) * n]
  }

  /* ---------------------------------------------------------------------- */
  /* What the passes guarantee                                              */
  /* ---------------------------------------------------------------------- */

  lemma EffectiveNames(loaded: seq<string>)
    requires forall k :: 0 <= k < |loaded| ==> TemplateName(loaded[k])
    ensures forall k :: 0 <= k < |Effective(loaded)| ==> TemplateName(Effective(loaded)[k])
  {
    if |loaded| == 0 {
      forall k | 0 <= k < 26 ensures TemplateName(Synthetic()[k]) {
        assert Synthetic()[k][0] == ('A' as int + k) as char;
      }
    }
  }

  /** Template matching answers with a template name (or the R/P verdict,
      itself one); never "?" since some template set is always in use. */
  lemma TemplateLetter(job: Job, i: nat)
    requires Valid(job) && i < |job.cells|
    ensures TemplateName(TemplateAt(job, i).0)
  {
    var c := job.cells[i];
    EffectiveNames(job.loaded);
    var l := TemplateAt(job, i).0;
    if l != "R" && l != "P" {
      var k :| 0 <= k < |c.scores| && c.scores[k].letter == l;
    }
  }

  /** OCR letters are cleaned readings: one letter A..Z, or QU. */
  lemma OcrLetter(job: Job, rc: (int, int))
    requires Valid(job) && rc in Detections(job)
    ensures TemplateName(Detections(job)[rc].0) && Detections(job)[rc].0 != "Q"
  {
    var o := job.ocr.value;
    assert |o.boxes| > 0;
    var det := OcrCells.Fold(o.boxes, job.n, o.height);
    assert Detections(job) == det;
    OcrCells.StoredAreLetters(o.boxes, job.n, o.height, rc);
    CleanedIsName(det[rc].0);
  }

  lemma CleanedIsName(t: string)
    requires t == "QU" || (|t| == 1 && 'A' <= t[0] <= 'Z' && t[0] != 'Q')
    ensures TemplateName(t) && t != "Q"
  {
  }

  /** Pass 1 leaves "?" exactly on the cells no detection landed on, and
      pass 2 writes exactly those cells, with the template reading. */
  lemma TemplatePassFillsUnknown(job: Job, i: nat)
    requires Valid(job) && i < |job.cells|
    ensures AfterOcr(job, i).0 == "?" <==> Coord(job, i) !in Detections(job)
    ensures AfterTemplates(job, i) ==
      if Coord(job, i) in Detections(job) then Detections(job)[Coord(job, i)] else TemplateAt(job, i)
    ensures AfterTemplates(job, i).0 != "?"
  {
    var det := Detections(job);
    var rc := Coord(job, i);
    assert AfterOcr(job, i) == if rc in det then det[rc] else ("?", 0.0);
    UnknownIsNoName();
    if rc in det {
      OcrLetter(job, rc);
    } else {
      TemplateLetter(job, i);
    }
  }

  /** "?" is no template name. */
  lemma UnknownIsNoName()
    ensures !TemplateName("?")
  {
    assert "?"[0] == '?';
  }

  /** The cross-check on an OCR reading `(ol, oc)` against a template
      reading `(tl, tc)`. The template replaces the OCR reading iff the
      letters differ, OCR is below 0.9, and the template is above 0.85 or
      beats an OCR confidence below 0.7. When the letters agree, or OCR is at
      0.9 or more, the letter stays and the confidence becomes the larger of
      the two. A disagreement that does not override leaves the reading as
      it was. */
  lemma CrossCheckRule(ol: string, oc: real, tl: string, tc: real)
    ensures var (l, c) := CrossCheck((ol, oc), (ol, oc), (tl, tc));
      && (l != ol <==> Overrides(ol, oc, tl, tc))
      && (Overrides(ol, oc, tl, tc) ==> (l, c) == (tl, tc))
      && (tl != ol && oc < 0.9 && !Overrides(ol, oc, tl, tc) ==> (l, c) == (ol, oc))
      && (tl == ol || oc >= 0.9 ==> l == ol && c >= oc && c >= tc && (c == oc || c == tc))
  {
  }

  /** Pass 3 applies the cross-check rule to exactly the OCR cells, and only
      when templates were loaded; every other cell passes through. */
  lemma CrossCheckCells(job: Job, i: nat)
    requires Valid(job) && i < |job.cells|
    ensures |job.loaded| == 0 || Coord(job, i) !in Detections(job) ==>
      AfterCrossCheck(job, i) == AfterTemplates(job, i)
    ensures |job.loaded| > 0 && Coord(job, i) in Detections(job) ==>
      var ocr := Detections(job)[Coord(job, i)];
      AfterCrossCheck(job, i) == CrossCheck(ocr, ocr, TemplateAt(job, i))
  {
    TemplatePassFillsUnknown(job, i);
  }

  /** Pass 4: every cell that reads R or P after pass 3 takes the structural
      verdict, with its confidence unchanged; so every R or P in the result
      is the verdict for that cell. */
  lemma RpVerdictFinal(job: Job, i: nat)
    requires Valid(job) && i < |job.cells|
    ensures var a := AfterCrossCheck(job, i);
      a.0 == "R" || a.0 == "P" ==>
        Final(job, i) == (RpCheck.Disambiguate(job.cells[i].img, job.cells[i].w), a.1)
    ensures Final(job, i).0 == "R" || Final(job, i).0 == "P" ==>
      Final(job, i).0 == RpCheck.Disambiguate(job.cells[i].img, job.cells[i].w)
  {
  }

  /** Passes 3 to 5 on readings that are template names. */
  lemma LaterPassesKeepNames(a: (string, real), ocr: (string, real), tpl: (string, real), verdict: string)
    requires TemplateName(a.0) && TemplateName(tpl.0) && (verdict == "R" || verdict == "P")
    ensures TemplateName(CrossCheck(a, ocr, tpl).0)
    ensures TemplateName(QuFix(RpFix(a, verdict)).0) && QuFix(RpFix(a, verdict)).0 != "Q"
  {
    var r := QuFix(RpFix(a, verdict));
    if RpFix(a, verdict).0 == "Q" {
      assert r.0 == "QU";
    }
  }

  /** Every letter of the result is a non-empty run of capitals, never "?"
      and never a bare "Q": a board the solver can take as it is. */
  lemma FinalLetters(job: Job, i: nat)
    requires Valid(job) && i < |job.cells|
    ensures TemplateName(Final(job, i).0)
    ensures Final(job, i).0 != "?" && Final(job, i).0 != "Q"
  {
    var rc := Coord(job, i);
    var a := AfterTemplates(job, i);
    var t := TemplateAt(job, i);
    assert TemplateName(t.0) by { TemplateLetter(job, i); }
    assert TemplateName(a.0) by {
      TemplatePassFillsUnknown(job, i);
      if rc in Detections(job) {
        OcrLetter(job, rc);
      }
    }
    var b := AfterCrossCheck(job, i);
    assert TemplateName(b.0) by {
      if |job.loaded| > 0 && rc in Detections(job) {
        LaterPassesKeepNames(a, Detections(job)[rc], t, "R");
      }
    }
    var c := job.cells[i];
    var verdict := RpCheck.Disambiguate(c.img, c.w);
    assert Final(job, i) == QuFix(RpFix(b, verdict));
    LaterPassesKeepNames(b, ("?", 0.0), t, verdict);
  }
}

=== FILE: rp_check.dfy ===
/**
 The structural R/P test (`_disambiguate_rp`): R has a diagonal leg reaching
 into the lower-right quadrant of the cell, P does not. A cell is a grey-level
 image, a sequence of rows of equal width; a pixel is dark below 128.
 */
module RpCheck {

  /** A grey image of the given width: every row has that many pixels. */
  predicate Rect(img: seq<seq<int>>, w: nat) {
    forall r :: 0 <= r < |img| ==> |img[r]| == w
  }

  /** Dark pixels of `row` at column `c0` or to its right. */
  function DarkIn(row: seq<int>, c0: nat): nat {
    if |row| <= c0 then 0
    else DarkIn(row[..|row| - 1], c0) + (if row[|row| - 1] < 128 then 1 else 0)
  }

  /** Dark pixels of all rows at column `c0` or to its right. */
  function DarkRows(img: seq<seq<int>>, c0: nat): nat {
    if |img| == 0 then 0 else DarkRows(img[..|img| - 1], c0) + DarkIn(img[|img| - 1], c0)
  }

  /** `np.sum(cell < 128)` and `np.sum(cell[h // 2:, w // 2:] < 128)`. */
  function TotalDark(img: seq<seq<int>>): nat {
    DarkRows(img, 0)
  }

  function LowerRightDark(img: seq<seq<int>>, w: nat): nat {
    DarkRows(img[|img| / 2..], w / 2)
  }

  function Max1(k: nat): (m: nat)
    ensures m >= 1 && m >= k && (m == k || m == 1)
  {
    if k > 1 then k else 1
  }

  /** `_disambiguate_rp`: "R" when the lower-right quadrant holds more than 8%
      of the dark pixels (the total counted as at least 1), otherwise "P". */
  function Disambiguate(img: seq<seq<int>>, w: nat): (verdict: string)
    requires Rect(img, w)
    ensures verdict == "R" || verdict == "P"
  {
    var total := Max1(TotalDark(img));
    var lr := LowerRightDark(img, w);
    if (lr as real) / (total as real) > 0.08 then "R" else "P"
  }

  /* ---------------------------------------------------------------------- */

  lemma {:induction false} DarkInShrinks(row: seq<int>, c0: nat)
    ensures DarkIn(row, c0) <= DarkIn(row, 0)
    decreases |row|
  {
    if |row| > c0 {
      DarkInShrinks(row[..|row| - 1], c0);
    }
  }

  lemma {:induction false} DarkRowsShrinks(img: seq<seq<int>>, c0: nat)
    ensures DarkRows(img, c0) <= DarkRows(img, 0)
    decreases |img|
  {
    if |img| > 0 {
      DarkRowsShrinks(img[..|img| - 1], c0);
      DarkInShrinks(img[|img| - 1], c0);
    }
  }

  lemma {:induction false} DarkRowsAppend(a: seq<seq<int>>, b: seq<seq<int>>, c0: nat)
    ensures DarkRows(a + b, c0) == DarkRows(a, c0) + DarkRows(b, c0)
    decreases |b|
  {
    if |b| == 0 {
      assert a + b == a;
    } else {
      assert (a + b)[..|a + b| - 1] == a + b[..|b| - 1];
      DarkRowsAppend(a, b[..|b| - 1], c0);
    }
  }

  /** The quadrant's dark pixels are some of the cell's dark pixels. */
  lemma LowerRightWithinTotal(img: seq<seq<int>>, w: nat)
    ensures LowerRightDark(img, w) <= TotalDark(img)
  {
    var h := |img|;
    assert img == img[..h / 2] + img[h / 2..];
    DarkRowsAppend(img[..h / 2], img[h / 2..], 0);
    DarkRowsShrinks(img[h / 2..], w / 2);
  }

  /** A ratio above 8% is a cross-multiplied comparison. */
  lemma RatioAbove(lr: real, total: real)
    requires total > 0.0
    ensures lr / total > 0.08 <==> 25.0 * lr > 2.0 * total
  {
    var q := lr / total;
    assert q * total == lr;
    assert (q - 0.08) * total == lr - 0.08 * total;
    if q > 0.08 {
      assert (q - 0.08) * total > 0.0;
    } else {
      assert (0.08 - q) * total >= 0.0;
    }
  }

  /** The ratio test in integers: more than 8% means 25 lr > 2 total. */
  lemma VerdictInIntegers(img: seq<seq<int>>, w: nat)
    requires Rect(img, w)
    ensures Disambiguate(img, w) == "R" <==> 25 * LowerRightDark(img, w) > 2 * Max1(TotalDark(img))
  {
    var total := Max1(TotalDark(img));
    var lr := LowerRightDark(img, w);
    RatioAbove(lr as real, total as real);
    assert (25 * lr) as real == 25.0 * (lr as real);
    assert (2 * total) as real == 2.0 * (total as real);
  }

  /** A cell with no dark pixel reads as P. */
  lemma AllLightIsP(img: seq<seq<int>>, w: nat)
    requires Rect(img, w)
    requires forall r, c :: 0 <= r < |img| && 0 <= c < |img[r]| ==> img[r][c] >= 128
    ensures Disambiguate(img, w) == "P"
  {
    NoDarkRows(img, 0);
    LowerRightWithinTotal(img, w);
    VerdictInIntegers(img, w);
  }

  lemma {:induction false} NoDarkIn(row: seq<int>, c0: nat)
    requires forall c :: 0 <= c < |row| ==> row[c] >= 128
    ensures DarkIn(row, c0) == 0
    decreases |row|
  {
    if |row| > c0 {
      NoDarkIn(row[..|row| - 1], c0);
    }
  }

  lemma {:induction false} NoDarkRows(img: seq<seq<int>>, c0: nat)
    requires forall r, c :: 0 <= r < |img| && 0 <= c < |img[r]| ==> img[r][c] >= 128
    ensures DarkRows(img, c0) == 0
    decreases |img|
  {
    if |img| > 0 {
      NoDarkRows(img[..|img| - 1], c0);
      NoDarkIn(img[|img| - 1], c0);
    }
  }

  /* ---------------------------------------------------------------------- */
  /* Darkening one pixel                                                    */
  /* ---------------------------------------------------------------------- */

  lemma {:induction false} DarkInUpdate(row: seq<int>, c: nat, v: int, c0: nat)
    requires c < |row| && row[c] >= 128 && v < 128
    ensures DarkIn(row[c := v], c0) == DarkIn(row, c0) + (if c >= c0 then 1 else 0)
    decreases |row|
  {
    var row' := row[c := v];
    if |row| > c0 {
      if c == |row| - 1 {
        assert row'[..|row'| - 1] == row[..|row| - 1];
      } else {
        assert row'[..|row'| - 1] == row[..|row| - 1][c := v];
        DarkInUpdate(row[..|row| - 1], c, v, c0);
      }
    } else {
      assert |row'| <= c0;
    }
  }

  lemma {:induction false} DarkRowsUpdate(img: seq<seq<int>>, r: nat, row: seq<int>, c0: nat)
    requires r < |img|
    ensures DarkRows(img[r := row], c0) + DarkIn(img[r], c0) == DarkRows(img, c0) + DarkIn(row, c0)
    decreases |img|
  {
    var img' := img[r := row];
    if r == |img| - 1 {
      assert img'[..|img'| - 1] == img[..|img| - 1];
    } else {
      assert img'[..|img'| - 1] == img[..|img| - 1][r := row];
      DarkRowsUpdate(img[..|img| - 1], r, row, c0);
    }
  }

  /** Darkening a light pixel of the lower-right quadrant adds one dark pixel
      to the quadrant and one to the whole cell. */
  lemma DarkenCounts(img: seq<seq<int>>, w: nat, r: nat, c: nat, v: int)
    requires Rect(img, w) && |img| / 2 <= r < |img| && w / 2 <= c < w
    requires img[r][c] >= 128 && v < 128
    ensures Rect(img[r := img[r][c := v]], w)
    ensures TotalDark(img[r := img[r][c := v]]) == TotalDark(img) + 1
    ensures LowerRightDark(img[r := img[r][c := v]], w) == LowerRightDark(img, w) + 1
  {
    var h := |img|;
    var row := img[r][c := v];
    var img' := img[r := row];
    DarkInUpdate(img[r], c, v, 0);
    DarkInUpdate(img[r], c, v, w / 2);
    DarkRowsUpdate(img, r, row, 0);
    assert img'[h / 2..] == img[h / 2..][r - h / 2 := row];
    DarkRowsUpdate(img[h / 2..], r - h / 2, row, w / 2);
  }

  /** More ink in the leg never turns an R into a P. */
  lemma DarkeningLegKeepsR(img: seq<seq<int>>, w: nat, r: nat, c: nat, v: int)
    requires Rect(img, w) && |img| / 2 <= r < |img| && w / 2 <= c < w
    requires img[r][c] >= 128 && v < 128
    requires Disambiguate(img, w) == "R"
    ensures Rect(img[r := img[r][c := v]], w)
    ensures Disambiguate(img[r := img[r][c := v]], w) == "R"
  {
    var img' := img[r := img[r][c := v]];
    DarkenCounts(img, w, r, c, v);
    VerdictInIntegers(img, w);
    VerdictInIntegers(img', w);
    LowerRightWithinTotal(img, w);
  }
}

=== FILE: search.dfy ===
/**
 The word search of `solve`: a depth-first search over the 8-neighbour grid
 graph, pruned by the dictionary trie, with a visited set per path, atomic
 multi-character cells ("QU"), skipped "?" cells, a canonical start cell per
 word, and the sorted, optionally truncated word list.
 */
module Search {
  import opened Wrappers
  import opened Trie
  import Ascii
  import WordOrder
  import opened GridIndex

  /* ---------------------------------------------------------------------- */
  /* Grid geometry                                                          */
  /* ---------------------------------------------------------------------- */

  /** Every `board[r][c]` with `r, c < n` exists, as `solve` reads them. */
  predicate WellFormed(board: seq<seq<string>>, n: nat) {
    |board| >= n && forall r :: 0 <= r < n ==> |board[r]| >= n
  }

  /** Cells `i` and `j` are distinct and touch horizontally, vertically or
      diagonally. */
  predicate Adjacent(n: nat, i: nat, j: nat) {
    n > 0 && i != j && -1 <= i / n - j / n <= 1 && -1 <= i % n - j % n <= 1
  }

  /** One candidate of `solve`'s `(dr, dc)` double loop, kept when it stays
      on the grid. */
  function Offset(n: nat, r: int, c: int, dr: int, dc: int): (nb: seq<nat>)
    ensures |nb| <= 1 && forall k :: 0 <= k < |nb| ==> nb[k] < n * n
  {
    var nr := r + dr;
    var nc := c + dc;
    if 0 <= nr < n && 0 <= nc < n then
      IndexOf(nr, nc, n);
      [nr * n + nc]
    else []
  }

  /** The candidate is the cell at row `r + dr`, column `c + dc`, if any. */
  lemma OffsetMember(n: nat, r: int, c: int, dr: int, dc: int, j: nat)
    requires n > 0
    ensures j in Offset(n, r, c, dr, dc) <==>
      0 <= r + dr < n && 0 <= c + dc < n && j < n * n && j / n == r + dr && j % n == c + dc
  {
    if 0 <= r + dr < n && 0 <= c + dc < n {
      IndexOf(r + dr, c + dc, n);
      if j < n * n && j / n == r + dr && j % n == c + dc {
        RowInGrid(j, n);
      }
    }
  }

  /** The precomputed `neighbors[idx]`: the in-grid cells around `idx`, in the
      order of `solve`'s loop (`dr` then `dc` from -1 to 1, skipping the cell itself). */
  function NeighborsOf(idx: nat, n: nat): (nb: seq<nat>)
    requires idx < n * n
    ensures forall k :: 0 <= k < |nb| ==> nb[k] < n * n
  {
    RowInGrid(idx, n);
    var r := idx / n;
    var c := idx % n;
    Offset(n, r, c, -1, -1) + Offset(n, r, c, -1, 0) + Offset(n, r, c, -1, 1)
      + Offset(n, r, c, 0, -1) + Offset(n, r, c, 0, 1)
      + Offset(n, r, c, 1, -1) + Offset(n, r, c, 1, 0) + Offset(n, r, c, 1, 1)
  }

  /** The neighbour list holds exactly the cells adjacent to `idx`. */
  lemma NeighborsAdjacent(idx: nat, n: nat, j: nat)
    requires idx < n * n
    ensures j in NeighborsOf(idx, n) <==> j < n * n && Adjacent(n, idx, j)
  {
    RowInGrid(idx, n);
    var r := idx / n;
    var c := idx % n;
    OffsetMember(n, r, c, -1, -1, j);
    OffsetMember(n, r, c, -1, 0, j);
    OffsetMember(n, r, c, -1, 1, j);
    OffsetMember(n, r, c, 0, -1, j);
    OffsetMember(n, r, c, 0, 1, j);
    OffsetMember(n, r, c, 1, -1, j);
    OffsetMember(n, r, c, 1, 0, j);
    OffsetMember(n, r, c, 1, 1, j);
    if j < n * n {
      RowInGrid(j, n);
      assert j / n == r && j % n == c ==> j == idx;
    }
  }

  /** The indices below `m`: the cells of a grid with `m` cells. */
  function Below(m: nat): (s: set<nat>)
    ensures forall k: nat :: k in s <==> k < m
  {
    if m == 0 then {} else Below(m - 1) + {m - 1}
  }

  /* ---------------------------------------------------------------------- */
  /* Cell strings, spelling                                                 */
  /* ---------------------------------------------------------------------- */

  /** The pre-expanded `cell_chars`: row-major, each cell upper-cased. */
  function CellChars(board: seq<seq<string>>, n: nat): (cc: seq<string>)
    requires WellFormed(board, n)
    ensures |cc| == n * n
  {
    seq(n * n, (i: int) requires 0 <= i < n * n =>
      RowInGrid(i, n); Ascii.UpperStr(board[i / n][i % n]))
  }

  /** Cell `(r, c)` of the board sits at index `r * n + c`, upper-cased. */
  lemma CellCharsAt(board: seq<seq<string>>, n: nat, r: nat, c: nat)
    requires WellFormed(board, n) && r < n && c < n
    ensures r * n + c < n * n
    ensures CellChars(board, n)[r * n + c] == Ascii.UpperStr(board[r][c])
  {
    IndexOf(r, c, n);
  }

  /** `"".join(path)`. */
  function Concat(ss: seq<string>): string {
    if |ss| == 0 then "" else Concat(ss[..|ss| - 1]) + ss[|ss| - 1]
  }

  lemma {:induction false} ConcatAppend(a: seq<string>, b: seq<string>)
    ensures Concat(a + b) == Concat(a) + Concat(b)
    decreases |b|
  {
    if |b| == 0 {
      assert a + b == a;
    } else {
      var init := b[..|b| - 1];
      assert (a + b)[..|a + b| - 1] == a + init;
      assert (a + b)[|a + b| - 1] == b[|b| - 1];
      ConcatAppend(a, init);
      assert Concat(b) == Concat(init) + b[|b| - 1];
      assert Concat(a + b) == (Concat(a) + Concat(init)) + b[|b| - 1];
    }
  }

  /** The strings of the cells along `q`. */
  function CellStrings(cc: seq<string>, q: seq<nat>): (ss: seq<string>)
    requires forall k :: 0 <= k < |q| ==> q[k] < |cc|
    ensures |ss| == |q| && forall k :: 0 <= k < |q| ==> ss[k] == cc[q[k]]
  {
    seq(|q|, (k: int) requires 0 <= k < |q| => cc[q[k]])
  }

  /** The word a path spells: its cells' strings, joined. */
  function Spell(cc: seq<string>, q: seq<nat>): string
    requires forall k :: 0 <= k < |q| ==> q[k] < |cc|
  {
    Concat(CellStrings(cc, q))
  }

  lemma SpellAppend(cc: seq<string>, q: seq<nat>, r: seq<nat>)
    requires forall k :: 0 <= k < |q| ==> q[k] < |cc|
    requires forall k :: 0 <= k < |r| ==> r[k] < |cc|
    ensures forall k :: 0 <= k < |q + r| ==> (q + r)[k] < |cc|
    ensures Spell(cc, q + r) == Spell(cc, q) + Spell(cc, r)
  {
    assert CellStrings(cc, q + r) == CellStrings(cc, q) + CellStrings(cc, r);
    ConcatAppend(CellStrings(cc, q), CellStrings(cc, r));
  }

  /** A path spells its first cell's string followed by the rest. */
  lemma SpellFirst(cc: seq<string>, q: seq<nat>)
    requires |q| > 0 && forall k :: 0 <= k < |q| ==> q[k] < |cc|
    ensures Spell(cc, q) == cc[q[0]] + Spell(cc, q[1..])
  {
    assert q == [q[0]] + q[1..];
    SpellAppend(cc, [q[0]], q[1..]);
    var one := CellStrings(cc, [q[0]]);
    assert one == [] + [cc[q[0]]];
    assert one[..0] == [];
    assert Concat(one) == Concat([]) + cc[q[0]];
  }

  /* ---------------------------------------------------------------------- */
  /* Paths                                                                  */
  /* ---------------------------------------------------------------------- */

  ghost predicate InGrid(cc: seq<string>, q: seq<nat>) {
    forall k :: 0 <= k < |q| ==> q[k] < |cc|
  }

  ghost predicate Distinct(q: seq<nat>) {
    forall i, j :: 0 <= i < j < |q| ==> q[i] != q[j]
  }

  ghost predicate Linked(n: nat, q: seq<nat>) {
    forall k :: 0 <= k < |q| - 1 ==> Adjacent(n, q[k], q[k + 1])
  }

  ghost predicate NoUnknown(cc: seq<string>, q: seq<nat>)
    requires InGrid(cc, q)
  {
    forall k :: 0 <= k < |q| ==> cc[q[k]] != "?"
  }

  /** A legal path: a non-empty sequence of pairwise distinct, 8-adjacent,
      in-grid cells, none of them "?". */
  ghost predicate IsPath(cc: seq<string>, n: nat, q: seq<nat>) {
    |cc| == n * n && |q| > 0 && InGrid(cc, q) && Distinct(q) && Linked(n, q) && NoUnknown(cc, q)
  }

  /** `w` is a dictionary word spelled by a legal path that starts at `s`. */
  ghost predicate Findable(cc: seq<string>, n: nat, root: Node, w: string, s: nat) {
    Contains(root, w) && exists p :: IsPath(cc, n, p) && p[0] == s && Spell(cc, p) == w
  }

  /** `w` is a dictionary word spelled by some legal path. */
  ghost predicate Playable(cc: seq<string>, n: nat, root: Node, w: string) {
    Contains(root, w) && exists p :: IsPath(cc, n, p) && Spell(cc, p) == w
  }

  /* ---------------------------------------------------------------------- */
  /* The depth-first search                                                 */
  /* ---------------------------------------------------------------------- */

  /** One recording of a word by `dfs`: the word and the start index of the
      path that produced it. */
  datatype Event = Event(word: string, start: nat)

  ghost predicate DfsPre(cc: seq<string>, n: nat, idx: nat, visited: set<nat>) {
    |cc| == n * n && idx < |cc| && idx in visited && visited <= Below(|cc|)
  }

  /** `dfs(idx, node, path, visited, start_idx)`: the words it records, in
      order. `visited` is the bitmask, as the set of cells it has bits for. */
  function Dfs(cc: seq<string>, n: nat, idx: nat, node: Node, path: seq<string>, visited: set<nat>, start: nat): seq<Event>
    requires DfsPre(cc, n, idx, visited)
    decreases Below(|cc|) - visited, 1
  {
    var chars := cc[idx];
    if chars == "?" then []
    else match Walk(node, chars)
      case None => []
      case Some(current) =>
        var path' := path + [chars];
        var here := if current.isWord then [Event(Concat(path'), start)] else [];
        here + (if current.children != map[] then DfsNeighbors(cc, n, NeighborsOf(idx, n), 0, current, path', visited, start) else [])
  }

  /** The loop `for nidx in neighbors[idx]` of `dfs`, from position `i` on. */
  function DfsNeighbors(cc: seq<string>, n: nat, nbrs: seq<nat>, i: nat, node: Node, path: seq<string>, visited: set<nat>, start: nat): seq<Event>
    requires |cc| == n * n && visited <= Below(|cc|) && i <= |nbrs|
    requires forall k :: 0 <= k < |nbrs| ==> nbrs[k] < |cc|
    decreases Below(|cc|) - visited, 0, |nbrs| - i
  {
    if i == |nbrs| then []
    else
      var x := nbrs[i];
      (if x !in visited then Dfs(cc, n, x, node, path, visited + {x}, start) else [])
      + DfsNeighbors(cc, n, nbrs, i + 1, node, path, visited, start)
  }

  /** What the neighbour loop records: exactly the recordings of the calls on
      unvisited neighbours. */
  lemma {:induction false} NeighborsEvents(cc: seq<string>, n: nat, nbrs: seq<nat>, i: nat, node: Node, path: seq<string>, visited: set<nat>, start: nat, e: Event)
    requires |cc| == n * n && visited <= Below(|cc|) && i <= |nbrs|
    requires forall k :: 0 <= k < |nbrs| ==> nbrs[k] < |cc|
    ensures e in DfsNeighbors(cc, n, nbrs, i, node, path, visited, start) <==>
      exists j :: i <= j < |nbrs| && nbrs[j] !in visited && e in Dfs(cc, n, nbrs[j], node, path, visited + {nbrs[j]}, start)
    decreases |nbrs| - i
  {
    if i < |nbrs| {
      NeighborsEvents(cc, n, nbrs, i + 1, node, path, visited, start, e);
      var x := nbrs[i];
      var here := if x !in visited then Dfs(cc, n, x, node, path, visited + {x}, start) else [];
      var rest := DfsNeighbors(cc, n, nbrs, i + 1, node, path, visited, start);
      assert DfsNeighbors(cc, n, nbrs, i, node, path, visited, start) == here + rest;
      assert e in here + rest <==> e in here || e in rest;
      if e in here {
        assert x !in visited && e in Dfs(cc, n, nbrs[i], node, path, visited + {nbrs[i]}, start);
      }
      if exists j :: i <= j < |nbrs| && nbrs[j] !in visited && e in Dfs(cc, n, nbrs[j], node, path, visited + {nbrs[j]}, start) {
        var j :| i <= j < |nbrs| && nbrs[j] !in visited && e in Dfs(cc, n, nbrs[j], node, path, visited + {nbrs[j]}, start);
        if j > i {
          assert e in rest;
        } else {
          assert e in here;
        }
      }
    }
  }

  /** The state `dfs` is called in, described by the cell path `q` that led
      there: `q` ends at `idx`, starts at `start`, is distinct and linked,
      `visited` holds its cells, `path` the strings of all but its last cell,
      and `node` is where those strings lead in the trie. */
  ghost predicate Inv(cc: seq<string>, n: nat, root: Node, idx: nat, node: Node, path: seq<string>, visited: set<nat>, start: nat, q: seq<nat>) {
    && |cc| == n * n
    && |q| > 0 && q[0] == start && q[|q| - 1] == idx
    && InGrid(cc, q) && Distinct(q) && Linked(n, q)
    && NoUnknown(cc, q[..|q| - 1])
    && (forall x :: x in visited <==> x in q)
    && path == CellStrings(cc, q[..|q| - 1])
    && Walk(root, Concat(path)) == Some(node)
  }

  /** The invariant holds for the first call of each start cell. */
  lemma InvStart(cc: seq<string>, n: nat, root: Node, s: nat)
    requires |cc| == n * n && s < n * n
    ensures Inv(cc, n, root, s, root, [], {s}, s, [s])
  {
    assert CellStrings(cc, []) == [];
  }

  /** Once the cell at `idx` is walked, the whole of `q` is a legal path,
      `path + [cc[idx]]` holds its strings, and they lead to `current`. */
  lemma InvHere(cc: seq<string>, n: nat, root: Node, idx: nat, node: Node, path: seq<string>, visited: set<nat>, start: nat, q: seq<nat>,
                current: Node)
    requires Inv(cc, n, root, idx, node, path, visited, start, q)
    requires cc[idx] != "?" && Walk(node, cc[idx]) == Some(current)
    ensures IsPath(cc, n, q)
    ensures path + [cc[idx]] == CellStrings(cc, q)
    ensures Walk(root, Spell(cc, q)) == Some(current)
    ensures Concat(path + [cc[idx]]) == Spell(cc, q)
  {
    assert q == q[..|q| - 1] + [idx];
    assert path + [cc[idx]] == CellStrings(cc, q);
    assert Concat(path + [cc[idx]]) == Concat(path) + cc[idx] by {
      assert (path + [cc[idx]])[..|path|] == path;
    }
    WalkAppend(root, Concat(path), cc[idx]);
  }

  /** The invariant carries over to the recursive call on a neighbour. */
  lemma InvStep(cc: seq<string>, n: nat, root: Node, idx: nat, node: Node, path: seq<string>, visited: set<nat>, start: nat, q: seq<nat>,
                current: Node, x: nat)
    requires Inv(cc, n, root, idx, node, path, visited, start, q)
    requires cc[idx] != "?" && Walk(node, cc[idx]) == Some(current)
    requires x < n * n && Adjacent(n, idx, x) && x !in visited
    ensures Inv(cc, n, root, x, current, path + [cc[idx]], visited + {x}, start, q + [x])
  {
    InvHere(cc, n, root, idx, node, path, visited, start, q, current);
    var q' := q + [x];
    assert q'[..|q'| - 1] == q;
    ExtendPath(cc, n, q, x);
    assert q'[0] == start && q'[|q'| - 1] == x;
    assert forall y :: y in visited + {x} <==> y in q';
  }

  /** A legal path extended by an unvisited neighbour of its last cell stays
      in the grid, distinct and linked. */
  lemma ExtendPath(cc: seq<string>, n: nat, q: seq<nat>, x: nat)
    requires IsPath(cc, n, q)
    requires x < |cc| && Adjacent(n, q[|q| - 1], x) && x !in q
    ensures InGrid(cc, q + [x]) && Distinct(q + [x]) && Linked(n, q + [x])
  {
    var q' := q + [x];
    assert forall k :: 0 <= k < |q| ==> q'[k] == q[k];
    assert forall i, j :: 0 <= i < j < |q| ==> q'[i] != q'[j];
    assert forall i :: 0 <= i < |q| ==> q'[i] != x;
  }

  /** Soundness of `dfs`: every recorded word is a dictionary word spelled
      by a legal path from the call's start cell. */
  lemma {:induction false} DfsSound(cc: seq<string>, n: nat, root: Node, idx: nat, node: Node, path: seq<string>, visited: set<nat>, start: nat, q: seq<nat>)
    requires DfsPre(cc, n, idx, visited)
    requires Inv(cc, n, root, idx, node, path, visited, start, q)
    ensures forall e :: e in Dfs(cc, n, idx, node, path, visited, start) ==> e.start == start && Findable(cc, n, root, e.word, start)
    decreases Below(|cc|) - visited, 1
  {
    var chars := cc[idx];
    if chars != "?" && Walk(node, chars).Some? {
      var current := Walk(node, chars).value;
      var path' := path + [chars];
      InvHere(cc, n, root, idx, node, path, visited, start, q, current);
      DfsShape(cc, n, idx, node, path, visited, start, current);
      forall e | e in Dfs(cc, n, idx, node, path, visited, start)
        ensures e.start == start && Findable(cc, n, root, e.word, start)
      {
        if current.isWord && e == Event(Concat(path'), start) {
          assert IsPath(cc, n, q) && q[0] == start && Spell(cc, q) == e.word;
        } else {
          DfsSoundNeighbors(cc, n, root, idx, node, path, visited, start, q, current, e);
        }
      }
    }
  }

  /** The recordings made below the neighbours of the call's cell are sound. */
  lemma {:induction false} DfsSoundNeighbors(cc: seq<string>, n: nat, root: Node, idx: nat, node: Node, path: seq<string>, visited: set<nat>, start: nat, q: seq<nat>,
                                             current: Node, e: Event)
    requires DfsPre(cc, n, idx, visited)
    requires Inv(cc, n, root, idx, node, path, visited, start, q)
    requires cc[idx] != "?" && Walk(node, cc[idx]) == Some(current)
    requires e in DfsNeighbors(cc, n, NeighborsOf(idx, n), 0, current, path + [cc[idx]], visited, start)
    ensures e.start == start && Findable(cc, n, root, e.word, start)
    decreases Below(|cc|) - visited, 0
  {
    var nbrs := NeighborsOf(idx, n);
    var path' := path + [cc[idx]];
    NeighborsEvents(cc, n, nbrs, 0, current, path', visited, start, e);
    var j :| 0 <= j < |nbrs| && nbrs[j] !in visited && e in Dfs(cc, n, nbrs[j], current, path', visited + {nbrs[j]}, start);
    NeighborsAdjacent(idx, n, nbrs[j]);
    InvStep(cc, n, root, idx, node, path, visited, start, q, current, nbrs[j]);
    DfsSound(cc, n, root, nbrs[j], current, path', visited + {nbrs[j]}, start, q + [nbrs[j]]);
  }

  /** Completeness of `dfs`: every dictionary word spelled by a legal path
      that extends the call's path is recorded with the call's start. The
      prune on an empty `children` map loses nothing, since a word through a
      childless node ends there. */
  lemma {:induction false} DfsComplete(cc: seq<string>, n: nat, root: Node, idx: nat, node: Node, path: seq<string>, visited: set<nat>, start: nat, q: seq<nat>, r: seq<nat>)
    requires DfsPre(cc, n, idx, visited)
    requires Inv(cc, n, root, idx, node, path, visited, start, q)
    requires IsPath(cc, n, q + r)
    requires Contains(root, Spell(cc, q + r))
    ensures Event(Spell(cc, q + r), start) in Dfs(cc, n, idx, node, path, visited, start)
    decreases |r|
  {
    var chars := cc[idx];
    CompleteWalk(cc, n, root, idx, node, path, visited, start, q, r);
    var current := Walk(node, chars).value;
    InvHere(cc, n, root, idx, node, path, visited, start, q, current);
    var path' := path + [chars];
    DfsShape(cc, n, idx, node, path, visited, start, current);
    if |r| == 0 {
      assert q + r == q;
    } else if current.children == map[] {
      LeafEndsWords(root, Spell(cc, q), Spell(cc, r));
      assert Spell(cc, q + r) == Spell(cc, q);
      assert current.isWord;
    } else {
      var x := r[0];
      CompleteNext(cc, n, root, idx, node, path, visited, start, q, r);
      var nbrs := NeighborsOf(idx, n);
      NeighborsAdjacent(idx, n, x);
      var j :| 0 <= j < |nbrs| && nbrs[j] == x;
      InvStep(cc, n, root, idx, node, path, visited, start, q, current, x);
      DfsComplete(cc, n, root, x, current, path', visited + {x}, start, q + [x], r[1..]);
      NeighborsEvents(cc, n, nbrs, 0, current, path', visited, start, Event(Spell(cc, q + r), start));
    }
  }

  /** `dfs` on a walkable cell: the word here, if any, then the neighbour loop
      unless the node is a leaf. */
  lemma DfsShape(cc: seq<string>, n: nat, idx: nat, node: Node, path: seq<string>, visited: set<nat>, start: nat, current: Node)
    requires DfsPre(cc, n, idx, visited)
    requires cc[idx] != "?" && Walk(node, cc[idx]) == Some(current)
    ensures Dfs(cc, n, idx, node, path, visited, start) ==
      (if current.isWord then [Event(Concat(path + [cc[idx]]), start)] else [])
      + (if current.children != map[] then DfsNeighbors(cc, n, NeighborsOf(idx, n), 0, current, path + [cc[idx]], visited, start) else [])
  {
  }

  /** The cell at `idx` is walkable on the way to a word spelled along `q + r`. */
  lemma CompleteWalk(cc: seq<string>, n: nat, root: Node, idx: nat, node: Node, path: seq<string>, visited: set<nat>, start: nat, q: seq<nat>, r: seq<nat>)
    requires Inv(cc, n, root, idx, node, path, visited, start, q)
    requires IsPath(cc, n, q + r)
    requires Contains(root, Spell(cc, q + r))
    ensures cc[idx] != "?" && Walk(node, cc[idx]).Some?
    ensures InGrid(cc, r) && Spell(cc, q + r) == Spell(cc, q) + Spell(cc, r)
  {
    PathSplit(cc, n, q, r);
    SpellAppend(cc, q, r);
    WalkPrefix(root, Spell(cc, q), Spell(cc, r));
    InvWalk(cc, n, root, idx, node, path, visited, start, q);
  }

  lemma PathSplit(cc: seq<string>, n: nat, q: seq<nat>, r: seq<nat>)
    requires IsPath(cc, n, q + r) && |q| > 0
    ensures InGrid(cc, q) && InGrid(cc, r) && cc[q[|q| - 1]] != "?"
  {
    assert (q + r)[|q| - 1] == q[|q| - 1];
    assert forall k :: 0 <= k < |r| ==> r[k] == (q + r)[|q| + k];
    assert forall k :: 0 <= k < |q| ==> q[k] == (q + r)[k];
  }

  /** Walking the cell at `idx` from `node` is walking the spelling of `q`
      from the root. */
  lemma InvWalk(cc: seq<string>, n: nat, root: Node, idx: nat, node: Node, path: seq<string>, visited: set<nat>, start: nat, q: seq<nat>)
    requires Inv(cc, n, root, idx, node, path, visited, start, q)
    ensures Walk(root, Spell(cc, q)) == Walk(node, cc[idx])
  {
    var chars := cc[idx];
    assert q == q[..|q| - 1] + [idx];
    var path' := path + [chars];
    assert path' == CellStrings(cc, q);
    assert Concat(path') == Concat(path) + chars by {
      assert path'[..|path|] == path;
    }
    WalkAppend(root, Concat(path), chars);
  }

  /** The next cell of `q + r` after `idx` is an unvisited neighbour, and the
      longer prefix still extends to the same legal path. */
  lemma CompleteNext(cc: seq<string>, n: nat, root: Node, idx: nat, node: Node, path: seq<string>, visited: set<nat>, start: nat, q: seq<nat>, r: seq<nat>)
    requires Inv(cc, n, root, idx, node, path, visited, start, q)
    requires IsPath(cc, n, q + r) && |r| > 0
    ensures r[0] < n * n && Adjacent(n, idx, r[0]) && r[0] !in visited
    ensures (q + [r[0]]) + r[1..] == q + r
  {
    var x := r[0];
    assert (q + r)[|q| - 1] == idx && (q + r)[|q|] == x;
    forall k | 0 <= k < |q| ensures q[k] != x {
      assert (q + r)[k] == q[k];
    }
    assert (q + [x]) + r[1..] == q + r;
  }

  /* ---------------------------------------------------------------------- */
  /* Driving the search from every start, and the result                   */
  /* ---------------------------------------------------------------------- */

  /** `for start in range(k): dfs(start, trie.root, [], 1 << start, start)`. */
  function EventsFrom(cc: seq<string>, n: nat, root: Node, k: nat): seq<Event>
    requires |cc| == n * n && k <= n * n
  {
    if k == 0 then []
    else EventsFrom(cc, n, root, k - 1) + Dfs(cc, n, k - 1, root, [], {k - 1}, k - 1)
  }

  /** The search from start cell `t` records exactly the dictionary words
      findable from `t`, each with start `t`. */
  lemma StartExact(cc: seq<string>, n: nat, root: Node, t: nat, w: string, s: nat)
    requires |cc| == n * n && t < n * n
    ensures Event(w, s) in Dfs(cc, n, t, root, [], {t}, t) <==> s == t && Findable(cc, n, root, w, s)
  {
    InvStart(cc, n, root, t);
    DfsSound(cc, n, root, t, root, [], {t}, t, [t]);
    if s == t && Findable(cc, n, root, w, s) {
      var p :| IsPath(cc, n, p) && p[0] == s && Spell(cc, p) == w;
      assert [t] + p[1..] == p;
      DfsComplete(cc, n, root, t, root, [], {t}, t, [t], p[1..]);
    }
  }

  /** The searches from the first `k` start cells record exactly the
      dictionary words findable from those cells. */
  lemma {:induction false} EventsFromExact(cc: seq<string>, n: nat, root: Node, k: nat, w: string, s: nat)
    requires |cc| == n * n && k <= n * n
    ensures Event(w, s) in EventsFrom(cc, n, root, k) <==> s < k && Findable(cc, n, root, w, s)
  {
    if k > 0 {
      var e := Event(w, s);
      var prev := EventsFrom(cc, n, root, k - 1);
      var here := Dfs(cc, n, k - 1, root, [], {k - 1}, k - 1);
      assert e in EventsFrom(cc, n, root, k) <==> e in prev || e in here by {
        assert EventsFrom(cc, n, root, k) == prev + here;
      }
      EventsFromExact(cc, n, root, k - 1, w, s);
      StartExact(cc, n, root, k - 1, w, s);
    }
  }

  /** `divmod(start_idx, grid_size)`. */
  function RowCol(s: nat, n: nat): (int, int)
    requires n > 0
  {
    (s / n, s % n)
  }

  /** Python's tuple `<` on `(row, col)`. */
  predicate TupleLess(a: (int, int), b: (int, int)) {
    a.0 < b.0 || (a.0 == b.0 && a.1 < b.1)
  }

  /** One update of `word_starts`: keep the smaller start. */
  function Record(m: map<string, (int, int)>, e: Event, n: nat): map<string, (int, int)>
    requires n > 0
  {
    var rc := RowCol(e.start, n);
    if e.word !in m || TupleLess(rc, m[e.word]) then m[e.word := rc] else m
  }

  /** `word_starts` after the recordings `events`, in order: its keys are the
      recorded words, and each value is the smallest `(row, col)` among that
      word's recordings. */
  function StartsFold(events: seq<Event>, n: nat): (m: map<string, (int, int)>)
    requires n > 0
    ensures StartsSpec(events, n, m)
  {
    if |events| == 0 then map[]
    else
      var m0 := StartsFold(events[..|events| - 1], n);
      StartsStep(events, n, m0);
      Record(m0, events[|events| - 1], n)
  }

  /** The keys are the recorded words; each value is the `(row, col)` of one
      of that word's recordings and no recording of it has a smaller one. */
  ghost predicate StartsSpec(events: seq<Event>, n: nat, m: map<string, (int, int)>)
    requires n > 0
  {
    && (forall w :: w in m <==> exists i :: 0 <= i < |events| && events[i].word == w)
    && (forall w :: w in m ==> exists i :: 0 <= i < |events| && events[i].word == w && m[w] == RowCol(events[i].start, n))
    && (forall i :: 0 <= i < |events| ==> !TupleLess(RowCol(events[i].start, n), m[events[i].word]))
  }

  lemma StartsStep(events: seq<Event>, n: nat, m0: map<string, (int, int)>)
    requires n > 0 && |events| > 0
    requires StartsSpec(events[..|events| - 1], n, m0)
    ensures StartsSpec(events, n, Record(m0, events[|events| - 1], n))
  {
    StartsKeys(events, n, m0);
    StartsWitness(events, n, m0);
    StartsLeast(events, n, m0);
  }

  lemma StartsKeys(events: seq<Event>, n: nat, m0: map<string, (int, int)>)
    requires n > 0 && |events| > 0
    requires StartsSpec(events[..|events| - 1], n, m0)
    ensures var m := Record(m0, events[|events| - 1], n);
      forall w :: w in m <==> exists i :: 0 <= i < |events| && events[i].word == w
  {
    var prefix := events[..|events| - 1];
    var e := events[|events| - 1];
    var m := Record(m0, e, n);
    assert forall w :: w in m <==> w in m0 || w == e.word;
    forall w ensures w in m <==> exists i :: 0 <= i < |events| && events[i].word == w {
      if w in m0 {
        var i :| 0 <= i < |prefix| && prefix[i].word == w;
        assert events[i].word == w;
      }
      if w == e.word {
        assert events[|events| - 1].word == w;
      }
      if exists i :: 0 <= i < |events| && events[i].word == w {
        var i :| 0 <= i < |events| && events[i].word == w;
        if i < |prefix| {
          assert prefix[i].word == w;
        }
      }
    }
  }

  lemma StartsWitness(events: seq<Event>, n: nat, m0: map<string, (int, int)>)
    requires n > 0 && |events| > 0
    requires StartsSpec(events[..|events| - 1], n, m0)
    ensures var m := Record(m0, events[|events| - 1], n);
      forall w :: w in m ==> exists i :: 0 <= i < |events| && events[i].word == w && m[w] == RowCol(events[i].start, n)
  {
    var prefix := events[..|events| - 1];
    var e := events[|events| - 1];
    var m := Record(m0, e, n);
    forall w | w in m
      ensures exists i :: 0 <= i < |events| && events[i].word == w && m[w] == RowCol(events[i].start, n)
    {
      if w == e.word && m[w] == RowCol(e.start, n) {
        assert events[|events| - 1].word == w;
      } else {
        assert w in m0 && m[w] == m0[w];
        var i :| 0 <= i < |prefix| && prefix[i].word == w && m0[w] == RowCol(prefix[i].start, n);
        assert events[i] == prefix[i];
      }
    }
  }

  lemma StartsLeast(events: seq<Event>, n: nat, m0: map<string, (int, int)>)
    requires n > 0 && |events| > 0
    requires StartsSpec(events[..|events| - 1], n, m0)
    ensures var m := Record(m0, events[|events| - 1], n);
      forall i :: 0 <= i < |events| ==> events[i].word in m && !TupleLess(RowCol(events[i].start, n), m[events[i].word])
  {
    var prefix := events[..|events| - 1];
    var e := events[|events| - 1];
    var m := Record(m0, e, n);
    forall i | 0 <= i < |events| ensures events[i].word in m && !TupleLess(RowCol(events[i].start, n), m[events[i].word]) {
      if i < |prefix| {
        assert events[i] == prefix[i];
        assert prefix[i].word in m0;
        assert !TupleLess(RowCol(prefix[i].start, n), m0[prefix[i].word]);
      }
    }
  }

  /** The words of the recordings, in order. */
  function Words(events: seq<Event>): (ws: seq<string>)
    ensures |ws| == |events| && forall i :: 0 <= i < |events| ==> ws[i] == events[i].word
  {
    seq(|events|, (i: int) requires 0 <= i < |events| => events[i].word)
  }

  /** What `solve` returns: the sorted, truncated word list and the map from
      every found word to its canonical start `(row, col)`. */
  datatype Solution = Solution(words: seq<string>, starts: map<string, (int, int)>)

  /** The default of `solve`'s `max_results`. */
  const DefaultMaxResults := 50

  /** `solve(board, grid_size, trie, max_results)`. */
  function Solve(board: seq<seq<string>>, n: nat, root: Node, maxResults: int): Solution
    requires WellFormed(board, n)
  {
    var cc := CellChars(board, n);
    var events := EventsFrom(cc, n, root, n * n);
    var sorted := WordOrder.SortDistinct(Words(events));
    Solution(WordOrder.Truncate(sorted, maxResults), if n == 0 then map[] else StartsFold(events, n))
  }

  /* ---------------------------------------------------------------------- */
  /* Properties of `solve`                                                  */
  /* ---------------------------------------------------------------------- */

  /** The recordings of the whole search are exactly the findable pairs of
      word and start cell. */
  lemma SearchExact(cc: seq<string>, n: nat, root: Node, w: string, s: nat)
    requires |cc| == n * n
    ensures Event(w, s) in EventsFrom(cc, n, root, n * n) <==> Findable(cc, n, root, w, s)
  {
    EventsFromExact(cc, n, root, n * n, w, s);
  }

  lemma EventIndex(events: seq<Event>, w: string, s: nat) returns (i: nat)
    requires Event(w, s) in events
    ensures i < |events| && events[i] == Event(w, s)
  {
    i :| 0 <= i < |events| && events[i] == Event(w, s);
  }

  /** Soundness and completeness: a word is in the starts map (and so can
      be in the list) exactly when it is a dictionary word spelled by a
      legal path, whatever `max_results` is. */
  lemma SolveFindsExactly(board: seq<seq<string>>, n: nat, root: Node, maxResults: int, w: string)
    requires WellFormed(board, n)
    ensures w in Solve(board, n, root, maxResults).starts <==> Playable(CellChars(board, n), n, root, w)
  {
    var cc := CellChars(board, n);
    var events := EventsFrom(cc, n, root, n * n);
    var m := Solve(board, n, root, maxResults).starts;
    if n > 0 {
      if w in m {
        var i :| 0 <= i < |events| && events[i].word == w;
        SearchExact(cc, n, root, w, events[i].start);
      }
      if Playable(cc, n, root, w) {
        var p :| IsPath(cc, n, p) && Spell(cc, p) == w;
        SearchExact(cc, n, root, w, p[0]);
        var i := EventIndex(events, w, p[0]);
      }
    }
  }

  /** Each found word maps to the `(row, col)` of the start of a legal path
      spelling it, and no legal path spelling it starts at a smaller
      `(row, col)`. */
  lemma SolveCanonicalStart(board: seq<seq<string>>, n: nat, root: Node, maxResults: int, w: string)
    requires WellFormed(board, n)
    requires w in Solve(board, n, root, maxResults).starts
    ensures n > 0
    ensures exists p :: (IsPath(CellChars(board, n), n, p) && Spell(CellChars(board, n), p) == w
      && Solve(board, n, root, maxResults).starts[w] == RowCol(p[0], n))
    ensures forall p :: IsPath(CellChars(board, n), n, p) && Spell(CellChars(board, n), p) == w ==>
      !TupleLess(RowCol(p[0], n), Solve(board, n, root, maxResults).starts[w])
  {
    var cc := CellChars(board, n);
    var events := EventsFrom(cc, n, root, n * n);
    var m := Solve(board, n, root, maxResults).starts;
    var i :| 0 <= i < |events| && events[i].word == w && m[w] == RowCol(events[i].start, n);
    SearchExact(cc, n, root, w, events[i].start);
    forall p | IsPath(cc, n, p) && Spell(cc, p) == w
      ensures !TupleLess(RowCol(p[0], n), m[w])
    {
      SearchExact(cc, n, root, w, p[0]);
      var j := EventIndex(events, w, p[0]);
    }
  }

  /** A strictly sorted list has as many words as distinct elements. */
  lemma {:induction false} SortedCard(s: seq<string>)
    requires WordOrder.StrictlySorted(s)
    ensures |set x | x in s| == |s|
  {
    if |s| > 0 {
      SortedCard(s[1..]);
      var rest := set x | x in s[1..];
      assert (set x | x in s) == {s[0]} + rest;
      forall x | x in s[1..] ensures x != s[0] {
        var k :| 0 <= k < |s[1..]| && s[1..][k] == x;
        assert WordOrder.Before(s[0], s[k + 1]);
        WordOrder.BeforeIrreflexive(x);
      }
    }
  }

  /** The word list is strictly sorted longest first, then alphabetically,
      holds only found words, is all of them when `max_results <= 0`, and
      otherwise the first `max_results` of them in that order. */
  lemma SolveWordList(board: seq<seq<string>>, n: nat, root: Node, maxResults: int)
    requires WellFormed(board, n)
    ensures var r := Solve(board, n, root, maxResults);
      && WordOrder.StrictlySorted(r.words)
      && (forall w :: w in r.words ==> w in r.starts)
      && (maxResults <= 0 ==> forall w :: w in r.starts ==> w in r.words)
      && (maxResults > 0 ==> |r.words| == if maxResults < |r.starts| then maxResults else |r.starts|)
      && (forall k, d :: k in r.words && d in r.starts && d !in r.words ==> WordOrder.Before(k, d))
  {
    var sorted := WordOrder.SortDistinct(Words(EventsFrom(CellChars(board, n), n, root, n * n)));
    var r := Solve(board, n, root, maxResults);
    assert r.words == WordOrder.Truncate(sorted, maxResults);
    assert r.starts.Keys == set x | x in sorted by { SolveKeys(board, n, root, maxResults); }
    assert |r.starts| == |sorted| by {
      SortedCard(sorted);
      assert |r.starts| == |r.starts.Keys|;
    }
    WordOrder.TruncateKeepsTop(sorted, maxResults);
  }

  /** The keys of the starts map are the words of the sorted list. */
  lemma SolveKeys(board: seq<seq<string>>, n: nat, root: Node, maxResults: int)
    requires WellFormed(board, n)
    ensures var sorted := WordOrder.SortDistinct(Words(EventsFrom(CellChars(board, n), n, root, n * n)));
      forall w :: w in sorted <==> w in Solve(board, n, root, maxResults).starts
  {
    var cc := CellChars(board, n);
    var events := EventsFrom(cc, n, root, n * n);
    var sorted := WordOrder.SortDistinct(Words(events));
    var r := Solve(board, n, root, maxResults);
    forall w ensures w in sorted <==> w in r.starts {
      if w in sorted {
        var i :| 0 <= i < |events| && Words(events)[i] == w;
        assert events[i].word == w;
      }
      if w in r.starts && n > 0 {
        var i :| 0 <= i < |events| && events[i].word == w;
        assert Words(events)[i] == w;
      }
    }
  }

  /** A set whose members all occur in a list has no more members than the
      list has entries. */
  lemma {:induction false} CardAtMost(a: set<string>, xs: seq<string>)
    requires forall x :: x in a ==> x in xs
    ensures |a| <= |xs|
  {
    if |xs| > 0 {
      var rest := a - {xs[0]};
      forall x | x in rest ensures x in xs[1..] {
        var k :| 0 <= k < |xs| && xs[k] == x;
        assert k != 0 && xs[1..][k - 1] == x;
      }
      CardAtMost(rest, xs[1..]);
    }
  }

  /** The starts map has no more words than the dictionary list the trie
      was built from. */
  lemma SolveStartsBound(board: seq<seq<string>>, n: nat, root: Node, maxResults: int, dict: seq<string>)
    requires WellFormed(board, n)
    requires forall v :: Contains(root, v) ==> v in dict
    ensures |Solve(board, n, root, maxResults).starts| <= |dict|
  {
    var m := Solve(board, n, root, maxResults).starts;
    forall w | w in m.Keys ensures w in dict {
      SolveFindsExactly(board, n, root, maxResults, w);
    }
    CardAtMost(m.Keys, dict);
  }

  /** With the cut off, or at least as large as the number of words found,
      the list holds every found word. */
  lemma SolveKeepsAll(board: seq<seq<string>>, n: nat, root: Node, maxResults: int)
    requires WellFormed(board, n)
    requires maxResults <= 0 || |Solve(board, n, root, maxResults).starts| <= maxResults
    ensures forall w :: w in Solve(board, n, root, maxResults).words <==> w in Solve(board, n, root, maxResults).starts
  {
    var sorted := WordOrder.SortDistinct(Words(EventsFrom(CellChars(board, n), n, root, n * n)));
    var r := Solve(board, n, root, maxResults);
    SolveKeys(board, n, root, maxResults);
    assert |r.starts| == |sorted| by {
      assert r.starts.Keys == set x | x in sorted;
      SortedCard(sorted);
      assert |r.starts| == |r.starts.Keys|;
    }
    assert r.words == sorted;
  }

  /** A word list shorter than the cut: every playable word is in the list
      `solve` returns, for a trie built from at most `max_results` words. */
  lemma SolveListsPlayable(board: seq<seq<string>>, n: nat, root: Node, maxResults: int, dict: seq<string>, w: string)
    requires WellFormed(board, n)
    requires forall v :: Contains(root, v) ==> v in dict
    requires maxResults <= 0 || |dict| <= maxResults
    ensures w in Solve(board, n, root, maxResults).words <==> Playable(CellChars(board, n), n, root, w)
  {
    SolveStartsBound(board, n, root, maxResults, dict);
    SolveKeepsAll(board, n, root, maxResults);
    SolveFindsExactly(board, n, root, maxResults, w);
  }
}

=== FILE: search_examples.dfy ===
/**
 Concrete boards from the solver's own test suite, and what the general
 theorems of `Search` say about them. Each lemma is stated for any trie that
 holds exactly the test's word list (`Trie.Build` of the list is one).
 */
module SearchExamples {
  import opened Trie
  import opened Search
  import Ascii

  /** On a board of one-character cells a path spells one character per cell. */
  lemma {:induction false} SpellSingles(cc: seq<string>, p: seq<nat>)
    requires InGrid(cc, p)
    requires forall i :: 0 <= i < |cc| ==> |cc[i]| == 1
    ensures |Spell(cc, p)| == |p|
    ensures forall k :: 0 <= k < |p| ==> Spell(cc, p)[k] == cc[p[k]][0]
    decreases |p|
  {
    if |p| > 0 {
      SpellFirst(cc, p);
      SpellSingles(cc, p[1..]);
    }
  }

  /** An upper-case cell reads as itself. */
  lemma UpperFixed(s: string)
    requires forall i :: 0 <= i < |s| ==> !Ascii.IsLowerLetter(s[i])
    ensures Ascii.UpperStr(s) == s
  {
  }

  /** Spelling a concrete path of three or four cells. */
  lemma Spell3(cc: seq<string>, p: seq<nat>)
    requires |p| == 3 && InGrid(cc, p)
    ensures Spell(cc, p) == cc[p[0]] + cc[p[1]] + cc[p[2]]
  {
    SpellFirst(cc, p);
    SpellFirst(cc, p[1..]);
    SpellFirst(cc, p[2..]);
    assert p[2..][1..] == [];
  }

  lemma Spell4(cc: seq<string>, p: seq<nat>)
    requires |p| == 4 && InGrid(cc, p)
    ensures Spell(cc, p) == cc[p[0]] + cc[p[1]] + cc[p[2]] + cc[p[3]]
  {
    SpellFirst(cc, p);
    Spell3(cc, p[1..]);
  }

  /** A 2x2 board of upper-case cells reads row by row. */
  lemma TwoByTwoCells(board: seq<seq<string>>, a: string, b: string, c: string, d: string)
    requires board == [[a, b], [c, d]]
    requires forall i :: 0 <= i < |a| ==> !Ascii.IsLowerLetter(a[i])
    requires forall i :: 0 <= i < |b| ==> !Ascii.IsLowerLetter(b[i])
    requires forall i :: 0 <= i < |c| ==> !Ascii.IsLowerLetter(c[i])
    requires forall i :: 0 <= i < |d| ==> !Ascii.IsLowerLetter(d[i])
    ensures WellFormed(board, 2)
    ensures CellChars(board, 2) == [a, b, c, d]
  {
    assert WellFormed(board, 2);
    CellCharsAt(board, 2, 0, 0);
    CellCharsAt(board, 2, 0, 1);
    CellCharsAt(board, 2, 1, 0);
    CellCharsAt(board, 2, 1, 1);
    UpperFixed(a);
    UpperFixed(b);
    UpperFixed(c);
    UpperFixed(d);
  }

  /** Only the first cell of [A,B,C,D] reads A. */
  lemma OnlyA(cc: seq<string>, x: nat)
    requires cc == ["A", "B", "C", "D"]
    requires x < 4 && |cc[x]| > 0 && cc[x][0] == 'A'
    ensures x == 0
  {
  }

  /** AB is spelled by the first two cells of [A,B,C,D]. */
  lemma NoRevisitAB(cc: seq<string>, root: Node)
    requires cc == ["A", "B", "C", "D"]
    requires Contains(root, "AB")
    ensures Playable(cc, 2, root, "AB")
  {
    var p: seq<nat> := [0, 1];
    var r: seq<nat> := [1];
    assert p[1..] == r && r[1..] == [];
    SpellFirst(cc, p);
    SpellFirst(cc, r);
    assert Spell(cc, []) == "";
    assert Spell(cc, p) == "A" + ("B" + "");
    assert Adjacent(2, 0, 1);
    assert IsPath(cc, 2, p);
  }

  /** ABA would need the only A cell twice. */
  lemma NoRevisitABA(cc: seq<string>, root: Node)
    requires cc == ["A", "B", "C", "D"]
    ensures !Playable(cc, 2, root, "ABA")
  {
    if Playable(cc, 2, root, "ABA") {
      var q :| IsPath(cc, 2, q) && Spell(cc, q) == "ABA";
      SpellSingles(cc, q);
      OnlyA(cc, q[0]);
      OnlyA(cc, q[2]);
      assert false;
    }
  }

  lemma NoRevisitPaths(cc: seq<string>, root: Node)
    requires cc == ["A", "B", "C", "D"]
    requires forall v :: Contains(root, v) <==> v in ["ABA", "AB", "ABC"]
    ensures Playable(cc, 2, root, "AB")
    ensures !Playable(cc, 2, root, "ABA")
  {
    assert "AB" in ["ABA", "AB", "ABC"];
    NoRevisitAB(cc, root);
    NoRevisitABA(cc, root);
  }

  /** `test_no_revisit`: with the words ABA, AB and ABC on [[A,B],[C,D]],
      AB is found and ABA, which would need cell (0,0) twice, is not. */
  lemma NoRevisit(board: seq<seq<string>>, root: Node, maxResults: int)
    requires board == [["A", "B"], ["C", "D"]]
    requires forall v :: Contains(root, v) <==> v in ["ABA", "AB", "ABC"]
    ensures WellFormed(board, 2)
    ensures "AB" in Solve(board, 2, root, maxResults).starts
    ensures "AB" in Solve(board, 2, root, DefaultMaxResults).words
    ensures "ABA" !in Solve(board, 2, root, maxResults).starts
    ensures "ABA" !in Solve(board, 2, root, maxResults).words
  {
    TwoByTwoCells(board, "A", "B", "C", "D");
    NoRevisitPaths(CellChars(board, 2), root);
    SolveFindsExactly(board, 2, root, maxResults, "AB");
    SolveListsPlayable(board, 2, root, DefaultMaxResults, ["ABA", "AB", "ABC"], "AB");
    SolveFindsExactly(board, 2, root, maxResults, "ABA");
    SolveWordList(board, 2, root, maxResults);
  }

  /** On an all-"Z" board every path spells a word starting with Z, so
      neither CAT nor DOG is playable. */
  lemma AllZUnplayable(cc: seq<string>, root: Node, w: string)
    requires cc == ["Z", "Z", "Z", "Z"]
    requires forall v :: Contains(root, v) <==> v in ["CAT", "DOG"]
    ensures !Playable(cc, 2, root, w)
  {
    if Playable(cc, 2, root, w) {
      var q :| IsPath(cc, 2, q) && Spell(cc, q) == w;
      SpellFirst(cc, q);
      assert false;
    }
  }

  /** `test_empty_results_for_no_matches`: [[Z,Z],[Z,Z]] with CAT and DOG
      yields no words and an empty starts map. */
  lemma NoMatches(board: seq<seq<string>>, root: Node, maxResults: int)
    requires board == [["Z", "Z"], ["Z", "Z"]]
    requires forall v :: Contains(root, v) <==> v in ["CAT", "DOG"]
    ensures WellFormed(board, 2)
    ensures Solve(board, 2, root, maxResults).starts == map[]
    ensures Solve(board, 2, root, maxResults).words == []
  {
    TwoByTwoCells(board, "Z", "Z", "Z", "Z");
    var r := Solve(board, 2, root, maxResults);
    forall w | w in r.starts ensures false {
      SolveFindsExactly(board, 2, root, maxResults, w);
      AllZUnplayable(CellChars(board, 2), root, w);
    }
    assert r.starts.Keys == {};
    SolveWordList(board, 2, root, maxResults);
  }

  /** The first row of [[QU,I,T],[E,S,A],[N,D,R]]. */
  lemma QuitCells(board: seq<seq<string>>)
    requires board == [["QU", "I", "T"], ["E", "S", "A"], ["N", "D", "R"]]
    ensures WellFormed(board, 3)
    ensures |CellChars(board, 3)| == 9
    ensures CellChars(board, 3)[0] == "QU" && CellChars(board, 3)[1] == "I" && CellChars(board, 3)[2] == "T"
  {
    assert WellFormed(board, 3);
    CellCharsAt(board, 3, 0, 0);
    CellCharsAt(board, 3, 0, 1);
    CellCharsAt(board, 3, 0, 2);
    UpperFixed("QU");
    UpperFixed("I");
    UpperFixed("T");
  }

  /** QU, I, T along the first row spell QUIT. */
  lemma QuitPath(cc: seq<string>, root: Node)
    requires |cc| == 9 && cc[0] == "QU" && cc[1] == "I" && cc[2] == "T"
    requires Contains(root, "QUIT")
    ensures Playable(cc, 3, root, "QUIT")
  {
    var p: seq<nat> := [0, 1, 2];
    Spell3(cc, p);
    assert Spell(cc, p) == "QU" + "I" + "T";
    assert Adjacent(3, 0, 1) && Adjacent(3, 1, 2);
    assert IsPath(cc, 3, p);
  }

  /** `test_qu_cell`: the "QU" cell, then I, then T spell QUIT. */
  lemma QuCellSpellsQuit(board: seq<seq<string>>, root: Node, maxResults: int)
    requires board == [["QU", "I", "T"], ["E", "S", "A"], ["N", "D", "R"]]
    requires forall v :: Contains(root, v) <==>
      v in ["QUIT", "QUITE", "QUEST", "QUITS", "SAT", "SET", "TEN", "DEN", "STAR"]
    ensures WellFormed(board, 3)
    ensures "QUIT" in Solve(board, 3, root, maxResults).starts
    ensures "QUIT" in Solve(board, 3, root, DefaultMaxResults).words
  {
    QuitCells(board);
    var dict := ["QUIT", "QUITE", "QUEST", "QUITS", "SAT", "SET", "TEN", "DEN", "STAR"];
    assert "QUIT" in dict;
    QuitPath(CellChars(board, 3), root);
    SolveFindsExactly(board, 3, root, maxResults, "QUIT");
    SolveListsPlayable(board, 3, root, DefaultMaxResults, dict, "QUIT");
  }

  /** Every path on [[QU,I],[T,E]] that spells a word beginning with Q starts
      at the QU cell, so it spells QU first: neither Q nor QI is spelled. */
  lemma QuAtomicPathsQ(cc: seq<string>, root: Node)
    requires cc == ["QU", "I", "T", "E"]
    ensures !Playable(cc, 2, root, "Q")
  {
    if Playable(cc, 2, root, "Q") {
      var q :| IsPath(cc, 2, q) && Spell(cc, q) == "Q";
      SpellFirst(cc, q);
      assert false;
    }
  }

  lemma QuAtomicPathsQI(cc: seq<string>, root: Node)
    requires cc == ["QU", "I", "T", "E"]
    ensures !Playable(cc, 2, root, "QI")
  {
    if Playable(cc, 2, root, "QI") {
      var q :| IsPath(cc, 2, q) && Spell(cc, q) == "QI";
      SpellFirst(cc, q);
      assert false;
    }
  }

  /** A "QU" cell is consumed whole: even with Q and QI in the dictionary,
      no word stops between its Q and its U or skips the U. */
  lemma QuIsAtomic(board: seq<seq<string>>, root: Node, maxResults: int)
    requires board == [["QU", "I"], ["T", "E"]]
    requires forall v :: Contains(root, v) <==> v in ["Q", "QI", "QUIT"]
    ensures WellFormed(board, 2)
    ensures "Q" !in Solve(board, 2, root, maxResults).starts
    ensures "QI" !in Solve(board, 2, root, maxResults).starts
  {
    TwoByTwoCells(board, "QU", "I", "T", "E");
    QuAtomicPathsQ(CellChars(board, 2), root);
    QuAtomicPathsQI(CellChars(board, 2), root);
    SolveFindsExactly(board, 2, root, maxResults, "Q");
    SolveFindsExactly(board, 2, root, maxResults, "QI");
  }

  lemma BasicCells(board: seq<seq<string>>)
    requires board == [["C", "A", "T", "S"], ["R", "E", "P", "O"], ["B", "O", "N", "E"], ["D", "I", "G", "S"]]
    ensures WellFormed(board, 4)
    ensures |CellChars(board, 4)| == 16
    ensures CellChars(board, 4)[0] == "C" && CellChars(board, 4)[1] == "A"
    ensures CellChars(board, 4)[2] == "T" && CellChars(board, 4)[3] == "S"
    ensures CellChars(board, 4)[8] == "B" && CellChars(board, 4)[9] == "O"
    ensures CellChars(board, 4)[10] == "N" && CellChars(board, 4)[11] == "E"
  {
    assert WellFormed(board, 4);
    CellCharsAt(board, 4, 0, 0);
    CellCharsAt(board, 4, 0, 1);
    CellCharsAt(board, 4, 0, 2);
    CellCharsAt(board, 4, 0, 3);
    CellCharsAt(board, 4, 2, 0);
    CellCharsAt(board, 4, 2, 1);
    CellCharsAt(board, 4, 2, 2);
    CellCharsAt(board, 4, 2, 3);
    UpperFixed("C");
    UpperFixed("A");
    UpperFixed("T");
    UpperFixed("S");
    UpperFixed("B");
    UpperFixed("O");
    UpperFixed("N");
    UpperFixed("E");
  }

  /** Four cells `s`, `s + 1`, `s + 2`, `s + 3` of one row of a 4x4 board,
      read left to right, form a legal path. */
  lemma RowPath(cc: seq<string>, s: nat, len: nat)
    requires |cc| == 16 && s % 4 == 0 && s < 16 && 1 <= len <= 4
    requires forall k :: s <= k < s + len ==> cc[k] != "?"
    ensures var p := seq(len, (k: int) => s + k);
      IsPath(cc, 4, p) && p[0] == s
  {
    var p := seq(len, (k: int) => s + k);
    forall k | 0 <= k < len - 1 ensures Adjacent(4, p[k], p[k + 1]) {
      assert p[k] / 4 == s / 4 && p[k + 1] / 4 == s / 4;
    }
  }

  /** A dictionary word spelled by three or four cells of one row, read
      left to right, is playable. */
  lemma RowPlayable(cc: seq<string>, root: Node, s: nat, len: nat, w: string)
    requires |cc| == 16 && s % 4 == 0 && s < 16 && 3 <= len <= 4
    requires forall k :: s <= k < s + len ==> cc[k] != "?"
    requires Contains(root, w)
    requires len == 3 ==> w == cc[s] + cc[s + 1] + cc[s + 2]
    requires len == 4 ==> w == cc[s] + cc[s + 1] + cc[s + 2] + cc[s + 3]
    ensures Playable(cc, 4, root, w)
  {
    RowPath(cc, s, len);
    var p := seq(len, (k: int) => s + k);
    if len == 3 {
      Spell3(cc, p);
    } else {
      Spell4(cc, p);
    }
    assert IsPath(cc, 4, p) && Spell(cc, p) == w;
  }

  lemma BasicPaths(cc: seq<string>, root: Node)
    requires |cc| == 16
    requires cc[0] == "C" && cc[1] == "A" && cc[2] == "T" && cc[3] == "S"
    requires cc[8] == "B" && cc[9] == "O" && cc[10] == "N" && cc[11] == "E"
    requires Contains(root, "CAT") && Contains(root, "CATS") && Contains(root, "BONE")
    ensures Playable(cc, 4, root, "CAT")
    ensures Playable(cc, 4, root, "CATS")
    ensures Playable(cc, 4, root, "BONE")
  {
    assert Playable(cc, 4, root, "CAT") by {
      RowPlayable(cc, root, 0, 3, "CAT");
    }
    assert Playable(cc, 4, root, "CATS") by {
      RowPlayable(cc, root, 0, 4, "CATS");
    }
    assert Playable(cc, 4, root, "BONE") by {
      RowPlayable(cc, root, 8, 4, "BONE");
    }
  }

  /** `test_basic_solve`: CAT, CATS and BONE are found on the 4x4 board, and
      every word in the result is one of the dictionary's. */
  lemma BasicSolve(board: seq<seq<string>>, root: Node, words: seq<string>, maxResults: int)
    requires board == [["C", "A", "T", "S"], ["R", "E", "P", "O"], ["B", "O", "N", "E"], ["D", "I", "G", "S"]]
    requires words == ["CAT", "CATS", "CAR", "CARE", "BONE", "BONES", "REP", "PEN", "PONE",
      "DIG", "DIGS", "ONE", "ONES", "APE", "NOD", "NOG", "SON", "REPO",
      "OPEN", "NOPE", "PEON", "SING", "SIGN"]
    requires forall v :: Contains(root, v) <==> v in words
    ensures WellFormed(board, 4)
    ensures "CAT" in Solve(board, 4, root, DefaultMaxResults).words
    ensures "CATS" in Solve(board, 4, root, DefaultMaxResults).words
    ensures "BONE" in Solve(board, 4, root, DefaultMaxResults).words
    ensures forall w :: w in Solve(board, 4, root, maxResults).words ==> w in words
  {
    BasicCells(board);
    assert Contains(root, "CAT") && Contains(root, "CATS") && Contains(root, "BONE");
    BasicPaths(CellChars(board, 4), root);
    SolveListsPlayable(board, 4, root, DefaultMaxResults, words, "CAT");
    SolveListsPlayable(board, 4, root, DefaultMaxResults, words, "CATS");
    SolveListsPlayable(board, 4, root, DefaultMaxResults, words, "BONE");
    SolveWordList(board, 4, root, maxResults);
    forall w | w in Solve(board, 4, root, maxResults).words ensures w in words {
      SolveFindsExactly(board, 4, root, maxResults, w);
    }
  }
}

=== FILE: templates.dfy ===
/**
 Choosing a letter from template-matching scores (`_template_match` and
 `_template_match_verified`). The scores themselves — the maximum normalised
 cross-correlation of the cell against each template image — are inputs, in
 the order of the template dictionary.
 */
module Templates {
  import opened Wrappers
  import RpCheck

  datatype Score = Score(letter: string, value: real)

  /** `TEMPLATE_HOLES`: enclosed regions of each letter in the game's font. */
  const HoleTable: map<string, int> := map[
    "A" := 1, "B" := 2, "C" := 0, "D" := 1, "E" := 0, "F" := 0, "G" := 0, "H" := 0,
    "I" := 0, "J" := 0, "K" := 0, "L" := 0, "M" := 0, "N" := 0, "O" := 1, "P" := 1,
    "QU" := 1, "R" := 1, "S" := 0, "T" := 0, "U" := 0, "V" := 0, "W" := 0, "X" := 0,
    "Y" := 0, "Z" := 0]

  /** `TEMPLATE_HOLES.get(letter, 0)`. */
  function ExpectedHoles(letter: string): int {
    if letter in HoleTable then HoleTable[letter] else 0
  }

  /** A candidate whose hole count is within one of the cell's. */
  predicate HolesFit(holes: int, letter: string) {
    -1 <= holes - ExpectedHoles(letter) <= 1
  }

  lemma HoleExamples()
    ensures ExpectedHoles("B") == 2 && ExpectedHoles("QU") == 1 && ExpectedHoles("Q") == 0
    ensures HolesFit(0, "O") && HolesFit(2, "O") && !HolesFit(3, "O") && !HolesFit(0, "B")
  {
  }

  /* ---------------------------------------------------------------------- */
  /* Sorting by descending score                                            */
  /* ---------------------------------------------------------------------- */

  ghost predicate Descending(s: seq<Score>) {
    forall i, j :: 0 <= i < j < |s| ==> s[i].value >= s[j].value
  }

  /** Place `x` after every entry scoring at least as much. */
  function Place(x: Score, s: seq<Score>): (r: seq<Score>)
    ensures multiset(r) == multiset(s) + multiset{x}
  {
    if |s| == 0 then [x]
    else if s[0].value >= x.value then
      assert s == [s[0]] + s[1..];
      [s[0]] + Place(x, s[1..])
    else
      [x] + s
  }

  lemma {:induction false} PlaceDescending(x: Score, s: seq<Score>)
    requires Descending(s)
    ensures Descending(Place(x, s))
    decreases |s|
  {
    if |s| > 0 && s[0].value >= x.value {
      PlaceDescending(x, s[1..]);
      var rest := Place(x, s[1..]);
      forall e | e in rest ensures e.value <= s[0].value {
        assert e in multiset(rest);
        assert e in multiset(s[1..]) || e == x;
      }
    }
  }

  /** `scores.sort(key=lambda x: -x[1])`: Python's sort is stable, so entries
      with equal scores keep their input order; inserting the entries left to
      right, each after its equals, does the same. */
  function SortDesc(s: seq<Score>): (r: seq<Score>)
    ensures Descending(r)
    ensures multiset(r) == multiset(s)
  {
    if |s| == 0 then []
    else
      assert s == s[..|s| - 1] + [s[|s| - 1]];
      PlaceDescending(s[|s| - 1], SortDesc(s[..|s| - 1]));
      Place(s[|s| - 1], SortDesc(s[..|s| - 1]))
  }

  /** Every entry of the sorted list is an entry of the input. */
  lemma SortedFromInput(s: seq<Score>, k: int)
    requires 0 <= k < |SortDesc(s)|
    ensures exists i :: 0 <= i < |s| && s[i] == SortDesc(s)[k]
  {
    assert SortDesc(s)[k] in multiset(s);
  }

  /* ---------------------------------------------------------------------- */
  /* First fit in the sorted list versus best fit in input order             */
  /* ---------------------------------------------------------------------- */

  /** The first entry of `s` whose letter satisfies `ok`. */
  function FirstWhere(s: seq<Score>, ok: string -> bool): (r: Option<Score>)
    ensures r.Some? ==> exists k :: 0 <= k < |s| && s[k] == r.value && ok(r.value.letter)
    ensures r.None? <==> forall i :: 0 <= i < |s| ==> !ok(s[i].letter)
  {
    if |s| == 0 then None
    else if ok(s[0].letter) then Some(s[0])
    else FirstWhere(s[1..], ok)
  }

  /** Reference reading, over the scores in template order: the entry with
      the highest score among those whose letter satisfies `ok`, the earliest
      one when several share it. */
  function BestWhere(s: seq<Score>, ok: string -> bool): (r: Option<Score>)
    ensures r.None? <==> forall i :: 0 <= i < |s| ==> !ok(s[i].letter)
    ensures r.Some? ==> exists i :: 0 <= i < |s| && s[i] == r.value && BestAt(s, ok, i)
  {
    if |s| == 0 then None
    else
      var prefix := s[..|s| - 1];
      var x := s[|s| - 1];
      var b := BestWhere(prefix, ok);
      if ok(x.letter) && (b.None? || x.value > b.value.value) then
        BestAtLast(s, ok, b);
        Some(x)
      else
        BestAtEarlier(s, ok, b);
        b
  }

  /** The last entry beats the best fitting entry before it, so it is the best. */
  lemma BestAtLast(s: seq<Score>, ok: string -> bool, b: Option<Score>)
    requires |s| > 0 && ok(s[|s| - 1].letter)
    requires b.None? <==> forall i :: 0 <= i < |s| - 1 ==> !ok(s[i].letter)
    requires b.Some? ==> exists i :: 0 <= i < |s| - 1 && s[i] == b.value && BestAt(s[..|s| - 1], ok, i)
    requires b.None? || s[|s| - 1].value > b.value.value
    ensures BestAt(s, ok, |s| - 1)
  {
    var prefix := s[..|s| - 1];
    assert forall i :: 0 <= i < |prefix| ==> prefix[i] == s[i];
    if b.Some? {
      var k :| 0 <= k < |prefix| && s[k] == b.value && BestAt(prefix, ok, k);
    }
  }

  /** Otherwise the best fitting entry before the last one stays the best. */
  lemma BestAtEarlier(s: seq<Score>, ok: string -> bool, b: Option<Score>)
    requires |s| > 0
    requires b.Some? ==> exists i :: 0 <= i < |s| - 1 && s[i] == b.value && BestAt(s[..|s| - 1], ok, i)
    requires !(ok(s[|s| - 1].letter) && (b.None? || s[|s| - 1].value > b.value.value))
    ensures b.Some? ==> exists i :: 0 <= i < |s| && s[i] == b.value && BestAt(s, ok, i)
  {
    if b.Some? {
      var prefix := s[..|s| - 1];
      assert forall i :: 0 <= i < |prefix| ==> prefix[i] == s[i];
      var k :| 0 <= k < |prefix| && s[k] == b.value && BestAt(prefix, ok, k);
      assert BestAt(s, ok, k);
    }
  }

  /** Entry `i` fits, scores at least as much as every fitting entry, and more
      than every fitting entry before it. */
  ghost predicate BestAt(s: seq<Score>, ok: string -> bool, i: int) {
    && 0 <= i < |s| && ok(s[i].letter)
    && (forall j :: 0 <= j < |s| && ok(s[j].letter) ==> s[j].value <= s[i].value)
    && (forall j :: 0 <= j < i && ok(s[j].letter) ==> s[j].value < s[i].value)
  }

  lemma FirstWhereAtMostHead(s: seq<Score>, ok: string -> bool)
    requires Descending(s) && FirstWhere(s, ok).Some?
    ensures FirstWhere(s, ok).value.value <= s[0].value
  {
  }

  lemma {:induction false} FirstWherePlace(x: Score, s: seq<Score>, ok: string -> bool)
    requires Descending(s)
    ensures FirstWhere(Place(x, s), ok) ==
      if ok(x.letter) && (FirstWhere(s, ok).None? || FirstWhere(s, ok).value.value < x.value)
      then Some(x) else FirstWhere(s, ok)
    decreases |s|
  {
    if |s| > 0 {
      if s[0].value >= x.value {
        FirstWherePlace(x, s[1..], ok);
      } else if FirstWhere(s, ok).Some? {
        FirstWhereAtMostHead(s, ok);
      }
    }
  }

  /** The first fitting entry after the stable descending sort is the
      best-scoring fitting entry, the earliest in template order on ties. */
  lemma {:induction false} SortedFirstIsBest(s: seq<Score>, ok: string -> bool)
    ensures FirstWhere(SortDesc(s), ok) == BestWhere(s, ok)
    decreases |s|
  {
    if |s| > 0 {
      SortedFirstIsBest(s[..|s| - 1], ok);
      FirstWherePlace(s[|s| - 1], SortDesc(s[..|s| - 1]), ok);
    }
  }

  /* ---------------------------------------------------------------------- */
  /* The matchers                                                           */
  /* ---------------------------------------------------------------------- */

  function Any(letter: string): bool {
    true
  }

  /** `_template_match`: keep a candidate only when it scores strictly more
      than the best so far, starting from -1. */
  function PlainMatch(s: seq<Score>): (r: (string, real)) {
    if |s| == 0 then ("?", -1.0)
    else
      var best := PlainMatch(s[..|s| - 1]);
      if s[|s| - 1].value > best.1 then (s[|s| - 1].letter, s[|s| - 1].value) else best
  }

  /** The plain matcher answers with the best-scoring template, the earliest
      on ties, unless no score beats -1. */
  lemma {:induction false} PlainMatchIsBest(s: seq<Score>)
    ensures PlainMatch(s) ==
      match BestWhere(s, Any)
      case Some(b) => if b.value > -1.0 then (b.letter, b.value) else ("?", -1.0)
      case None => ("?", -1.0)
    decreases |s|
  {
    if |s| > 0 {
      PlainMatchIsBest(s[..|s| - 1]);
    }
  }

  /** `_template_match_verified`, given the cell's hole count and its image
      (for the R/P check). */
  function VerifiedMatch(s: seq<Score>, holes: int, img: seq<seq<int>>, w: nat): (r: (string, real))
    requires RpCheck.Rect(img, w)
    ensures |s| == 0 ==> r == ("?", 0.0)
    ensures |s| > 0 ==> r.0 == "R" || r.0 == "P" || exists i :: 0 <= i < |s| && s[i].letter == r.0
  {
    var scores := SortDesc(s);
    if |scores| == 0 then ("?", 0.0)
    else
      SortedFromInput(s, 0);
      match FirstWhere(scores, l => HolesFit(holes, l))
      case None => (scores[0].letter, scores[0].value)
      case Some(pick) =>
        var k :| 0 <= k < |scores| && scores[k] == pick;
        SortedFromInput(s, k);
        if pick.letter == "R" || pick.letter == "P" then
          var correct := RpCheck.Disambiguate(img, w);
          if correct != pick.letter then
            var cs := match FirstWhere(scores, l => l == correct)
              case Some(e) => e.value
              case None => pick.value;
            (correct, cs)
          else (pick.letter, pick.value)
        else (pick.letter, pick.value)
  }

  /** What the verified matcher answers, in terms of the scores in template
      order: the best-scoring template whose hole count fits (the earliest on
      ties); an R or P pick contradicted by the structural check becomes the
      check's verdict with that letter's own score when it has a template, the
      pick's score otherwise; and the best-scoring template overall when no
      hole count fits. */
  lemma VerifiedMatchReference(s: seq<Score>, holes: int, img: seq<seq<int>>, w: nat)
    requires RpCheck.Rect(img, w)
    ensures VerifiedMatch(s, holes, img, w) ==
      if |s| == 0 then ("?", 0.0)
      else match BestWhere(s, l => HolesFit(holes, l))
        case None =>
          var top := BestWhere(s, Any).value;
          (top.letter, top.value)
        case Some(pick) =>
          var correct := RpCheck.Disambiguate(img, w);
          if (pick.letter == "R" || pick.letter == "P") && correct != pick.letter then
            (correct, match BestWhere(s, l => l == correct) case Some(e) => e.value case None => pick.value)
          else (pick.letter, pick.value)
  {
    var scores := SortDesc(s);
    SortedFirstIsBest(s, l => HolesFit(holes, l));
    SortedFirstIsBest(s, Any);
    SortedFirstIsBest(s, l => l == RpCheck.Disambiguate(img, w));
    if |s| > 0 {
      assert scores[0] in multiset(s);
      assert FirstWhere(scores, Any) == Some(scores[0]);
    }
  }
}

=== FILE: trie.dfy ===
/**
 The dictionary trie of the word search (`TrieNode`, `Trie.insert`) and the
 per-line filter `load_trie` applies to the word list. The trie is an immutable
 tree: inserting returns a new root.
 */
module Trie {
  import opened Wrappers
  import Ascii

  /** A trie node: one child per next character, and whether a word ends here. */
  datatype Node = Node(children: map<char, Node>, isWord: bool)

  /** A fresh `TrieNode()`: no children, not a word. */
  const Empty := Node(map[], false)

  /** Follow the edges spelled by `s` from `t`; `None` when an edge is missing. */
  function Walk(t: Node, s: string): Option<Node>
    decreases |s|
  {
    if |s| == 0 then Some(t)
    else if s[0] in t.children then Walk(t.children[s[0]], s[1..])
    else None
  }

  /** `s` is a word of the trie rooted at `t`. */
  predicate Contains(t: Node, s: string) {
    Walk(t, s).Some? && Walk(t, s).value.isWord
  }

  /** Walking a concatenation is walking its parts one after the other. */
  lemma {:induction false} WalkAppend(t: Node, a: string, b: string)
    ensures Walk(t, a + b) == (match Walk(t, a) case None => None case Some(m) => Walk(m, b))
    decreases |a|
  {
    if |a| > 0 {
      assert (a + b)[0] == a[0];
      assert (a + b)[1..] == a[1..] + b;
      if a[0] in t.children {
        WalkAppend(t.children[a[0]], a[1..], b);
      }
    } else {
      assert a + b == b;
    }
  }

  /** A word of the trie has every prefix on a path of the trie. */
  lemma WalkPrefix(t: Node, a: string, b: string)
    requires Contains(t, a + b)
    ensures Walk(t, a).Some?
  {
    WalkAppend(t, a, b);
  }

  /** A node with no children ends every word that passes through it: the
      reason the search may stop extending a path at such a node. */
  lemma LeafEndsWords(t: Node, a: string, b: string)
    requires Walk(t, a).Some? && Walk(t, a).value.children == map[]
    requires Contains(t, a + b)
    ensures b == ""
  {
    WalkAppend(t, a, b);
  }

  lemma EmptyHasNoWords(s: string)
    ensures !Contains(Empty, s)
  {
  }

  /** `Trie.insert`: walk `w`, creating each missing child, and mark the last
      node as a word. Afterwards `w` is a word and no other string changed
      membership. */
  function Insert(t: Node, w: string): (r: Node)
    ensures Contains(r, w)
    ensures forall v :: v != w ==> (Contains(r, v) <==> Contains(t, v))
    decreases |w|
  {
    if |w| == 0 then
      t.(isWord := true)
    else
      var child := if w[0] in t.children then t.children[w[0]] else Empty;
      var sub := Insert(child, w[1..]);
      var r := t.(children := t.children[w[0] := sub]);
      assert forall v :: v != w && |v| > 0 && v[0] == w[0] ==>
        (Contains(r, v) <==> Contains(child, v[1..])) by {
        forall v | v != w && |v| > 0 && v[0] == w[0]
          ensures Contains(r, v) <==> Contains(child, v[1..])
        {
          assert v[1..] != w[1..];
        }
      }
      assert w[0] !in t.children ==> forall v :: !Contains(child, v) by {
        if w[0] !in t.children {
          forall v ensures !Contains(child, v) { EmptyHasNoWords(v); }
        }
      }
      r
  }

  /** Build a trie by inserting `words` in order (the tests' `_make_trie`). */
  function Build(words: seq<string>): (t: Node)
    ensures forall v :: Contains(t, v) <==> v in words
  {
    if |words| == 0 then
      assert forall v :: !Contains(Empty, v) by {
        forall v ensures !Contains(Empty, v) { EmptyHasNoWords(v); }
      }
      Empty
    else
      var prefix := words[..|words| - 1];
      var t := Insert(Build(prefix), words[|words| - 1]);
      assert words == prefix + [words[|words| - 1]];
      t
  }

  /** The form `load_trie` gives a dictionary line before testing it. */
  function Normalize(line: string): string {
    Ascii.UpperStr(Ascii.Strip(line))
  }

  /** `load_trie` keeps a line when its normalised form is long enough and
      entirely alphabetic. */
  predicate Accepted(line: string, minLength: int) {
    |Normalize(line)| >= minLength && Ascii.IsAlphaStr(Normalize(line))
  }

  /** Line `line` puts word `v` into the trie. */
  predicate Yields(line: string, minLength: int, v: string) {
    Accepted(line, minLength) && Normalize(line) == v
  }

  /** Some line of `lines` puts `v` into the trie. */
  ghost predicate Listed(lines: seq<string>, minLength: int, v: string) {
    exists i :: 0 <= i < |lines| && Yields(lines[i], minLength, v)
  }

  /** `load_trie` over the lines of the word list, in file order: the words of
      the result are exactly the normalised forms of the accepted lines. */
  function LoadTrie(lines: seq<string>, minLength: int): (t: Node)
    ensures forall v :: Contains(t, v) <==> Listed(lines, minLength, v)
  {
    if |lines| == 0 then
      assert forall v :: !Contains(Empty, v) by {
        forall v ensures !Contains(Empty, v) { EmptyHasNoWords(v); }
      }
      Empty
    else
      var prefix := lines[..|lines| - 1];
      var last := lines[|lines| - 1];
      var t0 := LoadTrie(prefix, minLength);
      var t := if Accepted(last, minLength) then Insert(t0, Normalize(last)) else t0;
      assert forall v :: Contains(t, v) <==> Listed(lines, minLength, v) by {
        forall v ensures Contains(t, v) <==> Listed(lines, minLength, v) {
          LoadStep(lines, minLength, t0, t, v);
        }
      }
      t
  }

  lemma LoadStep(lines: seq<string>, minLength: int, t0: Node, t: Node, v: string)
    requires |lines| > 0
    requires forall v :: Contains(t0, v) <==> Listed(lines[..|lines| - 1], minLength, v)
    requires forall v :: v != Normalize(lines[|lines| - 1]) ==> (Contains(t, v) <==> Contains(t0, v))
    requires Accepted(lines[|lines| - 1], minLength) ==> Contains(t, Normalize(lines[|lines| - 1]))
    requires !Accepted(lines[|lines| - 1], minLength) ==> t == t0
    ensures Contains(t, v) <==> Listed(lines, minLength, v)
  {
    var last := lines[|lines| - 1];
    var prefix := lines[..|lines| - 1];
    assert prefix + [last] == lines;
    ListedSnoc(prefix, last, minLength, v);
    assert Contains(t0, v) <==> Listed(prefix, minLength, v);
    if v != Normalize(last) {
      assert !Yields(last, minLength, v);
      assert Contains(t, v) <==> Contains(t0, v);
    } else if Accepted(last, minLength) {
      assert Yields(last, minLength, v);
      assert Contains(t, v);
    } else {
      assert !Yields(last, minLength, v);
    }
  }

  lemma ListedSnoc(prefix: seq<string>, last: string, minLength: int, v: string)
    ensures Listed(prefix + [last], minLength, v) <==> Listed(prefix, minLength, v) || Yields(last, minLength, v)
  {
    if Listed(prefix + [last], minLength, v) {
      ListedSnocOnly(prefix, last, minLength, v);
    }
    if Listed(prefix, minLength, v) || Yields(last, minLength, v) {
      ListedSnocIf(prefix, last, minLength, v);
    }
  }

  lemma ListedSnocOnly(prefix: seq<string>, last: string, minLength: int, v: string)
    requires Listed(prefix + [last], minLength, v)
    ensures Listed(prefix, minLength, v) || Yields(last, minLength, v)
  {
    var lines := prefix + [last];
    var i :| 0 <= i < |lines| && Yields(lines[i], minLength, v);
    if i < |prefix| {
      assert lines[i] == prefix[i];
    } else {
      assert lines[i] == last;
    }
  }

  lemma ListedSnocIf(prefix: seq<string>, last: string, minLength: int, v: string)
    requires Listed(prefix, minLength, v) || Yields(last, minLength, v)
    ensures Listed(prefix + [last], minLength, v)
  {
    var lines := prefix + [last];
    if Yields(last, minLength, v) {
      assert lines[|prefix|] == last;
    } else {
      var i :| 0 <= i < |prefix| && Yields(prefix[i], minLength, v);
      assert lines[i] == prefix[i];
    }
  }

  /** Every word of a loaded trie is upper-case, alphabetic and at least
      `minLength` long. */
  lemma LoadedWordsAreUpperAlpha(lines: seq<string>, minLength: int, v: string)
    requires Contains(LoadTrie(lines, minLength), v)
    ensures |v| >= minLength && |v| > 0
    ensures forall k :: 0 <= k < |v| ==> Ascii.IsUpperLetter(v[k])
  {
    var i :| 0 <= i < |lines| && Yields(lines[i], minLength, v);
  }
}

=== FILE: word_order.dfy ===
/**
 The order `solve` sorts its words by, `key=lambda w: (-len(w), w)`: longer
 words first, then Python's code-point lexicographic order; and the optional
 truncation to `max_results`.
 */
module WordOrder {

  /** Python's `<` on strings: the first differing character decides, and a
      proper prefix comes first. */
  predicate LexLess(a: string, b: string)
    decreases |a|
  {
    |b| > 0 && (|a| == 0 || a[0] < b[0] || (a[0] == b[0] && LexLess(a[1..], b[1..])))
  }

  /** `(-len(a), a) < (-len(b), b)`. */
  predicate Before(a: string, b: string) {
    |a| > |b| || (|a| == |b| && LexLess(a, b))
  }

  lemma {:induction false} LexIrreflexive(a: string)
    ensures !LexLess(a, a)
    decreases |a|
  {
    if |a| > 0 {
      LexIrreflexive(a[1..]);
    }
  }

  lemma {:induction false} LexTransitive(a: string, b: string, c: string)
    requires LexLess(a, b) && LexLess(b, c)
    ensures LexLess(a, c)
    decreases |a|
  {
    if |a| > 0 && a[0] == b[0] && b[0] == c[0] {
      LexTransitive(a[1..], b[1..], c[1..]);
    }
  }

  lemma {:induction false} LexTotal(a: string, b: string)
    requires a != b
    ensures LexLess(a, b) || LexLess(b, a)
    decreases |a|
  {
    if |a| > 0 && |b| > 0 && a[0] == b[0] {
      LexTotal(a[1..], b[1..]);
    }
  }

  lemma {:induction false} LexAsymmetric(a: string, b: string)
    requires LexLess(a, b)
    ensures !LexLess(b, a)
  {
    if LexLess(b, a) {
      LexTransitive(a, b, a);
      LexIrreflexive(a);
    }
  }

  /** `Before` is a strict total order on strings. */
  lemma BeforeIrreflexive(a: string)
    ensures !Before(a, a)
  {
    LexIrreflexive(a);
  }

  lemma BeforeTransitive(a: string, b: string, c: string)
    requires Before(a, b) && Before(b, c)
    ensures Before(a, c)
  {
    if |a| == |b| == |c| {
      LexTransitive(a, b, c);
    }
  }

  lemma BeforeTotal(a: string, b: string)
    requires a != b
    ensures Before(a, b) || Before(b, a)
  {
    if |a| == |b| {
      LexTotal(a, b);
    }
  }

  lemma BeforeAsymmetric(a: string, b: string)
    requires Before(a, b)
    ensures !Before(b, a)
  {
    if |a| == |b| {
      LexAsymmetric(a, b);
    }
  }

  /** Strictly increasing in `Before`: sorted and free of duplicates. */
  ghost predicate StrictlySorted(s: seq<string>) {
    forall i, j :: 0 <= i < j < |s| ==> Before(s[i], s[j])
  }

  /** Insert `x` into a strictly sorted sequence, dropping it when present. */
  function InsertWord(x: string, s: seq<string>): (r: seq<string>)
    requires StrictlySorted(s)
    ensures StrictlySorted(r)
    ensures forall w :: w in r <==> w == x || w in s
  {
    if |s| == 0 then [x]
    else if x == s[0] then s
    else if Before(x, s[0]) then
      assert forall j :: 0 <= j < |s| ==> Before(x, s[j]) by {
        forall j | 0 < j < |s| ensures Before(x, s[j]) { BeforeTransitive(x, s[0], s[j]); }
      }
      [x] + s
    else
      BeforeTotal(x, s[0]);
      var tail := InsertWord(x, s[1..]);
      assert forall w :: w in s[1..] ==> Before(s[0], w) by {
        forall w | w in s[1..] ensures Before(s[0], w) {
          var j :| 0 <= j < |s[1..]| && s[1..][j] == w;
          assert s[j + 1] == w;
        }
      }
      assert forall j :: 0 <= j < |tail| ==> Before(s[0], tail[j]) by {
        forall j | 0 <= j < |tail| ensures Before(s[0], tail[j]) {
          assert tail[j] in tail;
        }
      }
      [s[0]] + tail
  }

  /** `sorted(found, key=...)` for the words of `ws` (duplicates collapse, as
      they do in the `found` set of `solve`). */
  function SortDistinct(ws: seq<string>): (r: seq<string>)
    ensures StrictlySorted(r)
    ensures forall w :: w in r <==> w in ws
  {
    if |ws| == 0 then []
    else
      var r := InsertWord(ws[0], SortDistinct(ws[1..]));
      assert ws == [ws[0]] + ws[1..];
      r
  }

  lemma HasMember(b: seq<string>)
    requires |b| > 0
    ensures exists w :: w in b
  {
    var w := b[0];
    assert w in b;
  }

  /** A strictly sorted sequence is determined by its elements: the sorted
      list does not depend on the order the `found` set of `solve` is iterated in. */
  lemma {:induction false} SortedUnique(a: seq<string>, b: seq<string>)
    requires StrictlySorted(a) && StrictlySorted(b)
    requires forall w :: w in a <==> w in b
    ensures a == b
    decreases |a|
  {
    if |a| == 0 {
      if |b| > 0 {
        HasMember(b);
        assert false;
      }
    } else {
      assert a[0] in b && b[0] in a;
      var i :| 0 <= i < |b| && b[i] == a[0];
      var j :| 0 <= j < |a| && a[j] == b[0];
      if a[0] != b[0] {
        assert Before(b[0], b[i]) && Before(a[0], a[j]);
        BeforeAsymmetric(a[0], b[0]);
      }
      assert a[0] == b[0];
      forall w ensures w in a[1..] <==> w in b[1..] {
        if w in a[1..] {
          var k :| 0 <= k < |a[1..]| && a[1..][k] == w;
          assert Before(a[0], w);
          BeforeIrreflexive(w);
          assert w in b;
        }
        if w in b[1..] {
          var k :| 0 <= k < |b[1..]| && b[1..][k] == w;
          assert Before(b[0], w);
          BeforeIrreflexive(w);
          assert w in a;
        }
      }
      SortedUnique(a[1..], b[1..]);
      assert a == [a[0]] + a[1..] && b == [b[0]] + b[1..];
    }
  }

  /** `result[:max_results] if max_results > 0 else result`. */
  function Truncate(ws: seq<string>, maxResults: int): (r: seq<string>)
    ensures maxResults <= 0 ==> r == ws
    ensures maxResults > 0 ==> |r| == (if maxResults < |ws| then maxResults else |ws|)
    ensures r <= ws
  {
    if maxResults > 0 && maxResults < |ws| then ws[..maxResults] else ws
  }

  /** On a strictly sorted list the truncated list holds the first words in
      the order: every word dropped comes after every word kept. */
  lemma TruncateKeepsTop(ws: seq<string>, maxResults: int)
    requires StrictlySorted(ws)
    ensures StrictlySorted(Truncate(ws, maxResults))
    ensures forall k, d :: k in Truncate(ws, maxResults) && d in ws && d !in Truncate(ws, maxResults) ==> Before(k, d)
  {
    var r := Truncate(ws, maxResults);
    forall k, d | k in r && d in ws && d !in r ensures Before(k, d) {
      var i :| 0 <= i < |r| && r[i] == k;
      var j :| 0 <= j < |ws| && ws[j] == d;
      assert r[i] == ws[i];
    }
  }
}

=== FILE: wrappers.dfy ===
/** The optional value shared by the whole model. */
module Wrappers {

  /** An optional value; `None` is Python's `None`. */
  datatype Option<+T> = None | Some(value: T)
}
